=== FILE: README.md ===
# Filament sitemap generator — a Dafny model of the build pipeline

This project models the core of the Filament sitemap generator plugin:

- **The generator service** (`SitemapGeneratorService`). It builds sitemap files.
  - The build writes the static URLs, every configured Eloquent model's records and an optional site crawl through one deduplicating part writer.
  - The writer keeps a seen-set of locations and three per-source counters.
  - It flushes a `sitemap-N.xml` part whenever the current part is full.
  - At the end it writes a single file, nothing, or the parts plus a sitemap index.
  - After the standard sitemaps, the service can build a Google News sitemap of recent records and ping search engines.
  - It records every run, successful or failed, in a `SitemapRun`.
- **The settings resolver** (`SitemapSettingsResolver`). It merges the stored settings row over the configuration file into the effective configuration the generator uses.
- **The settings model** (`SitemapSetting`). It supplies the storage path, the default attributes of a new row and the singleton rule.

Modules, one file each:

| file | module | what it holds |
|---|---|---|
| `prelude.dfy` | `Prelude` | Option/Result, PHP string helpers (`ltrim`, `rtrim`, `basename`, `dirname`), decimal spelling of numbers |
| `php_values.dfy` | `PhpValues` | PHP's untyped values and ordered arrays, with `??`, `isset`, `empty` and the casts the code uses |
| `glob.dfy` | `Glob` | the `*` wildcard match (`Str::is`) used by crawl exclude patterns |
| `urls.dfy` | `Urls` | base URL, `normalizeUrl`, part and news file names, `resolvePublicUrl` |
| `tags.dfy` | `Tags` | building one `<url>` tag: priority and change frequency, last modification date, alternates, images, videos, model URLs, `Sitemapable` results |
| `crawl.dfy` | `Crawl` | the bounded crawl retry and exclude-pattern matching |
| `offers.dfy` | `Offers` | what a build hands to the part writer, in order, and where an exception stops it |
| `parts.dfy` | `Parts` | what the part writer keeps: accepted tags, counters, chunking into parts, part files and URLs |
| `config.dfy` | `Config` | the effective configuration |
| `builder.dfy` | `Builder` | the part writer as a class (`PartWriter`) and the build loops, proved against `Offers` and `Parts` |
| `news.dfy` | `NewsSitemap` | the news sitemap |
| `settings_model.dfy` | `SettingsModel` | `SitemapSetting`: storage path, default attributes, the settings table and the singleton hook |
| `resolver.dfy` | `SettingsResolver` | `SitemapSettingsResolver` |
| `generate.dfy` | `Generator` | `generate`, the index, the news step, search-engine pings and the recorded run |

Exceptions are `Result` failures carrying the message.

External code appears as inputs:
- The database: a map from model class to its query's outcome.
- The crawler engine: the outcome of a crawl with and without JavaScript.
- Time: an integer `now` in seconds.
- `rawurlencode`: a function parameter.
- The framework's paths: functions.

Files written are a log of `(path, document)` pairs.

## Model

| member | source | states |
|---|---|---|
| Prelude.TrimLeadingSlashes | src/Services/SitemapGeneratorService.php:1005 | `ltrim($s, '/')`: a suffix of the input, not starting with `/`, and only `/` were removed |
| Prelude.TrimTrailingSlashes | src/Services/SitemapGeneratorService.php:1015 | `rtrim($s, '/')`: a prefix of the input, not ending with `/`, and only `/` were removed |
| Prelude.AfterLastSlash | src/Services/SitemapGeneratorService.php:232 | the part after the last `/`: a suffix without `/`, preceded by `/` when shorter than the input |
| Prelude.UpToLastSlash | src/Services/SitemapGeneratorService.php:374 | the part up to and including the last `/`: a prefix ending in `/` with no `/` after it |
| Prelude.Dirname | src/Services/SitemapGeneratorService.php:374 | `dirname`: non-empty for a non-empty path; a proper directory is a prefix of the path without a trailing `/` |
| Prelude.AfterLastSlashOfJoin | src/Services/SitemapGeneratorService.php:482 | the last component of `dir/name` is `name` |
| Prelude.AfterLastSlashOfName | src/Services/SitemapGeneratorService.php:480 | a name without `/` is its own last component |
| Prelude.BasenameOfJoin | src/Services/SitemapGeneratorService.php:232 | `basename(dir/name) == name` for a non-empty name without `/` |
| Prelude.BasenameOfName | src/Services/SitemapGeneratorService.php:232 | `basename(name) == name` for a name without `/` |
| Prelude.NatToString | src/Services/SitemapGeneratorService.php:480 | the decimal spelling of a part number is non-empty and all digits |
| Prelude.ParseNatToString | src/Services/SitemapGeneratorService.php:480 | reading back the decimal spelling gives the number (spelling is invertible) |
| Prelude.NatToStringInjective | src/Services/SitemapGeneratorService.php:480 | two numbers with the same spelling are equal |
| PhpValues.Find | src/Services/SitemapSettingsResolver.php:163 | an array lookup finds an entry with that key, and finds nothing exactly when no entry has it |
| PhpValues.Coalesce | src/Services/SitemapSettingsResolver.php:163 | `??`: the value when present and not null, else the default |
| PhpValues.ToStr | src/Services/SitemapSettingsResolver.php:165 | `(string)` keeps strings, gives a date object's `__toString` form (Carbon), and fails exactly on arrays and on date objects whose class has no string form |
| PhpValues.ToFloat | src/Services/SitemapSettingsResolver.php:284 | `(float)` fails exactly on date objects and keeps floats; a string gives the number that starts it after white space, in its own spelling, or 0 when no number starts it |
| PhpValues.SkipSpaces | src/Services/SitemapSettingsResolver.php:284 | the numeric casts skip leading white space: the result is a suffix that does not start with white space |
| PhpValues.ScanMantissa | src/Services/SitemapSettingsResolver.php:284 | the whole digits, an optional point and fraction digits at the start of a string, which is exactly their concatenation with the rest; there are digits exactly when a digit, or a point and a digit, comes first |
| PhpValues.ReadNumber | src/Services/SitemapSettingsResolver.php:284 | a number (sign, digits, fraction, exponent) is read exactly when one starts the string, and then the string starts with its spelling |
| PhpValues.NumericCastsSkipSpaces | src/Services/SitemapSettingsResolver.php:197 | `(float)` and `(int)` of a string are unchanged by white space in front |
| PhpValues.ZeroDecimalFalsy | src/Services/SitemapSettingsResolver.php:247 | a float spelled with zeros only, such as `0.0`, is false |
| PhpValues.ToFloatOfDecimal | src/Services/SitemapSettingsResolver.php:284 | `(float)` of a decimal such as `"0.5"` is that decimal |
| PhpValues.DigitPrefix | src/Services/SitemapSettingsResolver.php:197 | the leading digits that `(int)` of a string reads: a digit prefix followed by a non-digit |
| PhpValues.ToInt | src/Services/SitemapSettingsResolver.php:197 | `(int)` fails exactly on date objects and keeps integers; a string that no number starts gives 0 |
| PhpValues.ToIntOfDigits | src/Services/SitemapSettingsResolver.php:197 | `(int)` of a run of digits is the number they spell |
| PhpValues.ToIntOfExponent | src/Services/SitemapSettingsResolver.php:197 | `(int)` reads an exponent: digits `d`, `e`, digits `k` give d times 10 to the k (`"1e3"` is 1000) |
| PhpValues.ToIntTruncates | src/Services/SitemapSettingsResolver.php:197 | `(int)` of a decimal is its whole part (`"2.9"` is 2) |
| PhpValues.ToIntTruncatesNegative | src/Services/SitemapSettingsResolver.php:197 | `(int)` truncates toward zero (`"-2.9"` is -2) |
| PhpValues.ParseDigitsAppend | src/Services/SitemapSettingsResolver.php:197 | the value of concatenated digit runs: the first scaled by the length of the second, plus the second, which is below that scale |
| PhpValues.StringKey | src/Services/SitemapSettingsResolver.php:317 | a string used as an array key: kept as a string, or an integer key whose spelling is the string |
| PhpValues.StringKeyInjective | src/Services/SitemapSettingsResolver.php:317 | distinct class names give distinct array keys |
| PhpValues.KeyIndex | src/Services/SitemapSettingsResolver.php:317 | the position of a key in an array, or -1 exactly when the key is absent |
| PhpValues.PutSemantics | src/Services/SitemapSettingsResolver.php:317 | `$a[$k] = $v` keeps keys unique, holds the new entry, keeps every other key's entry and adds nothing else |
| Glob.StarMatchesEverything | src/Services/SitemapGeneratorService.php:642-651 | the pattern `*` excludes every URL |
| Glob.GlobMatchesItself | src/Services/SitemapGeneratorService.php:642-651 | every pattern matches its own text |
| Glob.LiteralPatternMatchesOnlyItself | src/Services/SitemapGeneratorService.php:642-651 | a pattern without `*` matches exactly the equal URL |
| Glob.PrefixPatternMatchesPrefixed | src/Services/SitemapGeneratorService.php:642-651 | `prefix*` matches exactly the URLs starting with the prefix |
| Urls.BaseUrl | src/Services/SitemapGeneratorService.php:1010-1016 | the configured base URL, else the app URL, as a prefix without a trailing `/` |
| Urls.NormalizeUrl | src/Services/SitemapGeneratorService.php:999-1008 | absolute URLs are kept; relative ones start with the trimmed base and end with the URL without leading `/`s; an empty remainder gives the trimmed base |
| Urls.LeadingSlashesIgnored | src/Services/SitemapGeneratorService.php:1005 | a leading `/` does not change the normalised URL |
| Urls.RelativeUrlsCollideOnlyWhenEqual | src/Services/SitemapGeneratorService.php:999-1008 | two relative URLs normalise to the same location exactly when they are equal after removing leading `/`s |
| Urls.NormalizeIdempotent | src/Services/SitemapGeneratorService.php:999-1008 | with an absolute base, normalising gives an absolute URL that normalising again keeps |
| Urls.PartFileNameShape | src/Services/SitemapGeneratorService.php:480 | a part file name is `sitemap-….xml` without `/` |
| Urls.PartFileNamesDistinct | src/Services/SitemapGeneratorService.php:480 | different part numbers give different file names |
| Urls.NewsFileIsNoPart | src/Services/SitemapGeneratorService.php:721 | no part file is named `sitemap-news.xml` |
| Urls.PartWritePathShape | src/Services/SitemapGeneratorService.php:480-483 | a part is written under the sitemap's directory in file mode and as the bare file name in disk mode |
| Urls.NewsPathShape | src/Services/SitemapGeneratorService.php:720-722 | the news file is `sitemap-news.xml`, beside the main file in file mode |
| Urls.NewsPathIsNoPartPath | src/Services/SitemapGeneratorService.php:720-722 | the news file never overwrites a part file |
| Urls.PartWritePathsDistinct | src/Services/SitemapGeneratorService.php:480-483 | different parts are written to different paths |
| Urls.ResolvePublicUrl | src/Services/SitemapGeneratorService.php:225-236 | a public URL exists exactly when the base URL does; a base URL failure propagates |
| Urls.ResolvePublicUrlShape | src/Services/SitemapGeneratorService.php:225-236 | the public URL is the trimmed base plus `/`, then the basename (file mode) or the path without leading `/`s (disk mode) |
| Urls.PartPublicUrl | src/Services/SitemapGeneratorService.php:486 | a part's public URL is the trimmed base, `/`, and its file name, in either mode |
| Urls.PartPublicUrlsDistinct | src/Services/SitemapGeneratorService.php:486 | different parts get different public URLs |
| Tags.ApplyPriorityAndChangefreq | src/Services/SitemapGeneratorService.php:989-997 | fails exactly when a set priority is a date; a set priority becomes its float cast; a string changefreq is applied; nothing else changes |
| Tags.StaticLastmod | src/Services/SitemapGeneratorService.php:810-816 | a static entry's last modification date is set exactly when `lastmod` is a date |
| Tags.StaticTag | src/Services/SitemapGeneratorService.php:392-399 | a static tag is located at the entry's string `url` normalised, takes its priority and change frequency from the entry as `applyPriorityAndChangefreq` sets them, has no alternates, images or videos, and carries the entry's `lastmod`; it fails exactly when the `url` is not a string, normalisation fails, the entry is not an array, or the priority cast fails |
| Tags.ModelLastmod | src/Services/SitemapGeneratorService.php:837-850 | with `getSitemapLastModified()`, its date result is used, any other result sets none, and its exception is the failure; without it, a date in `updated_at` is used and nothing throws |
| Tags.AlternatesOf | src/Services/SitemapGeneratorService.php:861-865 | with a base URL the alternates loop succeeds, with at most one alternate per entry |
| Tags.AlternatesExactly | src/Services/SitemapGeneratorService.php:861-865 | each entry with a non-empty string URL gives one alternate, in order, with the normalised URL and the key as locale |
| Tags.ApplyAlternateUrls | src/Services/SitemapGeneratorService.php:852-866 | no alternates without `getAlternateUrls()` or when it returns a non-array; an array gives the alternates of its entries; a throwing method fails with its message; with a base URL a returning method never fails |
| Tags.CollectAlternates | src/Services/SitemapGeneratorService.php:861-865 | the loop computes the alternates specification |
| Tags.AlternatesFailureSticks | src/Services/SitemapGeneratorService.php:861-865 | an exception part-way through the alternates is the whole loop's exception |
| Tags.ImagesOf | src/Services/SitemapGeneratorService.php:877-883 | at most one image per item |
| Tags.ImageCaption | src/Services/SitemapGeneratorService.php:880 | the `(string)` cast of the caption (default `''`) fails exactly on an array or a date without a string form |
| Tags.DateCaptionImage | src/Services/SitemapGeneratorService.php:877-883 | an image whose caption is a date with a string form (a Carbon date) is written with that string as its caption |
| Tags.ImagesExactly | src/Services/SitemapGeneratorService.php:877-883 | when every kept item's caption casts, each item with a non-empty string `url` gives one image, in order, with the normalised URL and its cast caption |
| Tags.ApplySitemapImages | src/Services/SitemapGeneratorService.php:868-884 | no images without `getSitemapImages()` or when it returns a non-array; an array gives the images of its items; a throwing method fails with its message |
| Tags.CollectImages | src/Services/SitemapGeneratorService.php:877-883 | the loop computes the images specification |
| Tags.ImagesFailureSticks | src/Services/SitemapGeneratorService.php:877-883 | an exception part-way through the images is the whole loop's exception |
| Tags.ContentLoc | src/Services/SitemapGeneratorService.php:905 | a content location exists exactly when `content_loc` is set to a string |
| Tags.PlayerLoc | src/Services/SitemapGeneratorService.php:906 | a player location exists exactly when `player_loc` is set to a string or an array |
| Tags.OptionsFor | src/Services/SitemapGeneratorService.php:952-956 | every copied option is a listed key that is present and neither null nor '', with the entry's value |
| Tags.OptionsForUnique | src/Services/SitemapGeneratorService.php:952-956 | distinct listed keys give options with distinct keys |
| Tags.OptionsForHas | src/Services/SitemapGeneratorService.php:952-956 | the options hold a key exactly when it is listed and present with a non-null, non-'' value |
| Tags.OptionsForExactly | src/Services/SitemapGeneratorService.php:952-956 | the options have unique keys and hold a key exactly when it is listed and present with a non-null, non-'' value |
| Tags.VideoOptionsExactly | src/Services/SitemapGeneratorService.php:944-959 | the video options hold exactly those of the 12 keys present with a non-null, non-'' value, each once |
| Tags.ExtractVideoOptions | src/Services/SitemapGeneratorService.php:944-959 | the loop computes the video options specification |
| Tags.CollectOptions | src/Services/SitemapGeneratorService.php:949-955 | the loop over a key list computes the options those keys select |
| Tags.ArrayOrEmpty | src/Services/SitemapGeneratorService.php:916-918 | `allow`, `deny` and `tags` are always arrays |
| Tags.VideoOf | src/Services/SitemapGeneratorService.php:897-934 | a video is added only for an accepted entry whose title and description are strings (the strict-typed `addVideo` call refuses others, and the failure is swallowed); it carries those strings, the normalised thumbnail, the player location and the options; every such entry with a castable thumbnail and a base URL is added |
| Tags.VideosOf | src/Services/SitemapGeneratorService.php:897-935 | at most one video per entry |
| Tags.VideosCount | src/Services/SitemapGeneratorService.php:897-913 | with a base URL and castable thumbnails, the videos are exactly as many as the accepted entries whose title and description are strings |
| Tags.ApplySitemapVideos | src/Services/SitemapGeneratorService.php:886-936 | no videos without `getSitemapVideos()` or when it returns a non-array; an array gives the videos of its entries; fails only when that method throws (each `addVideo` failure is swallowed) |
| Tags.CollectVideos | src/Services/SitemapGeneratorService.php:897-935 | the loop computes the videos specification |
| Tags.ResolveModelUrl | src/Services/SitemapGeneratorService.php:964-984 | the resolver method's string result is normalised, a non-string result gives no URL and a throw propagates; without the method, a named route that exists gives its normalised URL or none when normalisation fails; no route, an empty one or an unknown one gives no URL |
| Tags.BuildModelUrlTag | src/Services/SitemapGeneratorService.php:821-835 | no tag for a missing or empty URL; a tag sits at the record's URL and carries the options' priority and changefreq, the record's last modification date, alternates, images and videos; non-array options fail; when every step succeeds a tag is built |
| Tags.NormalizeSitemapTagToUrl | src/Services/SitemapGeneratorService.php:683-693 | a tag is kept; a blank string or another value is skipped; a non-blank string becomes a tag at its normalised URL |
| Crawl.CrawlResult | src/Services/SitemapGeneratorService.php:534-553 | without JavaScript, the single attempt's tags; with it, the first attempt's tags, or the plain retry's after a failed first attempt |
| Crawl.RunCrawlAttempts | src/Services/SitemapGeneratorService.php:534-553 | one or two attempts, the first with the JavaScript setting; a second exactly when a JavaScript attempt failed, and that one without JavaScript |
| Crawl.UrlMatchesExcludePatterns | src/Services/SitemapGeneratorService.php:642-651 | true exactly when some exclude pattern matches the URL |
| Offers.ForEach | src/Services/SitemapGeneratorService.php:392-393 | a null list iterates nothing; a scalar raises the `foreach` exception |
| Offers.StaticOffersAreEntries | src/Services/SitemapGeneratorService.php:392-399 | every static offer is the tag of one configured entry; without an exception there is one offer per entry |
| Offers.StaticCount | src/Services/SitemapGeneratorService.php:393-399 | without an exception, the static loop offers one tag per entry |
| Offers.ModelOffersAreModelSourced | src/Services/SitemapGeneratorService.php:401-418 | every tag offered from the models is counted as a model URL |
| Offers.ModelEntryOffersAreModelSourced | src/Services/SitemapGeneratorService.php:402-417 | every tag offered for one model class is counted as a model URL |
| Offers.RecordOffersAreModelSourced | src/Services/SitemapGeneratorService.php:407-415 | every tag offered for one record is counted as a model URL |
| Offers.CrawlOffersExactly | src/Services/SitemapGeneratorService.php:555-566 | the crawl never throws, and offers exactly the crawled `<url>` tags that no exclude pattern matches |
| Offers.BuildEmissionOrder | src/Services/SitemapGeneratorService.php:392-423 | static entries come first, then models, then the crawl; a static exception stops the build |
| Offers.NoCrawlOffersWhenDisabled | src/Services/SitemapGeneratorService.php:420-423 | without an enabled crawl nothing is counted as crawled |
| Parts.Accepted | src/Services/SitemapGeneratorService.php:454-458 | the accepted offers are no more than the offers |
| Parts.AcceptedSubsequence | src/Services/SitemapGeneratorService.php:454-458 | the accepted offers are a subsequence of the offers: each is an offer, in the offers' order |
| Parts.AcceptedDistinct | src/Services/SitemapGeneratorService.php:454-464 | accepted locations are non-empty and pairwise distinct, so no location appears twice across all parts |
| Parts.AcceptedLocs | src/Services/SitemapGeneratorService.php:454-458 | the seen-set is exactly the non-empty offered locations |
| Parts.AcceptedFirstOccurrence | src/Services/SitemapGeneratorService.php:454-458 | each accepted offer is the first offer of its location |
| Parts.AcceptedGrows | src/Services/SitemapGeneratorService.php:452-473 | offering more never takes back an accepted tag |
| Parts.AcceptedSnoc | src/Services/SitemapGeneratorService.php:454-464 | a new offer is accepted exactly when its location is non-empty and unseen |
| Parts.CountSource | src/Services/SitemapGeneratorService.php:466-472 | a per-source count never exceeds the accepted tags |
| Parts.CountsAddUp | src/Services/SitemapGeneratorService.php:466-472 | each accepted tag is counted by exactly one counter, so the counters sum to the accepted tags |
| Parts.Chunk | src/Services/SitemapGeneratorService.php:460-464 | splitting tags into parts of at most `m` gives at least one part for a non-empty list |
| Parts.FlattenChunk | src/Services/SitemapGeneratorService.php:460-464 | the parts, concatenated, are the accepted tags in order |
| Parts.ChunkSizes | src/Services/SitemapGeneratorService.php:460-464 | every part but the last holds exactly `m` tags; the last holds 1 to `m`; the part count is the ceiling of tags over `m` |
| Parts.TwoPartsWhenOverfull | src/Services/SitemapGeneratorService.php:441-446 | more than `m` tags give at least two parts |
| Parts.FullPartsAreChunks | src/Services/SitemapGeneratorService.php:441-446 | full flushed parts plus the trailing part are the chunking of all kept tags |
| Parts.PartWrites | src/Services/SitemapGeneratorService.php:480-485 | one file write per part |
| Parts.PartWritesIndex | src/Services/SitemapGeneratorService.php:480-485 | part i is written to part file i+1 with exactly its tags |
| Parts.PartUrls | src/Services/SitemapGeneratorService.php:486 | one public URL per part |
| Parts.PartUrlsIndex | src/Services/SitemapGeneratorService.php:486 | the i-th listed URL is part i+1's |
| Parts.PartUrlsDistinct | src/Services/SitemapGeneratorService.php:486 | the listed part URLs are pairwise distinct |
| Builder.KeptAccept | src/Services/SitemapGeneratorService.php:458-472 | accepting a new location appends it to the current part, adds it to the seen-set and increments exactly its source's counter |
| Builder.KeptReject | src/Services/SitemapGeneratorService.php:454-457 | an empty or seen location leaves the parts, the seen-set and the counters as they were |
| Builder.KeptFlush | src/Services/SitemapGeneratorService.php:475-490 | flushing moves the current part to the flushed parts without changing what is kept |
| Builder.PartFilesFlush | src/Services/SitemapGeneratorService.php:480-487 | a flush writes part `partNumber`, lists its URL and moves to the next number |
| Builder.PartWriter.Begin | src/Services/SitemapGeneratorService.php:366-386 | a build starts with no location seen, an empty first part, part number 1, no part URLs and zero counters |
| Builder.PartWriter.ResolvePartUrl | src/Services/SitemapGeneratorService.php:486 | a part's public URL, or the base URL's exception |
| Builder.PartWriter.FlushCurrentPart | src/Services/SitemapGeneratorService.php:475-490 | a no-op on an empty part; else writes `sitemap-<partNumber>.xml`, lists its URL, increments the part number and empties the current part |
| Builder.PartWriter.AddTagToCurrentSitemap | src/Services/SitemapGeneratorService.php:452-473 | rejected tags change nothing; an accepted tag joins the seen-set and increments its source's counter, after a flush when the part is full |
| Builder.PartWriter.MakeRoom | src/Services/SitemapGeneratorService.php:460-462 | flushing a full part leaves all flushed parts full and an empty current part, or fails with the base URL's exception |
| Builder.PartWriter.KeepTag | src/Services/SitemapGeneratorService.php:458-472 | appends the tag to the current part, marks its location seen, and increments exactly its source's counter |
| Builder.PartWriter.AddStaticUrls | src/Services/SitemapGeneratorService.php:392-399 | the static loop offers the static entries' tags and ends as they do |
| Builder.PartWriter.AddSitemapableRecord | src/Services/SitemapGeneratorService.php:659-678 | a `Sitemapable` record offers its single element or each element of its iterable |
| Builder.PartWriter.AddItems | src/Services/SitemapGeneratorService.php:664-669 | each element of an iterable is offered independently, in order |
| Builder.PartWriter.AddItem | src/Services/SitemapGeneratorService.php:674-677 | one element is offered when it normalises to a tag |
| Builder.PartWriter.AddRecord | src/Services/SitemapGeneratorService.php:407-415 | a record offers its `Sitemapable` tags or its model URL tag |
| Builder.PartWriter.AddRecords | src/Services/SitemapGeneratorService.php:406-417 | a model's records are offered in query order; an exception stops the loop |
| Builder.PartWriter.AddModels | src/Services/SitemapGeneratorService.php:401-418 | every configured model class that exists is queried and offered, in configured order |
| Builder.PartWriter.AppendCrawledUrls | src/Services/SitemapGeneratorService.php:492-573 | the crawl offers exactly its non-excluded `<url>` tags |
| Builder.PartWriter.AddCrawlItem | src/Services/SitemapGeneratorService.php:556-565 | a crawled tag is offered when it is a `<url>` tag no pattern excludes |
| Builder.PartWriter.AddCrawl | src/Services/SitemapGeneratorService.php:420-423 | the crawl runs only when enabled with a non-empty URL |
| Builder.PartWriter.AddSources | src/Services/SitemapGeneratorService.php:392-423 | the writer is offered the whole build's tags, static, then models, then crawl |
| Builder.PartWriter.FinishBuild | src/Services/SitemapGeneratorService.php:425-446 | nothing accepted writes nothing; at most `m` writes one direct file and lists no parts; more flushes the trailing part and lists every part URL |
| Builder.PartWriter.NothingFlushed | src/Services/SitemapGeneratorService.php:430-439 | with no part URL listed, nothing was written and the current part holds every accepted tag |
| Builder.BuildStandardSitemaps | src/Services/SitemapGeneratorService.php:364-447 | fails exactly on a build exception or a flush without a base URL; the counters are the per-source accepted counts; files and part URLs follow the three end cases |
| NewsSitemap.Cutoff | src/Services/SitemapGeneratorService.php:724 | the cutoff is 48 hours before now |
| NewsSitemap.PublicationDate | src/Services/SitemapGeneratorService.php:772-782 | the date from `getSitemapNewsPublicationDate()` when the record has it, else the first non-null of `published_at`, `updated_at`, `created_at` when it is a date |
| NewsSitemap.NewsRecordUrl | src/Services/SitemapGeneratorService.php:761-770 | a URL only from `getSitemapUrl()` returning a string, normalised, and then failing exactly when normalisation does; a throwing method fails with its message; a non-string result or no method gives none |
| NewsSitemap.NewsTitle | src/Services/SitemapGeneratorService.php:755 | the title is the string cast of `getSitemapNewsTitle()` when the record has it (a throw propagates), else of `title`, else of `name`, else ''; without the method it fails exactly when the chosen attribute is an array or a date without a string form |
| NewsSitemap.NewsTag | src/Services/SitemapGeneratorService.php:745-759 | a record is included only with a publication date not before the cutoff and a non-empty URL, and the tag carries the publication name, language, title and date; it fails exactly when the date lookup throws, or a record inside the window has a URL lookup that throws, or a non-empty URL with a title cast that throws |
| NewsSitemap.NewsWindowBoundary | src/Services/SitemapGeneratorService.php:748 | a record published exactly 48 hours ago is included; one second earlier is not |
| NewsSitemap.GatherFails | src/Services/SitemapGeneratorService.php:727-736 | the news loops throw exactly when some iteration throws: nothing is caught |
| NewsSitemap.GatherMembers | src/Services/SitemapGeneratorService.php:727-736 | every collected news tag comes from one iteration |
| NewsSitemap.NewsSitemapContents | src/Services/SitemapGeneratorService.php:708-743 | at most one file is written, `sitemap-news.xml`, only when non-empty, and every tag in it is recent, located and named for the publication |
| NewsSitemap.ModelNewsTag | src/Services/SitemapGeneratorService.php:745-758 | every news tag of a model has a location, a recent date and the publication name |
| NewsSitemap.NoNameNoNews | src/Services/SitemapGeneratorService.php:712-716 | without a publication name nothing is written |
| NewsSitemap.CollectRecordsNews | src/Services/SitemapGeneratorService.php:732-734 | the records loop computes the news specification |
| NewsSitemap.CollectModelsNews | src/Services/SitemapGeneratorService.php:727-736 | the models loop computes the news specification |
| NewsSitemap.BuildNewsSitemap | src/Services/SitemapGeneratorService.php:708-743 | `buildNewsSitemap` writes what the news specification says |
| SettingsModel.StorageFullPath | src/Models/SitemapSetting.php:126-146 | the stored file path in file mode; the public path for storage `public` or ''; the named disk's path, falling back to the public path |
| SettingsModel.DefaultModelEntryFields | src/Models/SitemapSetting.php:93-99 | a default model entry has the class, `enabled` true, `url_resolver_method` defaulting to `getSitemapUrl`, and the configured changefreq and priority |
| SettingsModel.DefaultModelList | src/Models/SitemapSetting.php:91-100 | one default entry per configured model |
| SettingsModel.DefaultModelListIndex | src/Models/SitemapSetting.php:92-100 | entry i is the default entry of configured model i, in order |
| SettingsModel.DefaultModels | src/Models/SitemapSetting.php:90-100 | null models give none, a scalar throws, and an array gives one entry each |
| SettingsModel.CollectDefaultModels | src/Models/SitemapSetting.php:91-100 | the loop computes the default models specification |
| SettingsModel.DefaultAttributes | src/Models/SitemapSetting.php:85-116 | static URLs default to `/` (priority 1.0, daily); change frequency `weekly` and priority 0.8 unless configured; storage `public`, `sitemap.xml`, no index; models and the `(int)` chunk size (default 1000) from the configuration; fails exactly when the models are neither null nor an array or the chunk size is a date |
| SettingsModel.SettingRecord.Creating | src/Models/SitemapSetting.php:153-157 | a row being created gets `singleton = 1` and nothing else changes |
| SettingsModel.FirstSingleton | src/Models/SitemapSetting.php:73 | the first row with `singleton = 1`, or none when no row has it |
| SettingsModel.ReadSettings | src/Models/SitemapSetting.php:71-80 | the settings returned are always a singleton row |
| SettingsModel.SettingsTable.Create | src/Models/SitemapSetting.php:79 | a created row is appended with `singleton = 1`, other attributes as given |
| SettingsModel.SettingsTable.GetSettings | src/Models/SitemapSetting.php:71-80 | the existing singleton row, else a new row from the defaults with `singleton = 1` |
| SettingsModel.SingletonAppended | src/Models/SitemapSetting.php:71-80 | after a singleton row is created, the next read finds it |
| SettingsResolver.NonEmptyString | src/Services/SitemapSettingsResolver.php:234-235 | a value is used exactly when it is a non-empty string |
| SettingsResolver.IntOr | src/Services/SitemapSettingsResolver.php:249 | `(int) ($a[k] ?? d)`: the default when absent or null, integers kept, fails only on uncastable values |
| SettingsResolver.StringOr | src/Services/SitemapSettingsResolver.php:173 | `(string) ($a[k] ?? d)`: the default when absent or null, strings kept, fails only on uncastable values |
| SettingsResolver.StringPatterns | src/Services/SitemapSettingsResolver.php:252 | exclude patterns are non-empty and no more than the entries |
| SettingsResolver.StringPatternsMembers | src/Services/SitemapSettingsResolver.php:252 | a pattern is kept exactly when it is a non-empty string entry |
| SettingsResolver.StringPatternsAppend | src/Services/SitemapSettingsResolver.php:252 | the filter keeps the entries' order |
| SettingsResolver.ResolveOutput | src/Services/SitemapSettingsResolver.php:161-177 | mode disk exactly when configured as `disk`; the file path falls back to `path` in file mode when empty; disk fields default to `public`, `sitemap.xml`, `public` |
| SettingsResolver.OptionalInt | src/Services/SitemapSettingsResolver.php:232-233 | set values become integers; absent or null give none |
| SettingsResolver.ResolveCrawl | src/Services/SitemapSettingsResolver.php:225-261 | a non-array crawl fails; `max_count` only when an integer; exclude patterns are the non-empty strings; `enabled` and `execute_javascript` are set exactly when given and truthy; integers and strings as configured or defaulted |
| SettingsResolver.AtLeastOne | src/Services/SitemapSettingsResolver.php:198-204 | values below 1 become the fallback, so the result is at least 1 |
| SettingsResolver.NormalizeConfig | src/Services/SitemapSettingsResolver.php:190-219 | path is `disk_path` in disk mode else `file_path`; chunk size below 1 becomes 500; `max_urls_per_file` below 1 becomes 50000; no index |
| SettingsResolver.ResolveOutputWithSettings | src/Services/SitemapSettingsResolver.php:72-100 | without the `output_mode` column, or a mode other than `disk`/`file`, the configured output; a stored mode overrides, with its stored fields when present |
| SettingsResolver.Stored | src/Services/SitemapSettingsResolver.php:113-117 | a stored value wins when its column exists and it is not null |
| SettingsResolver.StoredString | src/Services/SitemapSettingsResolver.php:118-122 | a stored string wins when its column exists and it is not null or '' |
| SettingsResolver.ResolveCrawlWithSettings | src/Services/SitemapSettingsResolver.php:108-155 | a stored `max_count` or `maximum_depth` always overrides when the column exists, even null; stored patterns are filtered the same way |
| SettingsResolver.DefaultPriority | src/Services/SitemapSettingsResolver.php:275 | the default priority is 0.8 when unset, else the float cast of the stored value; it fails only for a date |
| SettingsResolver.StaticUrlFields | src/Services/SitemapSettingsResolver.php:282-286 | a resolved static URL is an array with `url`, `priority` and `changefreq` |
| SettingsResolver.StaticEntry | src/Services/SitemapSettingsResolver.php:279-286 | non-arrays and empty URLs are dropped; a missing priority or changefreq takes the default |
| SettingsResolver.FilterMapFails | src/Services/SitemapSettingsResolver.php:278-287 | the list conversion throws exactly when one entry's conversion throws |
| SettingsResolver.FilterMapMembers | src/Services/SitemapSettingsResolver.php:278-287 | an item is in the result exactly when some entry converts to it |
| SettingsResolver.FilterMapAppend | src/Services/SitemapSettingsResolver.php:278-287 | the conversion keeps the entries' order |
| SettingsResolver.Listed | src/Services/SitemapSettingsResolver.php:282 | the kept entries are re-indexed from 0 in order |
| SettingsResolver.ResolveStaticUrls | src/Services/SitemapSettingsResolver.php:266-290 | a non-array stored list falls back to the configured list (default `/`); else the converted entries |
| SettingsResolver.CollectStaticUrls | src/Services/SitemapSettingsResolver.php:277-289 | the loop computes the static-URL specification |
| SettingsResolver.ModelEntry | src/Services/SitemapSettingsResolver.php:309-321 | an empty class or a set, falsy `enabled` drops the entry; priority and changefreq default; `url_resolver_method` is kept when set and not null, else `getSitemapUrl` |
| SettingsResolver.ModelMapUniqueKeys | src/Services/SitemapSettingsResolver.php:317 | the models map holds each class once |
| SettingsResolver.ModelMapLastWins | src/Services/SitemapSettingsResolver.php:317 | the last entry for a class is the one kept |
| SettingsResolver.ModelMapFrom | src/Services/SitemapSettingsResolver.php:308-323 | every map entry comes from one kept model entry |
| SettingsResolver.ResolveModels | src/Services/SitemapSettingsResolver.php:297-325 | a non-array stored list falls back to the configured models; else a map keyed by class with unique keys |
| SettingsResolver.CollectModels | src/Services/SitemapSettingsResolver.php:308-323 | the loop computes the models specification |
| SettingsResolver.StoredOutput | src/Services/SitemapSettingsResolver.php:34-38 | in file mode the file path is always the stored storage path; everything else is the merged output |
| SettingsResolver.StoredChunkSize | src/Services/SitemapSettingsResolver.php:41 | a stored chunk size of at least 100, else the configured one, else 1000 |
| SettingsResolver.ResolveWithSettings | src/Services/SitemapSettingsResolver.php:34-63 | each field from its merge; path is `disk_path` in disk mode else `file_path`; `max_urls_per_file` at least 1 |
| SettingsResolver.Resolve | src/Services/SitemapSettingsResolver.php:20-64 | without the table, or when reading settings throws, exactly `normalizeConfig`; else the merge |
| SettingsResolver.ResolveFromTable | src/Services/SitemapSettingsResolver.php:20-32 | reads (and may create) the settings row only when the table exists, and resolves from it |
| Generator.FailedRun | src/Services/SitemapGeneratorService.php:111-124 | a failed run records the message with all counts and the file size 0 |
| Generator.MaxPerFile | src/Services/SitemapGeneratorService.php:77-80 | a configured maximum below 1 becomes 50000, so the maximum is at least 1 |
| Generator.LowerAscii | src/Services/SitemapGeneratorService.php:796 | `strtolower`: each ASCII capital becomes its lower case, everything else is kept |
| Generator.PingUrl | src/Services/SitemapGeneratorService.php:789-797 | only `google` and `bing` have an endpoint, which is one of the two ping URLs |
| Generator.Requested | src/Services/SitemapGeneratorService.php:795-804 | at most one request per configured engine |
| Generator.RequestedMembers | src/Services/SitemapGeneratorService.php:795-804 | a URL is requested exactly when some engine maps to it |
| Generator.OnlyKnownEndpoints | src/Services/SitemapGeneratorService.php:789-804 | only the Google and Bing endpoints are requested, and each configured one, in any letter case, is |
| Generator.Pings | src/Services/SitemapGeneratorService.php:784-805 | fails only without a base URL or with non-array engines; else the endpoints of the configured engines for the sitemap's public URL |
| Generator.PingSearchEngines | src/Services/SitemapGeneratorService.php:784-805 | the loop requests what the ping specification says |
| Generator.StandardWrites | src/Services/SitemapGeneratorService.php:82-87 | no tags write nothing; up to `m` tags write one file; more write the parts then the index at the main path |
| Generator.IndexListsEveryPart | src/Services/SitemapGeneratorService.php:698-706 | with more than `m` tags there are at least two parts holding all tags in order, each in its own file, and the index lists every part's distinct URL |
| Generator.BuildWithIndex | src/Services/SitemapGeneratorService.php:82-87 | the standard sitemaps and the index; the counts are per source and add up to the accepted tags |
| Generator.Generate | src/Services/SitemapGeneratorService.php:69-126 | succeeds exactly when build, news, pings and file size do; a failure records a zeroed run; the total is the sum of the counters, which equals the accepted tags |

## Left out

- File and storage I/O (`Storage::disk`, `file_put_contents`, `clear`, `getSitemapPath`): writes are a log of paths and documents. `getOutputFileSize` is an input, the size or its exception.
- XML rendering by the sitemap library, `validateSitemap` and `getPreviewData`: documents are their tag lists.
- The HTTP requests of the pings: the model gives the list of endpoints requested. Their errors are swallowed in the source and do not appear.
- The crawler engine (`buildCrawlGenerator`, `resolveInvokable`, crawl profiles, depth, concurrency, the default `max_count` of 1000): each crawl attempt's outcome is an input. The save and restore of the framework configuration around the crawl, and the log messages, are not modelled.
- Eloquent `chunk()`: each model's records are one sequence in query order, so the chunk size (lines 367-370) has no effect in the model.
- Wall-clock time: `now` and dates are integer seconds. `duration_ms` and `generated_at` of a run are not modelled.
- Floats: a float is its PHP spelling, so arithmetic, rounding and the canonical float format are not modelled.
- PhpValues.ToFloat: gives the leading number of a string in the string's own spelling (`" 0.50x"` gives `0.50`) rather than PHP's canonical float spelling (`0.5`); values are the same, spellings may differ.
- PhpValues.ToInt: integers are unbounded, so the 64-bit range of PHP integers is not modelled (a string beyond it saturates in PHP), nor the double rounding of a float or exponent string beyond 2 to the 53.
- `rawurlencode`: a parameter `encode`.
- The framework's `public_path` and disks: inputs of type `Storage`. `Schema::hasColumn` is a set of existing columns, and `Schema::hasTable` a boolean.
- `getConfig()` resolves the settings again on every call. The model resolves once per run, which gives the same result for an unchanged store.
- The settings columns that only the UI and scheduler use (schedule, gzip, large-site mode): they are not part of the row datatype.
- Per-record exceptions during the model loops (lines 407-415) are not caught in the source. One failing record fails the whole run, and the model does the same.
- The library's own checks inside `addVideo` beyond its parameter types are not modelled. The thumbnail cast, URL normalisation and a title or description that is not a string can fail there, and `applySitemapVideos` swallows that failure.
- Tags.ApplyPriorityAndChangefreq: the library's `setPriority` clamps the priority to the range 0 to 1; floats are kept as their spelling here, so the clamp is not applied and the tag holds the unclamped cast.
- Tags.AlternatesOf: its own contract only bounds the count. The exact contents are stated by Tags.AlternatesExactly.
- Tags.VideosOf: its own contract only bounds the count. The contents are stated per entry by Tags.VideoOf, and the count by Tags.VideosCount.
- Resolver line 88 assigns a file path that line 37 then always replaces with the storage path. SettingsResolver.StoredOutput states the final value only.
- The Filament pages and widgets, the console command, the queued job, the service provider, translations and migrations.

=== FILE: builder.dfy ===
/**
 * The part writer of `SitemapGeneratorService`: the per-build fields
 * (`seenUrls`, the current sitemap and its count, the part number, the part
 * URLs, the three counters) as a class, and the build loops that feed it.
 * Each loop is proved against the `Offers` specification of what it offers,
 * and the part writer against the `Parts` specification of what it keeps.
 */
module Builder {
  import opened Prelude
  import opened PhpValues
  import opened Urls
  import opened Tags
  import opened Parts
  import opened Config
  import opened Crawl
  import opened Offers

  /**
   * How a step that offers `e` ended, given that the writer has then been
   * offered `all`: an exception of the step is the step's result; the only
   * other exception is the base URL's, raised when a part is flushed, which
   * needs more than `m` accepted tags.
   */
  predicate Ended(failure: Option<string>, e: Emission, base: Result<string>, m: nat, all: seq<Offer>) {
    (e.error.Some? ==> failure.Some?) &&
    (failure.Some? ==> failure == e.error || (base.Failure? && failure == Some(base.error) && |Accepted(all)| > m)) &&
    (base.Success? || |Accepted(all)| <= m ==> failure == e.error)
  }

  /** A step that threw ends a longer run the same way, once it has been offered at least as much. */
  lemma EndedExtends(failure: Option<string>, step: Emission, whole: Emission, base: Result<string>, m: nat,
                     before: seq<Offer>, after: seq<Offer>)
    requires failure.Some? && Ended(failure, step, base, m, before)
    requires step.error.Some? ==> whole.error == step.error
    requires |Accepted(before)| <= |Accepted(after)|
    ensures Ended(failure, whole, base, m, after)
  {
  }

  /** An iteration of a loop that threw ends the whole loop the same way. */
  lemma LoopStepFailed<T>(s: seq<T>, f: T -> Emission, i: nat, prior: seq<Offer>, failure: Option<string>,
                          base: Result<string>, m: nat)
    requires i < |s| && EmitAll(s[..i], f).error.None? && failure.Some?
    requires Ended(failure, f(s[i]), base, m, prior + EmitAll(s[..i], f).offers + f(s[i]).offers)
    ensures Ended(failure, EmitAll(s, f), base, m, prior + EmitAll(s, f).offers)
  {
    LoopStepBounds(s, f, i, prior);
    EndedExtends(failure, f(s[i]), EmitAll(s, f), base, m,
                 prior + EmitAll(s[..i], f).offers + f(s[i]).offers, prior + EmitAll(s, f).offers);
  }

  /** What a loop has been offered up to and including an iteration, against the whole loop. */
  lemma LoopStepBounds<T>(s: seq<T>, f: T -> Emission, i: nat, prior: seq<Offer>)
    requires i < |s| && EmitAll(s[..i], f).error.None?
    ensures f(s[i]).error.Some? ==> EmitAll(s, f).error == f(s[i]).error
    ensures |Accepted(prior + EmitAll(s[..i], f).offers + f(s[i]).offers)| <= |Accepted(prior + EmitAll(s, f).offers)|
  {
    var e := EmitAll(s[..i + 1], f);
    var whole := EmitAll(s, f);
    EmitAllStep(s, f, i);
    EmitAllPrefix(s, f, i + 1);
    var rest := whole.offers[|e.offers|..];
    var before := prior + EmitAll(s[..i], f).offers + f(s[i]).offers;
    assert before == prior + e.offers;
    assert before + rest == prior + whole.offers;
    AcceptedGrows(before, rest);
  }

  /** An iteration of a loop whose earlier iterations did not throw. */
  lemma LoopStep<T>(s: seq<T>, f: T -> Emission, i: nat, prior: seq<Offer>)
    requires i < |s| && EmitAll(s[..i], f).error.None?
    ensures EmitAll(s[..i + 1], f).error == f(s[i]).error
    ensures prior + EmitAll(s[..i + 1], f).offers == prior + EmitAll(s[..i], f).offers + f(s[i]).offers
  {
    EmitAllStep(s, f, i);
    AppendAssoc(prior, EmitAll(s[..i], f).offers, f(s[i]).offers);
  }

  /** A step that offers nothing and cannot throw. */
  lemma QuietStep(base: Result<string>, m: nat, all: seq<Offer>)
    ensures Ended(None, Nothing, base, m, all)
  {
  }

  /**
   * The writer's kept tags and counters for the offers `offered`: the
   * flushed parts and the current part hold the accepted tags in order,
   * `seen` their locations, and each counter the accepted tags of its source.
   */
  ghost predicate Kept(offered: seq<Offer>, flushed: seq<seq<UrlTag>>, current: seq<UrlTag>, seen: set<string>,
                       staticCount: nat, modelCount: nat, crawlCount: nat)
  {
    var a := Accepted(offered);
    Flatten(flushed) + current == TagsOf(a) &&
    seen == Locs(a) &&
    staticCount == CountSource(a, StaticSource) &&
    modelCount == CountSource(a, ModelSource) &&
    crawlCount == CountSource(a, CrawlSource)
  }

  /** Keeping a tag with a new, non-empty location. */
  lemma KeptAccept(offered: seq<Offer>, flushed: seq<seq<UrlTag>>, current: seq<UrlTag>, seen: set<string>,
                   staticCount: nat, modelCount: nat, crawlCount: nat, o: Offer)
    requires Kept(offered, flushed, current, seen, staticCount, modelCount, crawlCount)
    requires o.tag.loc != "" && o.tag.loc !in seen
    ensures Kept(offered + [o], flushed, current + [o.tag], seen + {o.tag.loc},
                 staticCount + (if o.source == StaticSource then 1 else 0),
                 modelCount + (if o.source == ModelSource then 1 else 0),
                 crawlCount + (if o.source == CrawlSource then 1 else 0))
  {
    AcceptedSnoc(offered, o);
    SummariesSnoc(Accepted(offered), o);
    AppendSnoc(Flatten(flushed), current, o.tag);
  }

  /** Dropping a tag whose location is empty or already kept. */
  lemma KeptReject(offered: seq<Offer>, flushed: seq<seq<UrlTag>>, current: seq<UrlTag>, seen: set<string>,
                   staticCount: nat, modelCount: nat, crawlCount: nat, o: Offer)
    requires Kept(offered, flushed, current, seen, staticCount, modelCount, crawlCount)
    requires o.tag.loc == "" || o.tag.loc in seen
    ensures Kept(offered + [o], flushed, current, seen, staticCount, modelCount, crawlCount)
  {
    AcceptedSnoc(offered, o);
  }

  /** Flushing the current part moves its tags into a new part, keeping their order. */
  lemma KeptFlush(offered: seq<Offer>, flushed: seq<seq<UrlTag>>, current: seq<UrlTag>, seen: set<string>,
                  staticCount: nat, modelCount: nat, crawlCount: nat)
    requires Kept(offered, flushed, current, seen, staticCount, modelCount, crawlCount)
    ensures Kept(offered, flushed + [current], [], seen, staticCount, modelCount, crawlCount)
  {
    FlattenSnoc(flushed, current);
    assert Flatten(flushed + [current]) + [] == Flatten(flushed) + current;
  }

  /**
   * The files and part URLs of the parts `flushed`: the next part number, the
   * listed URLs (only possible with a base URL) and the written files.
   */
  ghost predicate PartFiles(isFileMode: bool, dir: string, base: Result<string>, flushed: seq<seq<UrlTag>>,
                            partNumber: nat, partUrls: seq<string>, written: seq<FileWrite>)
  {
    partNumber == |flushed| + 1 &&
    (|flushed| > 0 ==> base.Success?) &&
    partUrls == (if base.Success? then PartUrls(base.value, |flushed|) else []) &&
    written == PartWrites(isFileMode, dir, flushed)
  }

  /** Flushing part `partNumber` writes its file and lists its URL. */
  lemma PartFilesFlush(isFileMode: bool, dir: string, base: Result<string>, flushed: seq<seq<UrlTag>>,
                       partNumber: nat, partUrls: seq<string>, written: seq<FileWrite>, current: seq<UrlTag>)
    requires PartFiles(isFileMode, dir, base, flushed, partNumber, partUrls, written) && base.Success?
    ensures PartFiles(isFileMode, dir, base, flushed + [current], partNumber + 1,
                      partUrls + [PartUrl(base.value, partNumber)],
                      written + [FileWrite(PartWritePath(isFileMode, dir, partNumber), UrlSet(current))])
  {
    PartWritesSnoc(isFileMode, dir, flushed, current);
  }

  /** Every part holds exactly `m` tags. */
  ghost predicate AllFull(parts: seq<seq<UrlTag>>, m: nat) {
    forall i :: 0 <= i < |parts| ==> |parts[i]| == m
  }

  /** One more full part. */
  lemma AllFullSnoc(parts: seq<seq<UrlTag>>, p: seq<UrlTag>, m: nat)
    requires AllFull(parts, m) && |p| == m
    ensures AllFull(parts + [p], m)
  {
    assert forall i :: 0 <= i < |parts| ==> (parts + [p])[i] == parts[i];
  }

  /** The state of one build. */
  class PartWriter {
    /** `seenUrls`: the locations already accepted. */
    var seen: set<string>
    /** The tags of the part being filled; its length is `currentSitemapCount`. */
    var current: seq<UrlTag>
    var partNumber: nat
    /** `currentPartUrls`: the public URLs of the parts written so far. */
    var partUrls: seq<string>
    var staticCount: nat
    var modelCount: nat
    var crawlCount: nat
    /** The files written so far, in order. */
    var written: seq<FileWrite>

    const path: string
    const mode: OutputMode
    const isFileMode: bool
    const dir: string
    const maxPerFile: nat
    const base: Result<string>

    /** The parts written so far. */
    ghost var flushed: seq<seq<UrlTag>>
    /** Every tag offered so far this build, accepted or not. */
    ghost var offered: seq<Offer>

    /** The written files and listed URLs are those of the flushed parts. */
    ghost predicate Files()
      reads this
    {
      maxPerFile >= 1 && isFileMode == (mode == FileMode) &&
      PartFiles(isFileMode, dir, base, flushed, partNumber, partUrls, written)
    }

    /** The kept tags and the counters are those of the accepted offers. */
    ghost predicate Contents()
      reads this
    {
      Kept(offered, flushed, current, seen, staticCount, modelCount, crawlCount)
    }

    /** Flushed parts are full, the current part is never over-full, and never empty after a flush. */
    ghost predicate Shape()
      reads this
    {
      AllFull(flushed, maxPerFile) && |current| <= maxPerFile && (|flushed| > 0 ==> |current| > 0)
    }

    ghost predicate Valid()
      reads this
    {
      Files() && Contents() && Shape()
    }

    /** The start of `buildStandardSitemaps`: an empty first part and no URL seen. */
    constructor Begin(path: string, mode: OutputMode, maxPerFile: nat, base: Result<string>)
      requires maxPerFile >= 1
      ensures Valid()
      ensures this.path == path && this.mode == mode && this.maxPerFile == maxPerFile && this.base == base
      ensures this.dir == (if mode == FileMode then Dirname(path) else "")
      ensures offered == [] && flushed == [] && current == [] && written == [] && partUrls == []
    {
      this.path := path;
      this.mode := mode;
      this.isFileMode := mode == FileMode;
      this.dir := if mode == FileMode then Dirname(path) else "";
      this.maxPerFile := maxPerFile;
      this.base := base;
      seen := {};
      current := [];
      partNumber := 1;
      partUrls := [];
      staticCount, modelCount, crawlCount := 0, 0, 0;
      written := [];
      flushed := [];
      offered := [];
    }

    /** `resolvePublicUrl` of a part's file name: the part's URL under the base URL, or the base URL's exception. */
    method ResolvePartUrl(n: nat) returns (url: Result<string>)
      ensures url.Failure? <==> base.Failure?
      ensures url.Failure? ==> url.error == base.error
      ensures url.Success? ==> url.value == PartUrl(base.value, n)
    {
      url := ResolvePublicUrl(mode, base, PartFileName(n));
      if base.Success? {
        PartPublicUrl(mode, base.value, n);
      }
    }

    /**
     * `flushCurrentPart`: nothing when the part is empty; otherwise the part
     * is written as `sitemap-<n>.xml`, then its public URL is listed, which
     * throws when the base URL cannot be had.
     */
    method FlushCurrentPart() returns (failure: Option<string>)
      requires Files()
      modifies this`written, this`partUrls, this`partNumber, this`flushed, this`current
      ensures old(current) == [] ==> failure.None? && unchanged(this)
      ensures old(current) != [] ==>
        written == old(written) + [FileWrite(PartWritePath(isFileMode, dir, old(partNumber)), UrlSet(old(current)))]
      ensures old(current) != [] ==> (failure.Some? <==> base.Failure?)
      ensures failure.Some? ==> failure == Some(base.error)
      ensures old(current) != [] && base.Success? ==>
        Files() && flushed == old(flushed) + [old(current)] && current == [] &&
        partUrls == old(partUrls) + [PartUrl(base.value, old(partNumber))]
    {
      if current == [] {
        return None;
      }
      var filename := PartFileName(partNumber);
      var writePath := if isFileMode then dir + "/" + filename else filename;
      written := written + [FileWrite(writePath, UrlSet(current))];
      var url := ResolvePartUrl(partNumber);
      if url.Failure? {
        return Some(url.error);
      }
      PartFilesFlush(isFileMode, dir, base, flushed, partNumber, partUrls, old(written), current);
      partUrls, partNumber, flushed, current := partUrls + [url.value], partNumber + 1, flushed + [current], [];
      failure := None;
    }

    /**
     * `addTagToCurrentSitemap`: a tag with an empty or already seen location
     * is dropped; otherwise a full part is flushed first, the tag joins the
     * current part and its source's counter goes up.
     */
    method AddTagToCurrentSitemap(tag: UrlTag, source: Source) returns (failure: Option<string>)
      requires Valid()
      modifies this
      ensures Ended(failure, Emission([Offer(tag, source)], None), base, maxPerFile, old(offered) + [Offer(tag, source)])
      ensures failure.None? ==> Valid() && offered == old(offered) + [Offer(tag, source)]
      ensures tag.loc == "" || tag.loc in old(seen) ==>
        failure.None? && seen == old(seen) && current == old(current) && written == old(written) &&
        partUrls == old(partUrls) && staticCount == old(staticCount) && modelCount == old(modelCount) &&
        crawlCount == old(crawlCount)
      ensures tag.loc != "" && tag.loc !in old(seen) && failure.None? ==>
        seen == old(seen) + {tag.loc} &&
        staticCount == old(staticCount) + (if source == StaticSource then 1 else 0) &&
        modelCount == old(modelCount) + (if source == ModelSource then 1 else 0) &&
        crawlCount == old(crawlCount) + (if source == CrawlSource then 1 else 0)
    {
      var o := Offer(tag, source);
      AcceptedSnoc(offered, o);
      if tag.loc == "" || tag.loc in seen {
        KeptReject(offered, flushed, current, seen, staticCount, modelCount, crawlCount, o);
        offered := offered + [o];
        return None;
      }
      if |current| < maxPerFile {
        KeepTag(tag, source);
        return None;
      }
      failure := MakeRoom();
      if failure.Some? {
        return;
      }
      KeepTag(tag, source);
    }

    /** A full current part is flushed before the next tag joins. */
    method MakeRoom() returns (failure: Option<string>)
      requires Valid() && |current| >= maxPerFile
      modifies this`written, this`partUrls, this`partNumber, this`flushed, this`current
      ensures failure.Some? <==> base.Failure?
      ensures failure.Some? ==> failure == Some(base.error) && |Accepted(offered)| >= maxPerFile
      ensures failure.None? ==> Files() && Contents() && AllFull(flushed, maxPerFile) && current == []
    {
      assert |Accepted(offered)| == |Flatten(flushed) + current| >= maxPerFile;
      KeptFlush(offered, flushed, current, seen, staticCount, modelCount, crawlCount);
      AllFullSnoc(flushed, current, maxPerFile);
      failure := FlushCurrentPart();
    }

    /**
     * The second half of `addTagToCurrentSitemap`, once there is room: the
     * location is marked as seen, the tag joins the current part and its
     * source's counter goes up. (The source marks the location before a
     * flush; a flush does not look at the seen locations, so the order
     * makes no difference.)
     */
    method KeepTag(tag: UrlTag, source: Source)
      requires Files() && Contents() && AllFull(flushed, maxPerFile) && |current| < maxPerFile
      requires tag.loc != "" && tag.loc !in seen
      modifies this`seen, this`current, this`offered, this`staticCount, this`modelCount, this`crawlCount
      ensures Valid() && offered == old(offered) + [Offer(tag, source)]
      ensures seen == old(seen) + {tag.loc} && current == old(current) + [tag]
      ensures staticCount == old(staticCount) + (if source == StaticSource then 1 else 0)
      ensures modelCount == old(modelCount) + (if source == ModelSource then 1 else 0)
      ensures crawlCount == old(crawlCount) + (if source == CrawlSource then 1 else 0)
    {
      var o := Offer(tag, source);
      KeptAccept(offered, flushed, current, seen, staticCount, modelCount, crawlCount, o);
      var sc, mc, cc := staticCount, modelCount, crawlCount;
      if source == StaticSource {
        sc := sc + 1;
      } else if source == ModelSource {
        mc := mc + 1;
      } else {
        cc := cc + 1;
      }
      seen, current, offered, staticCount, modelCount, crawlCount :=
        seen + {tag.loc}, current + [tag], offered + [o], sc, mc, cc;
      assert Files();
      assert Contents();
    }

    /** The static entries: `foreach ($config['static_urls'] ?? [] as $entry)`. */
    method AddStaticUrls(staticUrls: Value) returns (failure: Option<string>)
      requires Valid()
      modifies this
      ensures var e := StaticUrlsEmission(staticUrls, base);
        Ended(failure, e, base, maxPerFile, old(offered) + e.offers)
      ensures var e := StaticUrlsEmission(staticUrls, base);
        failure.None? ==> Valid() && offered == old(offered) + e.offers
    {
      if staticUrls == Null {
        assert old(offered) + [] == old(offered);
        return None;
      }
      if !staticUrls.Arr? {
        return Some(ForeachError);
      }
      var entries := staticUrls.entries;
      ghost var f := (e: Entry) => StaticEntryEmission(e, base);
      ghost var prior := offered;
      for i := 0 to |entries|
        invariant Valid()
        invariant EmitAll(entries[..i], f).error.None?
        invariant offered == prior + EmitAll(entries[..i], f).offers
      {
        LoopStep(entries, f, i, prior);
        var tag := StaticTag(entries[i].val, base);
        if tag.Failure? {
          failure := Some(tag.error);
          LoopStepFailed(entries, f, i, prior, failure, base, maxPerFile);
          return;
        }
        failure := AddTagToCurrentSitemap(tag.value, StaticSource);
        if failure.Some? {
          LoopStepFailed(entries, f, i, prior, failure, base, maxPerFile);
          return;
        }
      }
      assert entries[..|entries|] == entries;
      failure := None;
    }

    /** `addSitemapableRecordToSitemap`: the single tag, or each tag of the iterable. */
    method AddSitemapableRecord(result: Call<TagReturn>) returns (failure: Option<string>)
      requires Valid()
      modifies this
      ensures var e := SitemapableEmission(result, base);
        Ended(failure, e, base, maxPerFile, old(offered) + e.offers)
      ensures var e := SitemapableEmission(result, base);
        failure.None? ==> Valid() && offered == old(offered) + e.offers
    {
      match result
      case Throws(m) =>
        return Some(m);
      case Returns(SingleTag(item)) =>
        failure := AddItem(item);
      case Returns(IterableTags(items)) =>
        failure := AddItems(items);
    }

    /** Each element of an iterable `toSitemapTag()` result, in order. */
    method AddItems(items: seq<TagItem>) returns (failure: Option<string>)
      requires Valid()
      modifies this
      ensures var e := EmitAll(items, (i: TagItem) => ItemEmission(i, base));
        Ended(failure, e, base, maxPerFile, old(offered) + e.offers)
      ensures var e := EmitAll(items, (i: TagItem) => ItemEmission(i, base));
        failure.None? ==> Valid() && offered == old(offered) + e.offers
    {
      ghost var f := (i: TagItem) => ItemEmission(i, base);
      ghost var prior := offered;
      for i := 0 to |items|
        invariant Valid()
        invariant EmitAll(items[..i], f).error.None?
        invariant offered == prior + EmitAll(items[..i], f).offers
      {
        LoopStep(items, f, i, prior);
        failure := AddItem(items[i]);
        if failure.Some? {
          LoopStepFailed(items, f, i, prior, failure, base, maxPerFile);
          return;
        }
      }
      assert items[..|items|] == items;
      failure := None;
    }

    /** One element of `toSitemapTag()`'s result, through `normalizeSitemapTagToUrl`. */
    method AddItem(item: TagItem) returns (failure: Option<string>)
      requires Valid()
      modifies this
      ensures var e := ItemEmission(item, base);
        Ended(failure, e, base, maxPerFile, old(offered) + e.offers)
      ensures var e := ItemEmission(item, base);
        failure.None? ==> Valid() && offered == old(offered) + e.offers
    {
      var tag := NormalizeSitemapTagToUrl(item, base);
      if tag.Failure? {
        return Some(tag.error);
      }
      if tag.value.None? {
        assert old(offered) + [] == old(offered);
        return None;
      }
      failure := AddTagToCurrentSitemap(tag.value.value, ModelSource);
    }

    /** One record of a model query. */
    method AddRecord(rec: Record, options: Value) returns (failure: Option<string>)
      requires Valid()
      modifies this
      ensures var e := RecordEmission(rec, options, base);
        Ended(failure, e, base, maxPerFile, old(offered) + e.offers)
      ensures var e := RecordEmission(rec, options, base);
        failure.None? ==> Valid() && offered == old(offered) + e.offers
    {
      if rec.sitemapable.Some? {
        failure := AddSitemapableRecord(rec.sitemapable.value);
        return;
      }
      var tag := BuildModelUrlTag(rec, options, base);
      if tag.Failure? {
        return Some(tag.error);
      }
      if tag.value.None? {
        assert old(offered) + [] == old(offered);
        return None;
      }
      failure := AddTagToCurrentSitemap(tag.value.value, ModelSource);
    }

    /** The records of one model, in query order. */
    method AddRecords(records: seq<Record>, options: Value) returns (failure: Option<string>)
      requires Valid()
      modifies this
      ensures var e := RecordsEmission(records, options, base);
        Ended(failure, e, base, maxPerFile, old(offered) + e.offers)
      ensures var e := RecordsEmission(records, options, base);
        failure.None? ==> Valid() && offered == old(offered) + e.offers
    {
      ghost var f := (r: Record) => RecordEmission(r, options, base);
      ghost var prior := offered;
      for i := 0 to |records|
        invariant Valid()
        invariant EmitAll(records[..i], f).error.None?
        invariant offered == prior + EmitAll(records[..i], f).offers
      {
        LoopStep(records, f, i, prior);
        failure := AddRecord(records[i], options);
        if failure.Some? {
          LoopStepFailed(records, f, i, prior, failure, base, maxPerFile);
          return;
        }
      }
      assert records[..|records|] == records;
      failure := None;
    }

    /**
     * The configured models: an entry whose key is not the name of an
     * existing class is skipped; otherwise every record its query yields.
     */
    method AddModels(models: Value, db: map<string, Call<seq<Record>>>) returns (failure: Option<string>)
      requires Valid()
      modifies this
      ensures var e := ModelsEmission(models, db, base);
        Ended(failure, e, base, maxPerFile, old(offered) + e.offers)
      ensures var e := ModelsEmission(models, db, base);
        failure.None? ==> Valid() && offered == old(offered) + e.offers
    {
      if models == Null {
        assert old(offered) + [] == old(offered);
        return None;
      }
      if !models.Arr? {
        return Some(ForeachError);
      }
      var entries := models.entries;
      ghost var f := (e: Entry) => ModelEntryEmission(e, db, base);
      ghost var prior := offered;
      for i := 0 to |entries|
        invariant Valid()
        invariant EmitAll(entries[..i], f).error.None?
        invariant offered == prior + EmitAll(entries[..i], f).offers
      {
        LoopStep(entries, f, i, prior);
        var entry := entries[i];
        if !entry.key.StrKey? || entry.key.s !in db {
          assert offered + [] == offered;
          continue;
        }
        match db[entry.key.s]
        case Throws(m) =>
          failure := Some(m);
          LoopStepFailed(entries, f, i, prior, failure, base, maxPerFile);
          return;
        case Returns(records) =>
          failure := AddRecords(records, entry.val);
          if failure.Some? {
            LoopStepFailed(entries, f, i, prior, failure, base, maxPerFile);
            return;
          }
      }
      assert entries[..|entries|] == entries;
      failure := None;
    }

    /**
     * `appendCrawledUrls`: the crawl with its retry, then every crawled
     * `<url>` tag no exclude pattern matches.
     */
    method AppendCrawledUrls(crawl: CrawlSettings, env: CrawlEnvironment) returns (failure: Option<string>)
      requires Valid()
      modifies this
      ensures var e := CrawlEmission(crawl, env);
        Ended(failure, e, base, maxPerFile, old(offered) + e.offers)
      ensures var e := CrawlEmission(crawl, env);
        failure.None? ==> Valid() && offered == old(offered) + e.offers
    {
      var executeJs := crawl.executeJavascript && env.browsershotInstalled;
      var crawled, attempts := RunCrawlAttempts(executeJs, env);
      if crawled.None? {
        assert old(offered) + [] == old(offered);
        return None;
      }
      var items := crawled.value;
      ghost var f := (i: CrawlItem) => CrawlItemEmission(i, crawl.excludePatterns);
      ghost var prior := offered;
      for i := 0 to |items|
        invariant Valid()
        invariant EmitAll(items[..i], f).error.None?
        invariant offered == prior + EmitAll(items[..i], f).offers
      {
        LoopStep(items, f, i, prior);
        failure := AddCrawlItem(items[i], crawl.excludePatterns);
        if failure.Some? {
          LoopStepFailed(items, f, i, prior, failure, base, maxPerFile);
          return;
        }
      }
      assert items[..|items|] == items;
      failure := None;
    }

    /** One tag of the crawled sitemap: kept when it is a `<url>` tag whose location no exclude pattern matches. */
    method AddCrawlItem(item: CrawlItem, patterns: seq<string>) returns (failure: Option<string>)
      requires Valid()
      modifies this
      ensures var e := CrawlItemEmission(item, patterns);
        Ended(failure, e, base, maxPerFile, old(offered) + e.offers)
      ensures var e := CrawlItemEmission(item, patterns);
        failure.None? ==> Valid() && offered == old(offered) + e.offers
    {
      if !item.CrawledUrl? {
        assert offered + [] == offered;
        return None;
      }
      var excluded := UrlMatchesExcludePatterns(item.tag.loc, patterns);
      if excluded {
        assert offered + [] == offered;
        return None;
      }
      failure := AddTagToCurrentSitemap(item.tag, CrawlSource);
    }

    /** The crawl step, run only when the crawl is enabled. */
    method AddCrawl(crawl: CrawlSettings, env: CrawlEnvironment) returns (failure: Option<string>)
      requires Valid()
      modifies this
      ensures var e := if CrawlEnabled(crawl) then CrawlEmission(crawl, env) else Nothing;
        Ended(failure, e, base, maxPerFile, old(offered) + e.offers)
      ensures var e := if CrawlEnabled(crawl) then CrawlEmission(crawl, env) else Nothing;
        failure.None? ==> Valid() && offered == old(offered) + e.offers
    {
      if !CrawlEnabled(crawl) {
        assert offered + [] == offered;
        return None;
      }
      failure := AppendCrawledUrls(crawl, env);
    }

    /**
     * The three sources of `buildStandardSitemaps` in order: static entries,
     * models, then the crawl, each only when the previous did not throw.
     */
    method AddSources(cfg: EffectiveConfig, db: map<string, Call<seq<Record>>>, env: CrawlEnvironment)
        returns (failure: Option<string>)
      requires Valid()
      modifies this
      ensures var e := BuildEmission(cfg, db, env, base);
        Ended(failure, e, base, maxPerFile, old(offered) + e.offers)
      ensures var e := BuildEmission(cfg, db, env, base);
        failure.None? ==> Valid() && offered == old(offered) + e.offers
    {
      ghost var prior := offered;
      ghost var s := StaticUrlsEmission(cfg.staticUrls, base);
      ghost var m := ModelsEmission(cfg.models, db, base);
      ghost var c := if CrawlEnabled(cfg.crawl) then CrawlEmission(cfg.crawl, env) else Nothing;
      var f1 := AddStaticUrls(cfg.staticUrls);
      var f2 := None;
      if f1.None? {
        f2 := AddModels(cfg.models, db);
        ThenOffered(prior, s, m);
      }
      ThenEnded(f1, f2, s, m, base, maxPerFile, prior);
      failure := if f1.Some? then f1 else f2;
      ghost var sm := Then(s, m);
      var f3 := None;
      if failure.None? {
        f3 := AddCrawl(cfg.crawl, env);
        ThenOffered(prior, sm, c);
      }
      ThenEnded(failure, f3, sm, c, base, maxPerFile, prior);
      failure := if failure.Some? then failure else f3;
    }

    /**
     * The end of `buildStandardSitemaps`: with no part flushed, the kept
     * tags (if any) go to the main path; otherwise the last part is flushed
     * and the part URLs are returned for the index.
     */
    method FinishBuild() returns (parts: seq<string>)
      requires Valid()
      modifies this
      ensures var t := TagsOf(Accepted(offered));
        |t| == 0 ==> (parts == [] && written == [])
      ensures var t := TagsOf(Accepted(offered));
        0 < |t| <= maxPerFile ==> (parts == [] && written == [FileWrite(path, UrlSet(t))])
      ensures var t := TagsOf(Accepted(offered));
        |t| > maxPerFile ==>
          (base.Success? &&
           parts == PartUrls(base.value, |Chunk(t, maxPerFile)|) &&
           written == PartWrites(isFileMode, dir, Chunk(t, maxPerFile)))
      ensures offered == old(offered)
    {
      ghost var t := TagsOf(Accepted(offered));
      if partUrls == [] && |current| > 0 {
        NothingFlushed();
        written := written + [FileWrite(path, UrlSet(current))];
        return [];
      }
      if partUrls == [] && |current| == 0 {
        NothingFlushed();
        return [];
      }
      assert |flushed| > 0;
      FlattenLength(flushed, maxPerFile);
      FullPartsAreChunks(flushed, current, maxPerFile);
      var failure := FlushCurrentPart();
      parts := partUrls;
    }

    /** With no part URL listed, nothing was flushed, so the current part holds every kept tag. */
    lemma NothingFlushed()
      requires Valid() && partUrls == []
      ensures flushed == [] && written == [] && current == TagsOf(Accepted(offered))
    {
      if base.Success? {
        assert |PartUrls(base.value, |flushed|)| == |flushed|;
      }
    }
  }

  /** Full parts hold `m` tags each. */
  lemma {:induction false} FlattenLength<T>(parts: seq<seq<T>>, m: nat)
    requires forall i :: 0 <= i < |parts| ==> |parts[i]| == m
    ensures |Flatten(parts)| == |parts| * m
  {
    if parts != [] {
      FlattenLength(parts[..|parts| - 1], m);
    }
  }

  /** What `buildStandardSitemaps` returns: the part URLs (empty without an index) and the three counts. */
  datatype BuildResult = BuildResult(partUrls: seq<string>, staticCount: nat, modelCount: nat, crawlCount: nat)

  /**
   * `buildStandardSitemaps`: static entries, models, then the crawl when
   * enabled, through one part writer; then the finish. The result is that of
   * the `Offers` and `Parts` specifications: it fails with the first
   * exception, or with the base URL's when a part had to be flushed.
   */
  method BuildStandardSitemaps(path: string, cfg: EffectiveConfig, maxPerFile: nat,
                               db: map<string, Call<seq<Record>>>, env: CrawlEnvironment, base: Result<string>)
      returns (r: Result<BuildResult>, written: seq<FileWrite>)
    requires maxPerFile >= 1
    ensures var e := BuildEmission(cfg, db, env, base);
      r.Failure? <==> e.error.Some? || (base.Failure? && |Accepted(e.offers)| > maxPerFile)
    ensures var e := BuildEmission(cfg, db, env, base);
      r.Failure? ==> Some(r.error) == e.error || (base.Failure? && r.error == base.error)
    ensures var a := Accepted(BuildEmission(cfg, db, env, base).offers);
      r.Success? ==>
        (r.value.staticCount == CountSource(a, StaticSource) &&
         r.value.modelCount == CountSource(a, ModelSource) &&
         r.value.crawlCount == CountSource(a, CrawlSource))
    ensures var t := TagsOf(Accepted(BuildEmission(cfg, db, env, base).offers));
      r.Success? && |t| <= maxPerFile ==>
        (r.value.partUrls == [] && written == (if |t| == 0 then [] else [FileWrite(path, UrlSet(t))]))
    ensures var t := TagsOf(Accepted(BuildEmission(cfg, db, env, base).offers));
      r.Success? && |t| > maxPerFile ==>
        (base.Success? &&
         r.value.partUrls == PartUrls(base.value, |Chunk(t, maxPerFile)|) &&
         written == PartWrites(cfg.output.mode == FileMode, if cfg.output.mode == FileMode then Dirname(path) else "",
                               Chunk(t, maxPerFile)))
  {
    var w := new PartWriter.Begin(path, cfg.output.mode, maxPerFile, base);
    var failure := w.AddSources(cfg, db, env);
    ghost var e := BuildEmission(cfg, db, env, base);
    assert [] + e.offers == e.offers;
    if failure.Some? {
      return Failure(failure.value), w.written;
    }
    if base.Failure? {
      assert w.flushed == [];
      assert |TagsOf(Accepted(w.offered))| <= maxPerFile;
    }
    var staticCount, modelCount, crawlCount := w.staticCount, w.modelCount, w.crawlCount;
    var parts := w.FinishBuild();
    return Success(BuildResult(parts, staticCount, modelCount, crawlCount)), w.written;
  }

  /** What two steps one after the other are offered, when the first did not throw. */
  lemma ThenOffered(prior: seq<Offer>, e1: Emission, e2: Emission)
    requires e1.error.None?
    ensures prior + e1.offers + e2.offers == prior + Then(e1, e2).offers
  {
    AppendAssoc(prior, e1.offers, e2.offers);
  }

  /** Two steps one after the other end as their sequence does. */
  lemma ThenEnded(f1: Option<string>, f2: Option<string>, e1: Emission, e2: Emission,
                    base: Result<string>, m: nat, prior: seq<Offer>)
    requires Ended(f1, e1, base, m, prior + e1.offers)
    requires f1.None? ==> Ended(f2, e2, base, m, prior + e1.offers + e2.offers)
    ensures Ended(if f1.Some? then f1 else f2, Then(e1, e2), base, m, prior + Then(e1, e2).offers)
  {
    if e1.error.None? {
      assert Then(e1, e2).offers == e1.offers + e2.offers;
      assert prior + e1.offers + e2.offers == prior + (e1.offers + e2.offers);
      AcceptedGrows(prior + e1.offers, e2.offers);
    }
  }
}

=== FILE: config.dfy ===
/**
 * The effective configuration the settings resolver hands to the generator.
 * Fields the resolver types are typed here; fields it passes through from
 * the configuration file untouched stay PHP values.
 */
module Config {
  import opened Prelude
  import opened PhpValues
  import opened Urls

  /** Where and how the files are written. */
  datatype OutputSettings = OutputSettings(
    mode: OutputMode,
    filePath: string,
    disk: string,
    diskPath: string,
    visibility: string)

  /** The crawl settings, as the resolver normalises them. */
  datatype CrawlSettings = CrawlSettings(
    enabled: bool,
    url: Option<string>,
    concurrency: int,
    maxCount: Option<int>,
    maxTagsPerSitemap: int,
    excludePatterns: seq<string>,
    maximumDepth: Option<int>,
    crawlProfile: Option<string>,
    shouldCrawl: Option<string>,
    hasCrawled: Option<string>,
    executeJavascript: bool,
    chromeBinaryPath: Option<string>,
    nodeBinaryPath: Option<string>)

  /**
   * The effective configuration. `staticUrls`, `models`, `chunkSize` (with
   * stored settings), `baseUrl`, `news` and `pingSearchEngines` are passed
   * through as the configuration file holds them (null when absent).
 * `enableIndexSitemap` is the stored column as it is (absent when null).
   */
  datatype EffectiveConfig = EffectiveConfig(
    path: string,
    output: OutputSettings,
    staticUrls: Value,
    models: Value,
    chunkSize: Value,
    maxUrlsPerFile: int,
    baseUrl: Value,
    news: Value,
    pingSearchEngines: Value,
    enableIndexSitemap: Option<bool>,
    crawl: CrawlSettings)
}

=== FILE: crawl.dfy ===
/**
 * The crawl step of the build: at most two crawl attempts (the second
 * without JavaScript, only after a failed JavaScript crawl), then the
 * crawled `<url>` tags whose location matches no exclude pattern.
 */
module Crawl {
  import opened Prelude
  import opened Glob
  import opened Tags
  import opened Config

  /** A tag of the crawled sitemap: a `<url>` tag, or some other kind. */
  datatype CrawlItem = CrawledUrl(tag: UrlTag) | OtherTag

  /** What one run of the crawler engine gives: the crawled sitemap's tags, or the exception's message. */
  datatype CrawlOutcome = CrawlSucceeded(items: seq<CrawlItem>) | CrawlFailed(message: string)

  /**
   * The crawler engine, which is not part of this model, as an input: what a
   * crawl with and without JavaScript execution gives for the configured
   * site, and whether the headless-browser package is installed.
   */
  datatype CrawlEnvironment = CrawlEnvironment(
    withJavascript: CrawlOutcome,
    withoutJavascript: CrawlOutcome,
    browsershotInstalled: bool)

  /** The crawl runs only when enabled with a non-empty start URL. */
  predicate CrawlEnabled(crawl: CrawlSettings) {
    crawl.enabled && crawl.url.Some? && crawl.url.value != ""
  }

  /** JavaScript execution needs both the setting and the headless-browser package. */
  predicate ExecuteJavascript(crawl: CrawlSettings, env: CrawlEnvironment) {
    crawl.executeJavascript && env.browsershotInstalled
  }

  /** What the crawler engine gives for one attempt. */
  function Attempt(withJavascript: bool, env: CrawlEnvironment): CrawlOutcome {
    if withJavascript then env.withJavascript else env.withoutJavascript
  }

  /**
   * The crawled tags: the first attempt's when it succeeds; after a failed
   * JavaScript attempt, the plain retry's when that succeeds; else none.
   */
  function CrawlResult(executeJs: bool, env: CrawlEnvironment): (r: Option<seq<CrawlItem>>)
    ensures !executeJs ==> (r.Some? <==> env.withoutJavascript.CrawlSucceeded?)
    ensures executeJs && env.withJavascript.CrawlSucceeded? ==> r == Some(env.withJavascript.items)
    ensures executeJs && env.withJavascript.CrawlFailed? ==>
      (r.Some? <==> env.withoutJavascript.CrawlSucceeded?)
  {
    var first := Attempt(executeJs, env);
    if first.CrawlSucceeded? then Some(first.items)
    else if executeJs && env.withoutJavascript.CrawlSucceeded? then Some(env.withoutJavascript.items)
    else None
  }

  /**
   * The bounded retry loop: attempts 0 and 1, a retry only after a failed
   * JavaScript attempt, and JavaScript switched off for the retry.
   * `attempts` records, per attempt made, whether JavaScript was on.
   */
  method RunCrawlAttempts(executeJs: bool, env: CrawlEnvironment)
      returns (crawled: Option<seq<CrawlItem>>, attempts: seq<bool>)
    ensures crawled == CrawlResult(executeJs, env)
    ensures 1 <= |attempts| <= 2 && attempts[0] == executeJs
    ensures |attempts| == 2 <==> executeJs && env.withJavascript.CrawlFailed?
    ensures |attempts| == 2 ==> !attempts[1]
  {
    crawled := None;
    attempts := [];
    for attempt := 0 to 2
      invariant |attempts| == attempt
      invariant attempt < 2 ==> crawled.None?
      invariant attempt == 1 ==> attempts == [executeJs] && executeJs && env.withJavascript.CrawlFailed?
      invariant attempt == 2 ==> crawled == CrawlResult(executeJs, env) && attempts == [true, false] &&
                                 executeJs && env.withJavascript.CrawlFailed?
    {
      var javascriptOn := executeJs && attempt == 0;
      attempts := attempts + [javascriptOn];
      var outcome := Attempt(javascriptOn, env);
      if outcome.CrawlSucceeded? {
        crawled := Some(outcome.items);
        break;
      }
      if attempt == 0 && executeJs {
        continue;
      }
      break;
    }
  }

  /** Whether some exclude pattern matches the URL. */
  predicate Excluded(url: string, patterns: seq<string>) {
    exists i :: 0 <= i < |patterns| && GlobMatch(patterns[i], url)
  }

  /** `urlMatchesExcludePatterns`: stops at the first matching pattern. */
  method UrlMatchesExcludePatterns(url: string, patterns: seq<string>) returns (matched: bool)
    ensures matched <==> Excluded(url, patterns)
  {
    for i := 0 to |patterns|
      invariant forall j :: 0 <= j < i ==> !GlobMatch(patterns[j], url)
    {
      if GlobMatch(patterns[i], url) {
        return true;
      }
    }
    return false;
  }
}

=== FILE: generate.dfy ===
/**
 * One sitemap generation (`generate`): the standard sitemap files, the index
 * over the parts, the news sitemap and the search-engine pings, recorded as
 * a run that either succeeded with its counts or failed with a message.
 */
module Generator {
  import opened Prelude
  import opened PhpValues
  import opened Urls
  import opened Tags
  import opened Parts
  import opened Config
  import opened Crawl
  import opened Offers
  import opened Builder
  import opened NewsSitemap

  /** How a run ended. */
  datatype RunStatus = Succeeded | Failed

  /** The recorded run (`SitemapRun`); the generation time and its duration are not modelled. */
  datatype SitemapRun = SitemapRun(
    status: RunStatus,
    totalUrls: nat,
    staticUrls: nat,
    modelUrls: nat,
    crawledUrls: nat,
    fileSize: nat,
    errorMessage: Option<string>)

  /** The run recorded when the generation throws: every count and the file size zero, the message kept. */
  function FailedRun(message: string): (run: SitemapRun)
    ensures run.status == Failed && run.errorMessage == Some(message)
    ensures run.totalUrls == 0 && run.staticUrls == 0 && run.modelUrls == 0 && run.crawledUrls == 0
    ensures run.fileSize == 0
  {
    SitemapRun(Failed, 0, 0, 0, 0, 0, Some(message))
  }

  /** The URLs per sitemap file the build uses: the configured number, or 50000 when it is below 1. */
  function MaxPerFile(configured: int): (m: nat)
    ensures m >= 1
    ensures configured >= 1 ==> m == configured
    ensures configured < 1 ==> m == 50000
  {
    if configured < 1 then 50000 else configured
  }

  /** PHP `strtolower`: ASCII upper-case letters to lower case, every other character unchanged. */
  function LowerAscii(s: string): (r: string)
    ensures |r| == |s|
    ensures forall i :: 0 <= i < |s| ==> ('A' <= s[i] <= 'Z' ==> r[i] as int == s[i] as int + 32)
    ensures forall i :: 0 <= i < |s| ==> (!('A' <= s[i] <= 'Z') ==> r[i] == s[i])
  {
    if s == [] then []
    else
      var c := s[0];
      [if 'A' <= c <= 'Z' then (c as int + 32) as char else c] + LowerAscii(s[1..])
  }

  /** The ping endpoint of Google for a sitemap URL, through PHP `rawurlencode`. */
  function GooglePing(sitemapUrl: string, encode: string -> string): string {
    "https://www.google.com/ping?sitemap=" + encode(sitemapUrl)
  }

  /** The ping endpoint of Bing for a sitemap URL, through PHP `rawurlencode`. */
  function BingPing(sitemapUrl: string, encode: string -> string): string {
    "https://www.bing.com/ping?sitemap=" + encode(sitemapUrl)
  }

  /** A configured engine name: a string lower-cased, anything else ''. */
  function EngineName(v: Value): string {
    if v.Str? then LowerAscii(v.s) else ""
  }

  /** `$pingUrls[$engine] ?? null`: only `google` and `bing` have an endpoint. */
  function PingUrl(engine: string, sitemapUrl: string, encode: string -> string): (r: Option<string>)
    ensures r.Some? <==> engine == "google" || engine == "bing"
    ensures r.Some? ==> r.value == GooglePing(sitemapUrl, encode) || r.value == BingPing(sitemapUrl, encode)
  {
    if engine == "google" then Some(GooglePing(sitemapUrl, encode))
    else if engine == "bing" then Some(BingPing(sitemapUrl, encode))
    else None
  }

  /** The endpoint function for one sitemap URL: a configured engine to its request, if any. */
  function EngineFn(sitemapUrl: string, encode: string -> string): Value -> Option<string> {
    v => PingUrl(EngineName(v), sitemapUrl, encode)
  }

  /** The requests for the configured engines, in order; an engine `f` maps to nothing requests nothing. */
  function Requested(engines: seq<Entry>, f: Value -> Option<string>): (r: seq<string>)
    ensures |r| <= |engines|
  {
    if engines == [] then []
    else
      var before := Requested(engines[..|engines| - 1], f);
      var url := f(engines[|engines| - 1].val);
      if url.Some? then before + [url.value] else before
  }

  /** The requests are exactly the endpoints of the engines configured that have one. */
  lemma {:induction false} RequestedMembers(engines: seq<Entry>, f: Value -> Option<string>, u: string)
    ensures u in Requested(engines, f) <==> exists i :: 0 <= i < |engines| && f(engines[i].val) == Some(u)
  {
    if engines != [] {
      var init := engines[..|engines| - 1];
      RequestedMembers(init, f, u);
      if exists i :: 0 <= i < |init| && f(init[i].val) == Some(u) {
        var i :| 0 <= i < |init| && f(init[i].val) == Some(u);
        assert engines[i] == init[i];
      }
      if exists i :: 0 <= i < |engines| && f(engines[i].val) == Some(u) {
        var i :| 0 <= i < |engines| && f(engines[i].val) == Some(u);
        if i < |init| {
          assert init[i] == engines[i];
        }
      }
    }
  }

  /**
   * Every request goes to Google's or Bing's endpoint for the sitemap, and
   * each configured `google` or `bing` (in any case) is requested.
   */
  lemma OnlyKnownEndpoints(engines: seq<Entry>, sitemapUrl: string, encode: string -> string, u: string)
    ensures u in Requested(engines, EngineFn(sitemapUrl, encode)) ==>
      u == GooglePing(sitemapUrl, encode) || u == BingPing(sitemapUrl, encode)
    ensures forall i :: 0 <= i < |engines| && EngineName(engines[i].val) == "google" ==>
      GooglePing(sitemapUrl, encode) in Requested(engines, EngineFn(sitemapUrl, encode))
    ensures forall i :: 0 <= i < |engines| && EngineName(engines[i].val) == "bing" ==>
      BingPing(sitemapUrl, encode) in Requested(engines, EngineFn(sitemapUrl, encode))
  {
    var f := EngineFn(sitemapUrl, encode);
    RequestedMembers(engines, f, u);
    RequestedMembers(engines, f, GooglePing(sitemapUrl, encode));
    RequestedMembers(engines, f, BingPing(sitemapUrl, encode));
    if u in Requested(engines, f) {
      var i :| 0 <= i < |engines| && f(engines[i].val) == Some(u);
    }
  }

  /** Pings are switched on by a non-empty `ping_search_engines.enabled`. */
  predicate PingEnabled(cfg: EffectiveConfig) {
    !IsEmpty(Get(cfg.pingSearchEngines, "enabled"))
  }

  /** The news sitemap is switched on by a non-empty `news.enabled`. */
  predicate NewsEnabled(cfg: EffectiveConfig) {
    !IsEmpty(Get(cfg.news, "enabled"))
  }

  /**
   * `pingSearchEngines`, as the endpoints it requests: the public URL of the
   * main file (which throws when the base URL cannot be had), then one
   * request per configured known engine; a configured engine list that is
   * not an array throws. Request failures are swallowed.
   */
  function Pings(cfg: EffectiveConfig, base: Result<string>, encode: string -> string): (r: Result<seq<string>>)
    ensures base.Failure? ==> r == Failure(base.error)
    ensures base.Success? ==>
      var engines := Coalesce(Get(cfg.pingSearchEngines, "engines"), Arr([]));
      (r.Failure? <==> !engines.Arr?) &&
      (r.Success? ==>
        r.value == Requested(engines.entries, EngineFn(ResolvePublicUrl(cfg.output.mode, base, cfg.path).value, encode)))
  {
    var sitemapUrl :- ResolvePublicUrl(cfg.output.mode, base, cfg.path);
    var engines := Coalesce(Get(cfg.pingSearchEngines, "engines"), Arr([]));
    if !engines.Arr? then Failure(ForeachError)
    else Success(Requested(engines.entries, EngineFn(sitemapUrl, encode)))
  }

  /** The loop of `pingSearchEngines`. */
  method PingSearchEngines(cfg: EffectiveConfig, base: Result<string>, encode: string -> string)
    returns (r: Result<seq<string>>)
    ensures r == Pings(cfg, base, encode)
  {
    var sitemapUrl := ResolvePublicUrl(cfg.output.mode, base, cfg.path);
    if sitemapUrl.Failure? {
      return Failure(sitemapUrl.error);
    }
    var engines := Coalesce(Get(cfg.pingSearchEngines, "engines"), Arr([]));
    if !engines.Arr? {
      return Failure(ForeachError);
    }
    var f := EngineFn(sitemapUrl.value, encode);
    var requested: seq<string> := [];
    for i := 0 to |engines.entries|
      invariant requested == Requested(engines.entries[..i], f)
    {
      assert engines.entries[..i + 1][..i] == engines.entries[..i];
      var url := f(engines.entries[i].val);
      if url.Some? {
        requested := requested + [url.value];
      }
    }
    assert engines.entries[..|engines.entries|] == engines.entries;
    return Success(requested);
  }

  /** The tags the standard build keeps: the accepted offers' tags, in order. */
  function AcceptedTags(cfg: EffectiveConfig, db: map<string, Call<seq<Record>>>, env: CrawlEnvironment,
                        base: Result<string>): seq<UrlTag> {
    TagsOf(Accepted(BuildEmission(cfg, db, env, base).offers))
  }

  /** The standard build goes through: no source throws, and a part list never needs a missing base URL. */
  predicate BuildOk(cfg: EffectiveConfig, db: map<string, Call<seq<Record>>>, env: CrawlEnvironment,
                    base: Result<string>, m: nat) {
    var e := BuildEmission(cfg, db, env, base);
    e.error.None? && !(base.Failure? && |Accepted(e.offers)| > m)
  }

  /**
   * The standard files of a build that went through: nothing for no tags,
   * one file at the main path for at most `m` tags, else the parts of `m`
   * tags each followed by the index at the main path listing them.
   */
  function StandardWrites(path: string, mode: OutputMode, m: nat, base: Result<string>, t: seq<UrlTag>)
    : (r: seq<FileWrite>)
    requires m >= 1
    requires |t| > m ==> base.Success?
    ensures |t| == 0 ==> r == []
    ensures 0 < |t| <= m ==> r == [FileWrite(path, UrlSet(t))]
    ensures |t| > m ==>
      |r| == |Chunk(t, m)| + 1 && r[|r| - 1] == FileWrite(path, SitemapIndex(PartUrls(base.value, |Chunk(t, m)|)))
  {
    if |t| <= m then (if t == [] then [] else [FileWrite(path, UrlSet(t))])
    else
      var parts := Chunk(t, m);
      PartWrites(mode == FileMode, if mode == FileMode then Dirname(path) else "", parts) +
      [FileWrite(path, SitemapIndex(PartUrls(base.value, |parts|)))]
  }

  /**
   * With more tags than fit in one file the build writes at least two parts,
   * part `i` holding the `i`-th cut of `m` tags at the path of number `i`,
   * the parts together holding every kept tag once in order, and an index
   * listing each part's public URL once.
   */
  lemma IndexListsEveryPart(path: string, mode: OutputMode, m: nat, base: string, t: seq<UrlTag>)
    requires m >= 1 && |t| > m
    ensures var parts := Chunk(t, m);
      var r := StandardWrites(path, mode, m, Success(base), t);
      |parts| >= 2 && Flatten(parts) == t &&
      (forall i :: 0 <= i < |parts| ==>
        r[i] == FileWrite(PartWritePath(mode == FileMode, if mode == FileMode then Dirname(path) else "", i + 1),
                          UrlSet(parts[i]))) &&
      r[|r| - 1] == FileWrite(path, SitemapIndex(PartUrls(base, |parts|))) &&
      (forall i :: 0 <= i < |parts| ==> PartUrls(base, |parts|)[i] == PartUrl(base, i + 1)) &&
      (forall i, j :: 0 <= i < j < |parts| ==> PartUrls(base, |parts|)[i] != PartUrls(base, |parts|)[j])
  {
    var parts := Chunk(t, m);
    var dir := if mode == FileMode then Dirname(path) else "";
    TwoPartsWhenOverfull(t, m);
    FlattenChunk(t, m);
    PartWritesIndex(mode == FileMode, dir, parts);
    PartUrlsIndex(base, |parts|);
    PartUrlsDistinct(base, |parts|);
    var r := StandardWrites(path, mode, m, Success(base), t);
    assert r == PartWrites(mode == FileMode, dir, parts) + [FileWrite(path, SitemapIndex(PartUrls(base, |parts|)))];
    assert forall i :: 0 <= i < |parts| ==> r[i] == PartWrites(mode == FileMode, dir, parts)[i];
  }

  /**
   * The standard sitemap files, followed by the index over the parts when
   * there are parts (`buildIndex`); the counts add up to the kept tags.
   */
  method BuildWithIndex(cfg: EffectiveConfig, m: nat, db: map<string, Call<seq<Record>>>, env: CrawlEnvironment,
                        base: Result<string>)
    returns (r: Result<BuildResult>, written: seq<FileWrite>)
    requires m >= 1
    ensures r.Success? <==> BuildOk(cfg, db, env, base, m)
    ensures var a := Accepted(BuildEmission(cfg, db, env, base).offers);
      r.Success? ==>
        r.value.staticCount == CountSource(a, StaticSource) && r.value.modelCount == CountSource(a, ModelSource) &&
        r.value.crawlCount == CountSource(a, CrawlSource) &&
        r.value.staticCount + r.value.modelCount + r.value.crawlCount == |TagsOf(a)|
    ensures var t := AcceptedTags(cfg, db, env, base);
      r.Success? ==> (|t| > m ==> base.Success?) && written == StandardWrites(cfg.path, cfg.output.mode, m, base, t)
  {
    ghost var t := AcceptedTags(cfg, db, env, base);
    r, written := BuildStandardSitemaps(cfg.path, cfg, m, db, env, base);
    if r.Success? {
      CountsAddUp(Accepted(BuildEmission(cfg, db, env, base).offers));
      if |t| > m {
        TwoPartsWhenOverfull(t, m);
      }
      if r.value.partUrls != [] {
        written := written + [FileWrite(cfg.path, SitemapIndex(r.value.partUrls))];
      }
    }
  }

  /**
   * `generate` for a resolved configuration. The base URL is the configured
   * one, else `appUrl`; `now` is the clock in seconds; `encode` is PHP's
   * `rawurlencode`; `fileSize` is the size of the main file, or the exception
   * reading it raises. Returns the recorded run, the files written in order
   * and the ping endpoints requested.
   */
  method Generate(cfg: EffectiveConfig, db: map<string, Call<seq<Record>>>, env: CrawlEnvironment, appUrl: Value,
                  now: int, encode: string -> string, fileSize: Result<nat>)
    returns (run: SitemapRun, written: seq<FileWrite>, pinged: seq<string>)
    ensures var base := BaseUrl(cfg.baseUrl, appUrl);
      var m := MaxPerFile(cfg.maxUrlsPerFile);
      run.status == Succeeded <==>
        BuildOk(cfg, db, env, base, m) &&
        (NewsEnabled(cfg) ==> NewsSitemapWrites(cfg.path, cfg.news, cfg.output.mode == FileMode, db, now, base).Success?) &&
        (PingEnabled(cfg) ==> Pings(cfg, base, encode).Success?) &&
        fileSize.Success?
    ensures run.status == Failed ==> run.errorMessage.Some? && run == FailedRun(run.errorMessage.value)
    ensures var base := BaseUrl(cfg.baseUrl, appUrl);
      var a := Accepted(BuildEmission(cfg, db, env, base).offers);
      run.status == Succeeded ==>
        run.errorMessage.None? && run.fileSize == fileSize.value &&
        run.staticUrls == CountSource(a, StaticSource) && run.modelUrls == CountSource(a, ModelSource) &&
        run.crawledUrls == CountSource(a, CrawlSource) &&
        run.totalUrls == run.staticUrls + run.modelUrls + run.crawledUrls == |AcceptedTags(cfg, db, env, base)|
    ensures var base := BaseUrl(cfg.baseUrl, appUrl);
      var m := MaxPerFile(cfg.maxUrlsPerFile);
      run.status == Succeeded ==>
        (|AcceptedTags(cfg, db, env, base)| > m ==> base.Success?) &&
        written ==
          StandardWrites(cfg.path, cfg.output.mode, m, base, AcceptedTags(cfg, db, env, base)) +
          (if NewsEnabled(cfg)
           then NewsSitemapWrites(cfg.path, cfg.news, cfg.output.mode == FileMode, db, now, base).value else [])
    ensures var base := BaseUrl(cfg.baseUrl, appUrl);
      run.status == Succeeded ==> pinged == (if PingEnabled(cfg) then Pings(cfg, base, encode).value else [])
  {
    var base := BaseUrl(cfg.baseUrl, appUrl);
    var maxPerFile := MaxPerFile(cfg.maxUrlsPerFile);
    var built, files := BuildWithIndex(cfg, maxPerFile, db, env, base);
    written, pinged := files, [];
    if built.Failure? {
      return FailedRun(built.error), written, pinged;
    }
    var counts := built.value;
    var total := counts.staticCount + counts.modelCount + counts.crawlCount;
    if NewsEnabled(cfg) {
      var news := BuildNewsSitemap(cfg.path, cfg.news, cfg.output.mode == FileMode, db, now, base);
      if news.Failure? {
        return FailedRun(news.error), written, pinged;
      }
      written := written + news.value;
    }
    if PingEnabled(cfg) {
      var requested := PingSearchEngines(cfg, base, encode);
      if requested.Failure? {
        return FailedRun(requested.error), written, pinged;
      }
      pinged := requested.value;
    }
    if fileSize.Failure? {
      return FailedRun(fileSize.error), written, pinged;
    }
    run := SitemapRun(Succeeded, total, counts.staticCount, counts.modelCount, counts.crawlCount, fileSize.value, None);
  }
}

=== FILE: glob.dfy ===
/**
 * The wildcard matching used for crawl exclude patterns (the framework's
 * `Str::is`): `*` stands for any run of characters, every other character
 * stands for itself, and the whole value must match.
 */
module Glob {
  import opened Prelude

  predicate GlobMatch(pattern: string, value: string)
    decreases |pattern| + |value|
  {
    if pattern == [] then value == []
    else if pattern[0] == '*' then
      GlobMatch(pattern[1..], value) || (value != [] && GlobMatch(pattern, value[1..]))
    else
      value != [] && value[0] == pattern[0] && GlobMatch(pattern[1..], value[1..])
  }

  /** `*` matches every value. */
  lemma {:induction false} StarMatchesEverything(value: string)
    ensures GlobMatch("*", value)
    decreases |value|
  {
    if value != [] {
      StarMatchesEverything(value[1..]);
    } else {
      assert "*"[1..] == [];
    }
  }

  /**
   * Every pattern matches its own text, so the shortcut `$pattern === $value`
   * that `Str::is` tries first never changes its answer.
   */
  lemma {:induction false} GlobMatchesItself(pattern: string)
    ensures GlobMatch(pattern, pattern)
    decreases |pattern|
  {
    if pattern != [] {
      GlobMatchesItself(pattern[1..]);
      if pattern[0] == '*' {
        StarConsumesOne(pattern[1..]);
      }
    }
  }

  /** A leading `*` may swallow one `*` of the value and go on matching the rest. */
  lemma StarConsumesOne(rest: string)
    requires GlobMatch(rest, rest)
    ensures GlobMatch("*" + rest, "*" + rest)
  {
    var p := "*" + rest;
    assert p[1..] == rest;
    assert GlobMatch(p[1..], p[1..]);
    assert GlobMatch(p, p[1..]) by {
      assert p[1..] == rest;
    }
  }

  /** A pattern without `*` matches exactly its own text. */
  lemma {:induction false} LiteralPatternMatchesOnlyItself(pattern: string, value: string)
    requires '*' !in pattern
    ensures GlobMatch(pattern, value) <==> value == pattern
    decreases |pattern|
  {
    if pattern != [] {
      assert pattern[0] != '*';
      assert '*' !in pattern[1..];
      if value != [] {
        LiteralPatternMatchesOnlyItself(pattern[1..], value[1..]);
        if value == pattern {
          assert value[1..] == pattern[1..];
        }
        if value[0] == pattern[0] && value[1..] == pattern[1..] {
          assert value == [value[0]] + value[1..];
          assert pattern == [pattern[0]] + pattern[1..];
        }
      }
    }
  }

  /** A literal prefix followed by `*` matches exactly the values that start with that prefix. */
  lemma {:induction false} PrefixPatternMatchesPrefixed(prefix: string, value: string)
    requires '*' !in prefix
    ensures GlobMatch(prefix + "*", value) <==> StartsWith(value, prefix)
    decreases |prefix|
  {
    var p := prefix + "*";
    if prefix == [] {
      assert p == "*";
      StarMatchesEverything(value);
    } else {
      assert p[0] == prefix[0] && p[0] != '*';
      assert p[1..] == prefix[1..] + "*";
      assert '*' !in prefix[1..];
      if value != [] {
        PrefixPatternMatchesPrefixed(prefix[1..], value[1..]);
        if StartsWith(value, prefix) {
          assert value[1..][..|prefix| - 1] == prefix[1..];
        }
        if value[0] == prefix[0] && StartsWith(value[1..], prefix[1..]) {
          assert value[..|prefix|] == [value[0]] + value[1..][..|prefix| - 1];
        }
      }
    }
  }
}

=== FILE: news.dfy ===
/**
 * The news sitemap (`buildNewsSitemap`, `addNewsUrl`): the records of the
 * configured news models published within the last 48 hours, each with a
 * URL, written to `sitemap-news.xml` when at least one qualifies.
 */
module NewsSitemap {
  import opened Prelude
  import opened PhpValues
  import opened Urls
  import opened Tags
  import opened Parts

  /** News older than 48 hours is left out. */
  const NewsWindow: int := 48 * 3600

  /** `Carbon::now()->subHours(48)`, in seconds. */
  function Cutoff(now: int): (c: int)
    ensures c == now - 172800
  {
    now - NewsWindow
  }

  /**
   * `resolveNewsPublicationDate`: the result of `getSitemapNewsPublicationDate()`
   * when the record has that method, else the first of `published_at`,
   * `updated_at`, `created_at` that is set; a date only when that value is a
   * date object.
   */
  function PublicationDate(rec: Record): (r: Result<Option<int>>)
    ensures var m := "getSitemapNewsPublicationDate";
      m in rec.methods ==>
        (r.Failure? <==> rec.methods[m].Throws?) &&
        (r.Success? && r.value.Some? <==> rec.methods[m].Returns? && rec.methods[m].value.DateTime?) &&
        (r.Success? && r.value.Some? ==> r.value.value == rec.methods[m].value.t)
    ensures var m := "getSitemapNewsPublicationDate";
      var p, u, c := Attribute(rec, "published_at"), Attribute(rec, "updated_at"), Attribute(rec, "created_at");
      m !in rec.methods ==>
        r.Success? &&
        (p != Null ==> r.value == (if p.DateTime? then Some(p.t) else None)) &&
        (p == Null && u != Null ==> r.value == (if u.DateTime? then Some(u.t) else None)) &&
        (p == Null && u == Null ==> r.value == (if c.DateTime? then Some(c.t) else None))
  {
    var date :-
      if "getSitemapNewsPublicationDate" in rec.methods then Outcome(rec.methods["getSitemapNewsPublicationDate"])
      else Success(Coalesce(Some(Attribute(rec, "published_at")),
                            Coalesce(Some(Attribute(rec, "updated_at")), Attribute(rec, "created_at"))));
    Success(if date.DateTime? then Some(date.t) else None)
  }

  /**
   * `resolveNewsRecordUrl`: the absolute form of what `getSitemapUrl()`
   * returns when the record has that method and it returns a string; none
   * otherwise. A throwing method throws; so does making a relative URL absolute when the base URL cannot be had.
   */
  function NewsRecordUrl(rec: Record, base: Result<string>): (r: Result<Option<string>>)
    ensures "getSitemapUrl" !in rec.methods ==> r == Success(None)
    ensures r.Success? && r.value.Some? ==>
      "getSitemapUrl" in rec.methods && rec.methods["getSitemapUrl"].Returns? &&
      rec.methods["getSitemapUrl"].value.Str? &&
      NormalizeUrl(base, rec.methods["getSitemapUrl"].value.s) == Success(r.value.value)
    ensures ("getSitemapUrl" in rec.methods && rec.methods["getSitemapUrl"].Returns? &&
             rec.methods["getSitemapUrl"].value.Str? && base.Success?) ==> r.Success? && r.value.Some?
    ensures var m := "getSitemapUrl";
      m in rec.methods ==>
        (rec.methods[m].Throws? ==> r == Failure(rec.methods[m].message)) &&
        (rec.methods[m].Returns? && !rec.methods[m].value.Str? ==> r == Success(None)) &&
        (rec.methods[m].Returns? && rec.methods[m].value.Str? ==>
           (r.Failure? <==> NormalizeUrl(base, rec.methods[m].value.s).Failure?))
  {
    if "getSitemapUrl" in rec.methods then
      var v :- Outcome(rec.methods["getSitemapUrl"]);
      if v.Str? then
        var u :- NormalizeUrl(base, v.s);
        Success(Some(u))
      else Success(None)
    else Success(None)
  }

  /**
   * The news title: `getSitemapNewsTitle()` when the record has it, else the
   * `title` attribute, else `name`, else ''; cast to a string.
   */
  function NewsTitle(rec: Record): (r: Result<string>)
    ensures var m := "getSitemapNewsTitle";
      m in rec.methods && rec.methods[m].Returns? && rec.methods[m].value.Str? ==> r == Success(rec.methods[m].value.s)
    ensures "getSitemapNewsTitle" !in rec.methods && Attribute(rec, "title").Str? ==>
      r == Success(Attribute(rec, "title").s)
    ensures "getSitemapNewsTitle" !in rec.methods && Attribute(rec, "title") == Null && Attribute(rec, "name").Str? ==>
      r == Success(Attribute(rec, "name").s)
    ensures "getSitemapNewsTitle" !in rec.methods && Attribute(rec, "title") == Null && Attribute(rec, "name") == Null ==>
      r == Success("")
    ensures var m := "getSitemapNewsTitle";
      m in rec.methods ==>
        (rec.methods[m].Throws? ==> r == Failure(rec.methods[m].message)) &&
        (rec.methods[m].Returns? ==> r == ToStr(rec.methods[m].value))
    ensures var t, n := Attribute(rec, "title"), Attribute(rec, "name");
      "getSitemapNewsTitle" !in rec.methods ==>
        (r.Failure? <==> (t != Null && NoStringForm(t)) || (t == Null && NoStringForm(n)))
  {
    var title :-
      if "getSitemapNewsTitle" in rec.methods then Outcome(rec.methods["getSitemapNewsTitle"])
      else Success(Coalesce(Some(Attribute(rec, "title")), Coalesce(Some(Attribute(rec, "name")), Str(""))));
    ToStr(title)
  }

  /**
   * `addNewsUrl`: a record gets a news tag exactly when it has a publication
   * date no earlier than the cutoff and a non-empty URL. The date is checked
   * first, so the URL of a record outside the window is never asked for.
   */
  function NewsTag(rec: Record, name: string, language: string, now: int, base: Result<string>): (r: Result<Option<UrlTag>>)
    ensures PublicationDate(rec).Success? && PublicationDate(rec).value.None? ==> r == Success(None)
    ensures (PublicationDate(rec).Success? && PublicationDate(rec).value.Some? &&
             PublicationDate(rec).value.value < Cutoff(now)) ==> r == Success(None)
    ensures r.Success? && r.value.Some? ==>
      var t := r.value.value;
      t.news.Some? && NewsTitle(rec).Success? &&
      PublicationDate(rec) == Success(Some(t.news.value.publicationDate)) &&
      t.news.value.publicationDate >= Cutoff(now) &&
      NewsRecordUrl(rec, base) == Success(Some(t.loc)) && t.loc != "" &&
      t.news == Some(News(name, language, NewsTitle(rec).value, t.news.value.publicationDate))
    ensures (PublicationDate(rec).Success? && PublicationDate(rec).value.Some? &&
             PublicationDate(rec).value.value >= Cutoff(now) &&
             NewsRecordUrl(rec, base).Success? && NewsRecordUrl(rec, base).value.Some? &&
             NewsRecordUrl(rec, base).value.value != "" && NewsTitle(rec).Success?) ==> r.Success? && r.value.Some?
    ensures r.Failure? <==>
      PublicationDate(rec).Failure? ||
      (PublicationDate(rec).value.Some? && PublicationDate(rec).value.value >= Cutoff(now) &&
       (NewsRecordUrl(rec, base).Failure? ||
        (NewsRecordUrl(rec, base).value.Some? && NewsRecordUrl(rec, base).value.value != "" && NewsTitle(rec).Failure?)))
  {
    var date :- PublicationDate(rec);
    if date.None? || date.value < Cutoff(now) then Success(None)
    else
      var url :- NewsRecordUrl(rec, base);
      if url.None? || url.value == "" then Success(None)
      else
        var title :- NewsTitle(rec);
        Success(Some(NewTag(url.value).(news := Some(News(name, language, title, date.value)))))
  }

  /** A record whose date is exactly 48 hours old is still news; one second older is not. */
  lemma NewsWindowBoundary(rec: Record, name: string, language: string, now: int, base: string)
    requires "getSitemapNewsPublicationDate" !in rec.methods && "getSitemapNewsTitle" !in rec.methods
    requires rec.methods.Keys == {"getSitemapUrl"} && rec.methods["getSitemapUrl"] == Returns(Str("https://example.com/a"))
    requires Attribute(rec, "title") == Null && Attribute(rec, "name") == Null
    ensures Attribute(rec, "published_at").DateTime? && Attribute(rec, "published_at").t == now - 172800 ==>
      NewsTag(rec, name, language, now, Success(base)).Success? &&
      NewsTag(rec, name, language, now, Success(base)).value.Some?
    ensures Attribute(rec, "published_at").DateTime? && Attribute(rec, "published_at").t == now - 172801 ==>
      NewsTag(rec, name, language, now, Success(base)) == Success(None)
  {
    var url := "https://example.com/a";
    assert StartsWith(url, "https://") by {
      assert url[..8] == "https://";
    }
  }

  /** Zero or one tags as a sequence. */
  function TagSeq(t: Option<UrlTag>): (s: seq<UrlTag>)
    ensures |s| <= 1 && (t.None? <==> s == []) && (t.Some? ==> s == [t.value])
  {
    if t.Some? then [t.value] else []
  }

  /**
   * A loop that collects tags and stops at the first exception; the tags
   * collected before it are lost with the sitemap.
   */
  function Gather<T>(s: seq<T>, f: T -> Result<seq<UrlTag>>): Result<seq<UrlTag>> {
    if s == [] then Success([])
    else
      var before :- Gather(s[..|s| - 1], f);
      var more :- f(s[|s| - 1]);
      Success(before + more)
  }

  /** One more iteration of the loop. */
  lemma GatherStep<T>(s: seq<T>, f: T -> Result<seq<UrlTag>>, i: nat)
    requires i < |s|
    ensures Gather(s[..i + 1], f) ==
      (if Gather(s[..i], f).Failure? then Gather(s[..i], f)
       else if f(s[i]).Failure? then Failure(f(s[i]).error)
       else Success(Gather(s[..i], f).value + f(s[i]).value))
  {
    assert s[..i + 1][..i] == s[..i];
  }

  /** An exception in the first `k` iterations is the whole loop's exception. */
  lemma {:induction false} GatherPrefixFails<T>(s: seq<T>, f: T -> Result<seq<UrlTag>>, k: nat)
    requires k <= |s| && Gather(s[..k], f).Failure?
    ensures Gather(s, f) == Gather(s[..k], f)
    decreases |s|
  {
    if k == |s| {
      assert s[..k] == s;
    } else {
      var init := s[..|s| - 1];
      assert init[..k] == s[..k];
      GatherPrefixFails(init, f, k);
    }
  }

  /** The loop throws exactly when some iteration throws: nothing is caught. */
  lemma {:induction false} GatherFails<T>(s: seq<T>, f: T -> Result<seq<UrlTag>>)
    ensures Gather(s, f).Failure? <==> exists i :: 0 <= i < |s| && f(s[i]).Failure?
  {
    if s != [] {
      var init := s[..|s| - 1];
      GatherFails(init, f);
      if exists i :: 0 <= i < |init| && f(init[i]).Failure? {
        var i :| 0 <= i < |init| && f(init[i]).Failure?;
        assert f(s[i]).Failure?;
      }
      if exists i :: 0 <= i < |s| && f(s[i]).Failure? {
        var i :| 0 <= i < |s| && f(s[i]).Failure?;
        if i < |init| {
          assert f(init[i]).Failure?;
        }
      }
    }
  }

  /** Every collected tag comes from one iteration. */
  lemma {:induction false} GatherMembers<T>(s: seq<T>, f: T -> Result<seq<UrlTag>>, t: UrlTag)
    requires Gather(s, f).Success? && t in Gather(s, f).value
    ensures exists i :: 0 <= i < |s| && f(s[i]).Success? && t in f(s[i]).value
  {
    var init := s[..|s| - 1];
    if t in Gather(init, f).value {
      GatherMembers(init, f, t);
      var i :| 0 <= i < |init| && f(init[i]).Success? && t in f(init[i]).value;
      assert init[i] == s[i];
    } else {
      assert f(s[|s| - 1]).Success? && t in f(s[|s| - 1]).value;
    }
  }

  /** The news tags of one model's records, in query order. */
  function RecordsNews(records: seq<Record>, name: string, language: string, now: int, base: Result<string>): Result<seq<UrlTag>> {
    Gather(records, (rec: Record) => var t :- NewsTag(rec, name, language, now, base); Success(TagSeq(t)))
  }

  /** One configured news model: skipped unless it names an existing class, whose query may throw. */
  function ModelNews(modelClass: Value, db: map<string, Call<seq<Record>>>, name: string, language: string,
                     now: int, base: Result<string>): Result<seq<UrlTag>> {
    if modelClass.Str? && modelClass.s in db then
      var records :- Outcome(db[modelClass.s]);
      RecordsNews(records, name, language, now, base)
    else Success([])
  }

  /** The news tags of every configured model, in configured order. */
  function ModelsNews(models: seq<Entry>, db: map<string, Call<seq<Record>>>, name: string, language: string,
                      now: int, base: Result<string>): Result<seq<UrlTag>> {
    Gather(models, (e: Entry) => ModelNews(e.val, db, name, language, now, base))
  }

  /**
   * `buildNewsSitemap`: nothing without a publication name or without
   * models; otherwise the news tags of the models, written to the news path
   * when there is at least one. The casts of the publication name and
   * language, a `models` value that is not an array, a throwing query and a
   * throwing record method make it throw.
   */
  function NewsSitemapWrites(mainPath: string, news: Value, isFileMode: bool, db: map<string, Call<seq<Record>>>,
                             now: int, base: Result<string>): Result<seq<FileWrite>> {
    var models := Coalesce(Get(news, "models"), Arr([]));
    var name :- ToStr(Coalesce(Get(news, "publication_name"), Str("")));
    var language :- ToStr(Coalesce(Get(news, "publication_language"), Str("en")));
    if name == "" || models == Arr([]) then Success([])
    else if !models.Arr? then Failure(ForeachError)
    else
      var tags :- ModelsNews(models.entries, db, name, language, now, base);
      Success(if tags == [] then [] else [FileWrite(NewsPath(isFileMode, mainPath), UrlSet(tags))])
  }

  /**
   * The news file is written only with at least one tag, at the news path,
   * and every tag in it is a recent record's: dated no earlier than the
   * cutoff, with a non-empty URL, under the configured publication.
   */
  lemma NewsSitemapContents(mainPath: string, news: Value, isFileMode: bool, db: map<string, Call<seq<Record>>>,
                            now: int, base: Result<string>)
    requires NewsSitemapWrites(mainPath, news, isFileMode, db, now, base).Success?
    ensures var w := NewsSitemapWrites(mainPath, news, isFileMode, db, now, base).value;
      |w| <= 1 &&
      (|w| == 1 ==> w[0].path == NewsPath(isFileMode, mainPath) && w[0].doc.UrlSet? && w[0].doc.tags != [])
    ensures var w := NewsSitemapWrites(mainPath, news, isFileMode, db, now, base).value;
      |w| == 1 ==> forall t :: t in w[0].doc.tags ==>
        t.loc != "" && t.news.Some? && t.news.value.publicationDate >= Cutoff(now) &&
        Success(t.news.value.publicationName) == ToStr(Coalesce(Get(news, "publication_name"), Str(""))) &&
        t.news.value.publicationName != ""
  {
    var w := NewsSitemapWrites(mainPath, news, isFileMode, db, now, base).value;
    if |w| == 1 {
      var models := Coalesce(Get(news, "models"), Arr([]));
      var name := ToStr(Coalesce(Get(news, "publication_name"), Str(""))).value;
      var language := ToStr(Coalesce(Get(news, "publication_language"), Str("en"))).value;
      var g := (e: Entry) => ModelNews(e.val, db, name, language, now, base);
      forall t | t in w[0].doc.tags
        ensures t.loc != "" && t.news.Some? && t.news.value.publicationDate >= Cutoff(now) &&
                t.news.value.publicationName == name
      {
        GatherMembers(models.entries, g, t);
        var i :| 0 <= i < |models.entries| && g(models.entries[i]).Success? && t in g(models.entries[i]).value;
        ModelNewsTag(models.entries[i].val, db, name, language, now, base, t);
      }
    }
  }

  /** A news tag of one model is a recent record's, with a non-empty URL, under the given publication. */
  lemma ModelNewsTag(modelClass: Value, db: map<string, Call<seq<Record>>>, name: string, language: string,
                     now: int, base: Result<string>, t: UrlTag)
    requires ModelNews(modelClass, db, name, language, now, base).Success?
    requires t in ModelNews(modelClass, db, name, language, now, base).value
    ensures t.loc != "" && t.news.Some? && t.news.value.publicationDate >= Cutoff(now)
    ensures t.news.value.publicationName == name
  {
    var records := db[modelClass.s].value;
    var h := (rec: Record) => var x :- NewsTag(rec, name, language, now, base); Success(TagSeq(x));
    GatherMembers(records, h, t);
    var j :| 0 <= j < |records| && h(records[j]).Success? && t in h(records[j]).value;
    var nt := NewsTag(records[j], name, language, now, base);
    assert nt.Success? && t in TagSeq(nt.value);
    assert nt == Success(Some(t));
  }

  /** Without a publication name nothing is written and no record is read. */
  lemma NoNameNoNews(mainPath: string, news: Value, isFileMode: bool, db: map<string, Call<seq<Record>>>,
                     now: int, base: Result<string>)
    requires Coalesce(Get(news, "publication_name"), Str("")) in {Null, Str(""), Bool(false)}
    requires !NoStringForm(Coalesce(Get(news, "publication_language"), Str("en")))
    ensures NewsSitemapWrites(mainPath, news, isFileMode, db, now, base) == Success([])
  {
  }

  /**
   * The loop over one model's records (`chunk(500, ...)` and its inner
   * `foreach`; the paging does not change the order in which records come).
   */
  method CollectRecordsNews(records: seq<Record>, name: string, language: string, now: int, base: Result<string>)
      returns (r: Result<seq<UrlTag>>)
    ensures r == RecordsNews(records, name, language, now, base)
  {
    ghost var f := (rec: Record) => var t :- NewsTag(rec, name, language, now, base); Success(TagSeq(t));
    var tags: seq<UrlTag> := [];
    for i := 0 to |records|
      invariant Gather(records[..i], f) == Success(tags)
    {
      GatherStep(records, f, i);
      var t := NewsTag(records[i], name, language, now, base);
      if t.Failure? {
        GatherPrefixFails(records, f, i + 1);
        return Failure(t.error);
      }
      if t.value.Some? {
        tags := tags + [t.value.value];
      } else {
        assert tags + [] == tags;
      }
    }
    assert records[..|records|] == records;
    return Success(tags);
  }

  /** The loop over the configured news models. */
  method CollectModelsNews(models: seq<Entry>, db: map<string, Call<seq<Record>>>, name: string, language: string,
                           now: int, base: Result<string>) returns (r: Result<seq<UrlTag>>)
    ensures r == ModelsNews(models, db, name, language, now, base)
  {
    ghost var f := (e: Entry) => ModelNews(e.val, db, name, language, now, base);
    var tags: seq<UrlTag> := [];
    for i := 0 to |models|
      invariant Gather(models[..i], f) == Success(tags)
    {
      GatherStep(models, f, i);
      var modelClass := models[i].val;
      if !modelClass.Str? || modelClass.s !in db {
        assert tags + [] == tags;
        continue;
      }
      var query := db[modelClass.s];
      if query.Throws? {
        GatherPrefixFails(models, f, i + 1);
        return Failure(query.message);
      }
      var more := CollectRecordsNews(query.value, name, language, now, base);
      if more.Failure? {
        GatherPrefixFails(models, f, i + 1);
        return Failure(more.error);
      }
      tags := tags + more.value;
    }
    assert models[..|models|] == models;
    return Success(tags);
  }

  /** `buildNewsSitemap`, returning the file it writes, if any. */
  method BuildNewsSitemap(mainPath: string, news: Value, isFileMode: bool, db: map<string, Call<seq<Record>>>,
                          now: int, base: Result<string>) returns (r: Result<seq<FileWrite>>)
    ensures r == NewsSitemapWrites(mainPath, news, isFileMode, db, now, base)
  {
    var models := Coalesce(Get(news, "models"), Arr([]));
    var name := ToStr(Coalesce(Get(news, "publication_name"), Str("")));
    if name.Failure? {
      return Failure(name.error);
    }
    var language := ToStr(Coalesce(Get(news, "publication_language"), Str("en")));
    if language.Failure? {
      return Failure(language.error);
    }
    if name.value == "" || models == Arr([]) {
      return Success([]);
    }
    if !models.Arr? {
      return Failure(ForeachError);
    }
    var newsPath := if isFileMode then Dirname(mainPath) + "/" + "sitemap-news.xml" else "sitemap-news.xml";
    var tags := CollectModelsNews(models.entries, db, name.value, language.value, now, base);
    if tags.Failure? {
      return Failure(tags.error);
    }
    if tags.value == [] {
      return Success([]);
    }
    return Success([FileWrite(newsPath, UrlSet(tags.value))]);
  }
}

=== FILE: offers.dfy ===
/**
 * The tags a build hands to the part writer, in order: the static entries,
 * then the records of every configured model, then the crawled pages. An
 * exception stops the build; the tags offered before it stay offered.
 */
module Offers {
  import opened Prelude
  import opened PhpValues
  import opened Glob
  import opened Urls
  import opened Tags
  import opened Parts
  import opened Config
  import opened Crawl

  /** The tags a step offers, and the message of the exception that ended it, if one did. */
  datatype Emission = Emission(offers: seq<Offer>, error: Option<string>)

  const Nothing := Emission([], None)

  /** One step after another: the second runs only when the first did not throw. */
  function Then(a: Emission, b: Emission): (r: Emission)
    ensures a.offers <= r.offers
    ensures a.error.Some? ==> r == a
    ensures r.error.None? <==> a.error.None? && b.error.None?
  {
    if a.error.Some? then a else Emission(a.offers + b.offers, b.error)
  }

  /** A loop over `s`, each element handled by `f`. */
  function EmitAll<T>(s: seq<T>, f: T -> Emission): Emission {
    if s == [] then Nothing else Then(EmitAll(s[..|s| - 1], f), f(s[|s| - 1]))
  }

  /** One more iteration of the loop. */
  lemma EmitAllStep<T>(s: seq<T>, f: T -> Emission, i: nat)
    requires i < |s|
    ensures EmitAll(s[..i + 1], f) == Then(EmitAll(s[..i], f), f(s[i]))
  {
    assert s[..i + 1][..i] == s[..i];
  }

  /**
   * What the first `k` iterations offer is a prefix of what the whole loop
   * offers, and an exception in them is the loop's exception.
   */
  lemma {:induction false} EmitAllPrefix<T>(s: seq<T>, f: T -> Emission, k: nat)
    requires k <= |s|
    ensures EmitAll(s[..k], f).offers <= EmitAll(s, f).offers
    ensures EmitAll(s[..k], f).error.Some? ==> EmitAll(s, f) == EmitAll(s[..k], f)
    decreases |s|
  {
    if k == |s| {
      assert s[..k] == s;
    } else {
      var init := s[..|s| - 1];
      EmitAllPrefix(init, f, k);
      assert init[..k] == s[..k];
    }
  }

  /**
   * Every offer of the loop comes from some iteration; when no iteration
   * throws, the loop offers everything every iteration offers.
   */
  lemma {:induction false} EmitAllMembers<T>(s: seq<T>, f: T -> Emission)
    ensures forall o :: o in EmitAll(s, f).offers ==> exists i :: 0 <= i < |s| && o in f(s[i]).offers
    ensures EmitAll(s, f).error.None? <==> forall i :: 0 <= i < |s| ==> f(s[i]).error.None?
    ensures EmitAll(s, f).error.None? ==>
      forall i, o :: 0 <= i < |s| && o in f(s[i]).offers ==> o in EmitAll(s, f).offers
  {
    if s != [] {
      var init := s[..|s| - 1];
      EmitAllMembers(init, f);
      assert forall i :: 0 <= i < |init| ==> init[i] == s[i];
      assert s == init + [s[|s| - 1]];
    }
  }

  /** The offer of a tag, or the exception that prevented it. */
  function OfferOf(r: Result<UrlTag>, source: Source): (e: Emission)
    ensures r.Success? ==> e == Emission([Offer(r.value, source)], None)
    ensures r.Failure? ==> e == Emission([], Some(r.error))
  {
    match r
    case Success(t) => Emission([Offer(t, source)], None)
    case Failure(m) => Emission([], Some(m))
  }

  /** Like `OfferOf`, where no tag at all is also possible. */
  function OptionalOfferOf(r: Result<Option<UrlTag>>, source: Source): (e: Emission)
    ensures r == Success(None) ==> e == Nothing
    ensures r.Success? && r.value.Some? ==> e == Emission([Offer(r.value.value, source)], None)
    ensures r.Failure? ==> e == Emission([], Some(r.error))
  {
    match r
    case Success(None) => Nothing
    case Success(Some(t)) => Emission([Offer(t, source)], None)
    case Failure(m) => Emission([], Some(m))
  }

  /**
   * `foreach` over `$config[...] ?? []`: null iterates nothing, an array its
   * entries, and a scalar raises the warning Laravel turns into an exception.
   */
  function ForEach(v: Value, f: Entry -> Emission): (e: Emission)
    ensures v == Null ==> e == Nothing
    ensures !v.Arr? && v != Null ==> e == Emission([], Some(ForeachError))
  {
    if v == Null then Nothing
    else if !v.Arr? then Emission([], Some(ForeachError))
    else EmitAll(v.entries, f)
  }

  /** One static entry. */
  function StaticEntryEmission(entry: Entry, base: Result<string>): Emission {
    OfferOf(StaticTag(entry.val, base), StaticSource)
  }

  /** The static URLs, in their configured order. */
  function StaticUrlsEmission(staticUrls: Value, base: Result<string>): Emission {
    ForEach(staticUrls, (e: Entry) => StaticEntryEmission(e, base))
  }

  /** Every static offer is the tag of one configured entry. */
  lemma {:induction false} StaticOffersAreEntries(staticUrls: Value, base: Result<string>)
    ensures forall o :: o in StaticUrlsEmission(staticUrls, base).offers ==>
      o.source == StaticSource && staticUrls.Arr? &&
      exists i :: 0 <= i < |staticUrls.entries| && StaticTag(staticUrls.entries[i].val, base) == Success(o.tag)
    ensures StaticUrlsEmission(staticUrls, base).error.None? && staticUrls.Arr? ==>
      |StaticUrlsEmission(staticUrls, base).offers| == |staticUrls.entries|
  {
    if staticUrls.Arr? {
      var f := (e: Entry) => StaticEntryEmission(e, base);
      EmitAllMembers(staticUrls.entries, f);
      StaticCount(staticUrls.entries, base);
      forall o | o in StaticUrlsEmission(staticUrls, base).offers
        ensures o.source == StaticSource &&
          exists i :: 0 <= i < |staticUrls.entries| && StaticTag(staticUrls.entries[i].val, base) == Success(o.tag)
      {
        var i :| 0 <= i < |staticUrls.entries| && o in f(staticUrls.entries[i]).offers;
        StaticEntryOffer(staticUrls.entries[i], base, o);
      }
    }
  }

  /** The one offer of a static entry is its tag. */
  lemma StaticEntryOffer(e: Entry, base: Result<string>, o: Offer)
    requires o in StaticEntryEmission(e, base).offers
    ensures o.source == StaticSource && StaticTag(e.val, base) == Success(o.tag)
  {
  }

  /** Without an exception, every static entry gives exactly one offer. */
  lemma {:induction false} StaticCount(entries: seq<Entry>, base: Result<string>)
    ensures var e := EmitAll(entries, (e: Entry) => StaticEntryEmission(e, base));
      e.error.None? ==> |e.offers| == |entries|
  {
    if entries != [] {
      StaticCount(entries[..|entries| - 1], base);
    }
  }

  /** One element of what `toSitemapTag()` returned. */
  function ItemEmission(item: TagItem, base: Result<string>): Emission {
    OptionalOfferOf(NormalizeSitemapTagToUrl(item, base), ModelSource)
  }

  /** `addSitemapableRecordToSitemap`: a single element, or each element of an iterable. */
  function SitemapableEmission(result: Call<TagReturn>, base: Result<string>): Emission {
    match result
    case Throws(m) => Emission([], Some(m))
    case Returns(SingleTag(item)) => ItemEmission(item, base)
    case Returns(IterableTags(items)) => EmitAll(items, (i: TagItem) => ItemEmission(i, base))
  }

  /** One record: a `Sitemapable` record describes its own tags, any other gets the model tag. */
  function RecordEmission(rec: Record, options: Value, base: Result<string>): Emission {
    if rec.sitemapable.Some? then SitemapableEmission(rec.sitemapable.value, base)
    else OptionalOfferOf(BuildModelUrlTag(rec, options, base), ModelSource)
  }

  /** All records of one model, in query order. */
  function RecordsEmission(records: seq<Record>, options: Value, base: Result<string>): Emission {
    EmitAll(records, (r: Record) => RecordEmission(r, options, base))
  }

  /**
   * One entry of the `models` map: skipped unless its key names an existing
   * class; the class's query either throws or yields the records.
   */
  function ModelEntryEmission(entry: Entry, db: map<string, Call<seq<Record>>>, base: Result<string>): Emission {
    if entry.key.StrKey? && entry.key.s in db then
      match db[entry.key.s]
      case Throws(m) => Emission([], Some(m))
      case Returns(records) => RecordsEmission(records, entry.val, base)
    else Nothing
  }

  /** All configured models, in their configured order. */
  function ModelsEmission(models: Value, db: map<string, Call<seq<Record>>>, base: Result<string>): Emission {
    ForEach(models, (e: Entry) => ModelEntryEmission(e, db, base))
  }

  /** Every model offer is counted as coming from a model. */
  lemma ModelOffersAreModelSourced(models: Value, db: map<string, Call<seq<Record>>>, base: Result<string>)
    ensures forall o :: o in ModelsEmission(models, db, base).offers ==> o.source == ModelSource
  {
    if models.Arr? {
      var f := (e: Entry) => ModelEntryEmission(e, db, base);
      EmitAllMembers(models.entries, f);
      forall i | 0 <= i < |models.entries|
        ensures forall o :: o in f(models.entries[i]).offers ==> o.source == ModelSource
      {
        ModelEntryOffersAreModelSourced(models.entries[i], db, base);
      }
    }
  }

  /** The offers of one configured model all come from the model source. */
  lemma ModelEntryOffersAreModelSourced(entry: Entry, db: map<string, Call<seq<Record>>>, base: Result<string>)
    ensures forall o :: o in ModelEntryEmission(entry, db, base).offers ==> o.source == ModelSource
  {
    if entry.key.StrKey? && entry.key.s in db && db[entry.key.s].Returns? {
      var g := (r: Record) => RecordEmission(r, entry.val, base);
      var records := db[entry.key.s].value;
      EmitAllMembers(records, g);
      forall j | 0 <= j < |records|
        ensures forall o :: o in g(records[j]).offers ==> o.source == ModelSource
      {
        RecordOffersAreModelSourced(records[j], entry.val, base);
      }
    }
  }

  /** The offers of one record all come from the model source. */
  lemma RecordOffersAreModelSourced(rec: Record, options: Value, base: Result<string>)
    ensures forall o :: o in RecordEmission(rec, options, base).offers ==> o.source == ModelSource
  {
    if rec.sitemapable.Some? && rec.sitemapable.value.Returns? && rec.sitemapable.value.value.IterableTags? {
      EmitAllMembers(rec.sitemapable.value.value.items, (t: TagItem) => ItemEmission(t, base));
    }
  }

  /** One tag of the crawled sitemap: a `<url>` tag no exclude pattern matches is offered. */
  function CrawlItemEmission(item: CrawlItem, patterns: seq<string>): Emission {
    if item.CrawledUrl? && !Excluded(item.tag.loc, patterns) then Emission([Offer(item.tag, CrawlSource)], None)
    else Nothing
  }

  /** `appendCrawledUrls`: the tags of the crawl that succeeded, if any. */
  function CrawlEmission(crawl: CrawlSettings, env: CrawlEnvironment): Emission {
    match CrawlResult(ExecuteJavascript(crawl, env), env)
    case None => Nothing
    case Some(items) => EmitAll(items, (i: CrawlItem) => CrawlItemEmission(i, crawl.excludePatterns))
  }

  /**
   * The crawl never throws; it offers exactly the crawled `<url>` tags that
   * no exclude pattern matches.
   */
  lemma CrawlOffersExactly(crawl: CrawlSettings, env: CrawlEnvironment, o: Offer)
    ensures CrawlEmission(crawl, env).error.None?
    ensures o in CrawlEmission(crawl, env).offers <==>
      o.source == CrawlSource && !Excluded(o.tag.loc, crawl.excludePatterns) &&
      CrawlResult(ExecuteJavascript(crawl, env), env).Some? &&
      CrawledUrl(o.tag) in CrawlResult(ExecuteJavascript(crawl, env), env).value
  {
    var r := CrawlResult(ExecuteJavascript(crawl, env), env);
    if r.Some? {
      var f := (i: CrawlItem) => CrawlItemEmission(i, crawl.excludePatterns);
      EmitAllMembers(r.value, f);
      if o.source == CrawlSource && !Excluded(o.tag.loc, crawl.excludePatterns) && CrawledUrl(o.tag) in r.value {
        var i :| 0 <= i < |r.value| && r.value[i] == CrawledUrl(o.tag);
        assert o in f(r.value[i]).offers;
      }
    }
  }

  /** Everything a build offers: static entries, then models, then the crawl when it is enabled. */
  function BuildEmission(cfg: EffectiveConfig, db: map<string, Call<seq<Record>>>, env: CrawlEnvironment,
                         base: Result<string>): Emission {
    Then(Then(StaticUrlsEmission(cfg.staticUrls, base), ModelsEmission(cfg.models, db, base)),
         if CrawlEnabled(cfg.crawl) then CrawlEmission(cfg.crawl, env) else Nothing)
  }

  /** Models are read only when the static entries did not throw, and the crawl only after both. */
  lemma BuildEmissionOrder(cfg: EffectiveConfig, db: map<string, Call<seq<Record>>>, env: CrawlEnvironment,
                           base: Result<string>)
    ensures var s := StaticUrlsEmission(cfg.staticUrls, base);
      s.error.Some? ==> BuildEmission(cfg, db, env, base) == s
    ensures var s := StaticUrlsEmission(cfg.staticUrls, base);
      var m := ModelsEmission(cfg.models, db, base);
      s.error.None? ==> s.offers + m.offers <= BuildEmission(cfg, db, env, base).offers
    ensures var s := StaticUrlsEmission(cfg.staticUrls, base);
      var m := ModelsEmission(cfg.models, db, base);
      s.error.None? && m.error.None? && CrawlEnabled(cfg.crawl) ==>
        BuildEmission(cfg, db, env, base) == Emission(s.offers + m.offers + CrawlEmission(cfg.crawl, env).offers, None)
  {
    var s := StaticUrlsEmission(cfg.staticUrls, base);
    var m := ModelsEmission(cfg.models, db, base);
    var c := if CrawlEnabled(cfg.crawl) then CrawlEmission(cfg.crawl, env) else Nothing;
    if CrawlEnabled(cfg.crawl) {
      CrawlOffersExactly(cfg.crawl, env, Offer(NewTag(""), CrawlSource));
    }
    assert BuildEmission(cfg, db, env, base) == Then(Then(s, m), c);
  }

  /** Without an enabled crawl, nothing is counted as crawled. */
  lemma NoCrawlOffersWhenDisabled(cfg: EffectiveConfig, db: map<string, Call<seq<Record>>>, env: CrawlEnvironment,
                                  base: Result<string>)
    requires !CrawlEnabled(cfg.crawl)
    ensures forall o :: o in BuildEmission(cfg, db, env, base).offers ==> o.source != CrawlSource
  {
    var s := StaticUrlsEmission(cfg.staticUrls, base);
    var m := ModelsEmission(cfg.models, db, base);
    StaticOffersAreEntries(cfg.staticUrls, base);
    ModelOffersAreModelSourced(cfg.models, db, base);
    assert BuildEmission(cfg, db, env, base).offers <= s.offers + m.offers;
  }
}

=== FILE: parts.dfy ===
/**
 * What the deduplicating part writer is meant to produce, stated on whole
 * sequences: which offered tags are accepted (the first tag for each
 * non-empty location), how many come from each source, and how the accepted
 * tags are cut into parts of at most `maxUrlsPerFile` entries.
 */
module Parts {
  import opened Prelude
  import opened Urls
  import opened Tags

  /** Where a tag came from; each source has its own counter. */
  datatype Source = StaticSource | ModelSource | CrawlSource

  /** A tag handed to the part writer. */
  datatype Offer = Offer(tag: UrlTag, source: Source)

  /** The document a file receives: a `<urlset>` of tags, or a sitemap index of part URLs. */
  datatype Document = UrlSet(tags: seq<UrlTag>) | SitemapIndex(locs: seq<string>)

  /** One file written: where, and what. */
  datatype FileWrite = FileWrite(path: string, doc: Document)

  /** The locations of a sequence of offers. */
  function Locs(offers: seq<Offer>): set<string> {
    if offers == [] then {} else Locs(offers[..|offers| - 1]) + {offers[|offers| - 1].tag.loc}
  }

  /** `Locs` holds the location of every offer, and nothing else. */
  lemma {:induction false} LocsMembers(offers: seq<Offer>)
    ensures forall i :: 0 <= i < |offers| ==> offers[i].tag.loc in Locs(offers)
    ensures forall l :: l in Locs(offers) ==> exists i :: 0 <= i < |offers| && offers[i].tag.loc == l
  {
    if offers != [] {
      var init := offers[..|offers| - 1];
      LocsMembers(init);
      assert forall i :: 0 <= i < |init| ==> init[i] == offers[i];
    }
  }

  /**
   * The offers the writer accepts, in order: an offer is dropped when its
   * location is empty or an earlier accepted offer has the same location.
   */
  function Accepted(offers: seq<Offer>): (r: seq<Offer>)
    ensures |r| <= |offers|
  {
    if offers == [] then []
    else
      var a := Accepted(offers[..|offers| - 1]);
      var o := offers[|offers| - 1];
      if o.tag.loc == "" || o.tag.loc in Locs(a) then a else a + [o]
  }

  /**
   * `r` is `s` with some elements left out: `idx` gives, in increasing
   * order, the position in `s` of each element of `r`.
   */
  predicate Picks<T(==)>(r: seq<T>, s: seq<T>, idx: seq<nat>) {
    |idx| == |r| &&
    (forall i :: 0 <= i < |idx| ==> idx[i] < |s| && r[i] == s[idx[i]]) &&
    (forall i, j :: 0 <= i < j < |idx| ==> idx[i] < idx[j])
  }

  /** The accepted offers are a subsequence of the offers: kept in their order, none invented. */
  lemma {:induction false} AcceptedSubsequence(offers: seq<Offer>)
    ensures exists idx :: Picks(Accepted(offers), offers, idx)
  {
    if offers == [] {
      var none: seq<nat> := [];
      assert Picks(Accepted(offers), offers, none);
    } else {
      var init := offers[..|offers| - 1];
      AcceptedSubsequence(init);
      var idx: seq<nat> :| Picks(Accepted(init), init, idx);
      var o := offers[|offers| - 1];
      assert offers == init + [o];
      PicksSnoc(Accepted(init), init, idx, o);
      if Accepted(offers) == Accepted(init) {
        assert Picks(Accepted(offers), offers, idx);
      } else {
        assert Accepted(offers) == Accepted(init) + [o];
        assert Picks(Accepted(offers), offers, idx + [|init|]);
      }
    }
  }

  /** Appending to the picked-from sequence keeps a picking, and picking the new last element too extends it. */
  lemma PicksSnoc<T>(r: seq<T>, s: seq<T>, idx: seq<nat>, x: T)
    requires Picks(r, s, idx)
    ensures Picks(r, s + [x], idx)
    ensures Picks(r + [x], s + [x], idx + [|s|])
  {
    var s' := s + [x];
    assert forall i :: 0 <= i < |idx| ==> s'[idx[i]] == s[idx[i]];
  }

  /** No two entries share a location. */
  predicate DistinctLocs(s: seq<Offer>) {
    forall i, j :: 0 <= i < j < |s| ==> s[i].tag.loc != s[j].tag.loc
  }

  /** The accepted offers have pairwise distinct, non-empty locations. */
  lemma {:induction false} AcceptedDistinct(offers: seq<Offer>)
    ensures DistinctLocs(Accepted(offers))
    ensures forall i :: 0 <= i < |Accepted(offers)| ==> Accepted(offers)[i].tag.loc != ""
  {
    if offers != [] {
      var init := offers[..|offers| - 1];
      AcceptedDistinct(init);
      LocsMembers(Accepted(init));
    }
  }

  /** Every non-empty offered location is accepted, and nothing else. */
  lemma {:induction false} AcceptedLocs(offers: seq<Offer>)
    ensures Locs(Accepted(offers)) == Locs(offers) - {""}
  {
    if offers != [] {
      var init := offers[..|offers| - 1];
      AcceptedLocs(init);
      assert Locs(offers) == Locs(init) + {offers[|offers| - 1].tag.loc};
    }
  }

  /** Each accepted offer is the first offer with its location. */
  lemma {:induction false} AcceptedFirstOccurrence(offers: seq<Offer>, k: nat)
    requires k < |Accepted(offers)|
    ensures exists i :: 0 <= i < |offers| && offers[i] == Accepted(offers)[k] &&
                        forall j :: 0 <= j < i ==> offers[j].tag.loc != offers[i].tag.loc
  {
    var init := offers[..|offers| - 1];
    var a := Accepted(init);
    var o := offers[|offers| - 1];
    assert Accepted(offers) == a || Accepted(offers) == a + [o];
    if k < |a| {
      assert Accepted(offers)[k] == a[k];
      AcceptedFirstOccurrence(init, k);
      var i :| 0 <= i < |init| && init[i] == a[k] &&
        forall j :: 0 <= j < i ==> init[j].tag.loc != init[i].tag.loc;
      assert forall j :: 0 <= j < |init| ==> init[j] == offers[j];
      assert offers[i] == init[i];
    } else {
      assert Accepted(offers) == a + [o] && o.tag.loc !in Locs(a);
      AcceptedLocs(init);
      LocsMembers(init);
      var i := |offers| - 1;
      forall j | 0 <= j < i ensures offers[j].tag.loc != o.tag.loc {
        assert init[j] == offers[j];
      }
    }
  }

  /** Offering more never withdraws an acceptance: earlier results are a prefix of later ones. */
  lemma {:induction false} AcceptedGrows(a: seq<Offer>, b: seq<Offer>)
    ensures |Accepted(a)| <= |Accepted(a + b)|
    ensures Accepted(a + b)[..|Accepted(a)|] == Accepted(a)
    decreases |b|
  {
    if b == [] {
      assert a + b == a;
    } else {
      var b' := b[..|b| - 1];
      AcceptedGrows(a, b');
      assert (a + b)[..|a + b| - 1] == a + b';
    }
  }

  /** The tags of a sequence of offers. */
  function TagsOf(offers: seq<Offer>): (r: seq<UrlTag>)
    ensures |r| == |offers|
  {
    if offers == [] then [] else TagsOf(offers[..|offers| - 1]) + [offers[|offers| - 1].tag]
  }

  /** The `i`-th tag is the `i`-th offer's. */
  lemma {:induction false} TagsOfIndex(offers: seq<Offer>)
    ensures forall i :: 0 <= i < |offers| ==> TagsOf(offers)[i] == offers[i].tag
  {
    if offers != [] {
      var init := offers[..|offers| - 1];
      TagsOfIndex(init);
      assert forall i :: 0 <= i < |init| ==> init[i] == offers[i];
    }
  }

  /** How many offers come from `source`. */
  function CountSource(offers: seq<Offer>, source: Source): (r: nat)
    ensures r <= |offers|
  {
    if offers == [] then 0
    else CountSource(offers[..|offers| - 1], source) + (if offers[|offers| - 1].source == source then 1 else 0)
  }

  /** Every offer is counted by exactly one of the three counters. */
  lemma {:induction false} CountsAddUp(offers: seq<Offer>)
    ensures CountSource(offers, StaticSource) + CountSource(offers, ModelSource) + CountSource(offers, CrawlSource) == |offers|
  {
    if offers != [] {
      CountsAddUp(offers[..|offers| - 1]);
    }
  }

  /** Offering one more tag: it is accepted exactly when its location is non-empty and new. */
  lemma AcceptedSnoc(offers: seq<Offer>, o: Offer)
    ensures o.tag.loc == "" || o.tag.loc in Locs(Accepted(offers)) ==> Accepted(offers + [o]) == Accepted(offers)
    ensures o.tag.loc != "" && o.tag.loc !in Locs(Accepted(offers)) ==> Accepted(offers + [o]) == Accepted(offers) + [o]
  {
    assert (offers + [o])[..|offers|] == offers;
  }

  /** Appending one offer, as the tags, the locations and the counters see it. */
  lemma SummariesSnoc(a: seq<Offer>, o: Offer)
    ensures TagsOf(a + [o]) == TagsOf(a) + [o.tag]
    ensures Locs(a + [o]) == Locs(a) + {o.tag.loc}
    ensures forall src :: CountSource(a + [o], src) == CountSource(a, src) + (if o.source == src then 1 else 0)
  {
    assert (a + [o])[..|a|] == a;
  }

  /** Concatenation is associative. */
  lemma AppendAssoc<T>(a: seq<T>, b: seq<T>, c: seq<T>)
    ensures a + (b + c) == a + b + c
  {
  }

  /** Appending one element after a concatenation. */
  lemma AppendSnoc<T>(a: seq<T>, b: seq<T>, x: T)
    ensures a + (b + [x]) == (a + b) + [x]
  {
  }

  /** The parts joined back together. */
  function Flatten<T>(parts: seq<seq<T>>): seq<T> {
    if parts == [] then [] else Flatten(parts[..|parts| - 1]) + parts[|parts| - 1]
  }

  /** One more part adds its tags at the end. */
  lemma FlattenSnoc<T>(parts: seq<seq<T>>, p: seq<T>)
    ensures Flatten(parts + [p]) == Flatten(parts) + p
  {
    assert (parts + [p])[..|parts|] == parts;
  }

  lemma {:induction false} FlattenCons<T>(p: seq<T>, rest: seq<seq<T>>)
    ensures Flatten([p] + rest) == p + Flatten(rest)
    decreases |rest|
  {
    if rest != [] {
      var init := rest[..|rest| - 1];
      FlattenCons(p, init);
      assert ([p] + rest)[..|[p] + rest| - 1] == [p] + init;
    } else {
      assert [p] + rest == [p];
      assert [p][..0] == [];
    }
  }

  /** `s` cut into consecutive parts of `m` entries, the last one possibly shorter. */
  function Chunk<T>(s: seq<T>, m: nat): (r: seq<seq<T>>)
    requires m >= 1
    ensures s != [] ==> r != []
    decreases |s|
  {
    if s == [] then []
    else if |s| <= m then [s]
    else [s[..m]] + Chunk(s[m..], m)
  }

  /** Joining the parts gives back the whole sequence. */
  lemma {:induction false} FlattenChunk<T>(s: seq<T>, m: nat)
    requires m >= 1
    ensures Flatten(Chunk(s, m)) == s
    decreases |s|
  {
    if s != [] {
      if |s| <= m {
        assert Chunk(s, m) == [s];
        assert Flatten([s]) == Flatten([s][..0]) + s;
      } else {
        FlattenChunk(s[m..], m);
        FlattenCons(s[..m], Chunk(s[m..], m));
        assert s[..m] + s[m..] == s;
      }
    }
  }

  /** Every part but the last holds exactly `m` entries; the last holds between 1 and `m`. */
  lemma {:induction false} ChunkSizes<T>(s: seq<T>, m: nat)
    requires m >= 1
    ensures forall i :: 0 <= i < |Chunk(s, m)| - 1 ==> |Chunk(s, m)[i]| == m
    ensures s != [] ==> 0 < |Chunk(s, m)[|Chunk(s, m)| - 1]| <= m
    ensures (|Chunk(s, m)| - 1) * m < |s| <= |Chunk(s, m)| * m || s == []
    decreases |s|
  {
    if |s| > m {
      ChunkSizes(s[m..], m);
      var rest := Chunk(s[m..], m);
      assert Chunk(s, m) == [s[..m]] + rest;
      assert forall i :: 1 <= i < |Chunk(s, m)| ==> Chunk(s, m)[i] == rest[i - 1];
      assert (|rest| - 1) * m < |s| - m <= |rest| * m;
      assert (|rest| + 1 - 1) * m == (|rest| - 1) * m + m;
      assert (|rest| + 1) * m == |rest| * m + m;
    }
  }

  /** More entries than fit in one part always give at least two parts. */
  lemma TwoPartsWhenOverfull<T>(s: seq<T>, m: nat)
    requires m >= 1 && |s| > m
    ensures |Chunk(s, m)| >= 2
  {
    assert Chunk(s, m) == [s[..m]] + Chunk(s[m..], m);
  }

  /**
   * Full parts followed by a non-empty current part of at most `m` entries
   * are exactly the cut of their concatenation.
   */
  lemma {:induction false} FullPartsAreChunks<T>(parts: seq<seq<T>>, current: seq<T>, m: nat)
    requires m >= 1
    requires forall i :: 0 <= i < |parts| ==> |parts[i]| == m
    requires 0 < |current| <= m
    ensures parts + [current] == Chunk(Flatten(parts) + current, m)
    decreases |parts|
  {
    if parts == [] {
      assert Flatten(parts) + current == current;
    } else {
      var p, rest := parts[0], parts[1..];
      assert parts == [p] + rest;
      FullPartsAreChunks(rest, current, m);
      FlattenCons(p, rest);
      var s := Flatten(parts) + current;
      assert s == p + (Flatten(rest) + current);
      assert s[..m] == p;
      assert s[m..] == Flatten(rest) + current;
      assert parts + [current] == [p] + (rest + [current]);
    }
  }

  /** The files holding the parts `parts`, numbered from 1. */
  function PartWrites(isFileMode: bool, dir: string, parts: seq<seq<UrlTag>>): (r: seq<FileWrite>)
    ensures |r| == |parts|
  {
    if parts == [] then []
    else PartWrites(isFileMode, dir, parts[..|parts| - 1]) +
         [FileWrite(PartWritePath(isFileMode, dir, |parts|), UrlSet(parts[|parts| - 1]))]
  }

  /** Part `i` (from 0) is written to the path of number `i + 1`. */
  lemma {:induction false} PartWritesIndex(isFileMode: bool, dir: string, parts: seq<seq<UrlTag>>)
    ensures forall i :: 0 <= i < |parts| ==>
      PartWrites(isFileMode, dir, parts)[i] == FileWrite(PartWritePath(isFileMode, dir, i + 1), UrlSet(parts[i]))
  {
    if parts != [] {
      var init := parts[..|parts| - 1];
      PartWritesIndex(isFileMode, dir, init);
      assert forall i :: 0 <= i < |init| ==> init[i] == parts[i];
    }
  }

  /** One more part adds one more file, numbered after the others. */
  lemma PartWritesSnoc(isFileMode: bool, dir: string, parts: seq<seq<UrlTag>>, p: seq<UrlTag>)
    ensures PartWrites(isFileMode, dir, parts + [p])
         == PartWrites(isFileMode, dir, parts) + [FileWrite(PartWritePath(isFileMode, dir, |parts| + 1), UrlSet(p))]
  {
    assert (parts + [p])[..|parts|] == parts;
  }

  /** The public URL of part `n` under the base URL. */
  function PartUrl(base: string, n: nat): string {
    TrimTrailingSlashes(base) + "/" + PartFileName(n)
  }

  /** The public URLs of parts 1 to `count`. */
  function PartUrls(base: string, count: nat): (r: seq<string>)
    ensures |r| == count
  {
    if count == 0 then [] else PartUrls(base, count - 1) + [PartUrl(base, count)]
  }

  /** The `i`-th URL (from 0) is that of part `i + 1`. */
  lemma {:induction false} PartUrlsIndex(base: string, count: nat)
    ensures forall i :: 0 <= i < count ==> PartUrls(base, count)[i] == PartUrl(base, i + 1)
  {
    if count > 0 {
      PartUrlsIndex(base, count - 1);
    }
  }

  /** The index lists every part exactly once. */
  lemma PartUrlsDistinct(base: string, count: nat)
    ensures forall i, j :: 0 <= i < j < count ==> PartUrls(base, count)[i] != PartUrls(base, count)[j]
  {
    PartUrlsIndex(base, count);
    forall i, j | 0 <= i < j < count
      ensures PartUrls(base, count)[i] != PartUrls(base, count)[j]
    {
      PartFileNamesDistinct(i + 1, j + 1);
      var p := TrimTrailingSlashes(base) + "/";
      assert PartUrl(base, i + 1)[|p|..] == PartFileName(i + 1);
      assert PartUrl(base, j + 1)[|p|..] == PartFileName(j + 1);
    }
  }
}

=== FILE: php_values.dfy ===
/**
 * PHP's untyped values as far as the sitemap core inspects them: the scalars,
 * date objects and ordered arrays, with the coercions the code applies
 * (`??`, `isset`, `empty`, `(string)`, `(float)`) and ordered-array assignment.
 */
module PhpValues {
  import opened Prelude

  /** The warning, turned into an exception, that `foreach` over a scalar raises. */
  const ForeachError := "foreach() argument must be of type array|object"

  /** An array key: PHP keys are integers or strings. */
  datatype Key = IntKey(i: int) | StrKey(s: string)

  /**
   * A PHP value. A float is opaque and carries PHP's own string form of the
   * number (e.g. "0.8"); a date object (DateTimeInterface) carries its Unix
   * time in seconds and, when its class has `__toString` (Carbon, which
   * Eloquent dates and `now()` are), the string that gives; an array is an
   * ordered list of key/value entries.
   */
  datatype Value =
    | Null
    | Bool(b: bool)
    | Int(i: int)
    | Float(repr: string)
    | Str(s: string)
    | DateTime(t: int, text: Option<string>)
    | Arr(entries: seq<Entry>)

  datatype Entry = Entry(key: Key, val: Value)

  /** The value stored under string key `k`, if the key exists (`array_key_exists`). */
  function Find(entries: seq<Entry>, k: string): (r: Option<Value>)
    ensures r.Some? ==> exists i :: 0 <= i < |entries| && entries[i] == Entry(StrKey(k), r.value)
    ensures r.None? <==> forall i :: 0 <= i < |entries| ==> entries[i].key != StrKey(k)
  {
    if entries == [] then None
    else if entries[0].key == StrKey(k) then Some(entries[0].val)
    else
      var r := Find(entries[1..], k);
      assert forall i :: 1 <= i < |entries| ==> entries[i] == entries[1..][i - 1];
      r
  }

  /** `$v[$k]` read through `??` or `isset`: nothing when `$v` is not an array or lacks the key. */
  function Get(v: Value, k: string): Option<Value> {
    if v.Arr? then Find(v.entries, k) else None
  }

  /** PHP `$x ?? $default`: the default when the value is absent or null. */
  function Coalesce(o: Option<Value>, default: Value): (r: Value)
    ensures o.Some? && o.value != Null ==> r == o.value
    ensures o.None? || o.value == Null ==> r == default
  {
    if o.Some? && o.value != Null then o.value else default
  }

  /** PHP `isset($v[$k])`. */
  predicate Isset(v: Value, k: string) {
    Get(v, k).Some? && Get(v, k).value != Null
  }

  /** PHP's conversion to bool. */
  predicate Truthy(v: Value) {
    match v
    case Null => false
    case Bool(b) => b
    case Int(i) => i != 0
    case Float(repr) => !ZeroSpelling(repr)
    case Str(s) => s != "" && s != "0"
    case DateTime(_, _) => true
    case Arr(entries) => entries != []
  }

  /** Whether a float spelling is a zero (`0`, `-0`, `0.0`, `0e5`): a number whose digits are all `0`. */
  predicate ZeroSpelling(repr: string) {
    var n := ReadNumber(repr);
    n.Some? && AllZeros(n.value.whole) && AllZeros(n.value.frac)
  }

  predicate AllZeros(s: string) {
    forall i :: 0 <= i < |s| ==> s[i] == '0'
  }

  /** PHP `empty($v[$k])`: absent, or present with a falsy value. */
  predicate IsEmpty(o: Option<Value>) {
    o.None? || !Truthy(o.value)
  }

  /** A string value other than ''. */
  predicate IsNonEmptyString(v: Value) {
    v.Str? && v.s != ""
  }

  /** Whether `(string)` refuses the value: an array, or a date object whose class has no `__toString`. */
  predicate NoStringForm(v: Value) {
    v.Arr? || (v.DateTime? && v.text.None?)
  }

  /**
   * PHP `(string) $v`. A date object gives its `__toString` form, and
   * throws when its class has none; an array casts to "Array" with a
   * warning, which the framework's error handler turns into an exception.
   */
  function ToStr(v: Value): (r: Result<string>)
    ensures r.Failure? <==> NoStringForm(v)
    ensures v.Str? ==> r == Success(v.s)
    ensures v.DateTime? && v.text.Some? ==> r == Success(v.text.value)
  {
    match v
    case Null => Success("")
    case Bool(b) => Success(if b then "1" else "")
    case Int(i) => Success(IntToString(i))
    case Float(repr) => Success(repr)
    case Str(s) => Success(s)
    case DateTime(_, text) =>
      if text.Some? then Success(text.value) else Failure("Object of class DateTime could not be converted to string")
    case Arr(_) => Failure("Array to string conversion")
  }

  predicate IsSpace(c: char) {
    c == ' ' || c == '\t' || c == '\n' || c == '\r' || c == '\U{B}' || c == '\U{C}'
  }

  /** The run of decimal digits at the start of `s`. */
  function DigitPrefix(s: string): (r: string)
    ensures AllDigits(r) && StartsWith(s, r)
    ensures |r| < |s| ==> !IsDigit(s[|r|])
  {
    if s != [] && IsDigit(s[0]) then [s[0]] + DigitPrefix(s[1..]) else []
  }

  /**
   * The integer PHP reads from the start of a string: leading white space,
   * an optional sign, then digits; 0 when there are none.
   */
  function LeadingInt(s: string): int {
    if s != [] && IsSpace(s[0]) then LeadingInt(s[1..])
    else if s != [] && s[0] == '-' then 0 - ParseDigits(DigitPrefix(s[1..])) as int
    else if s != [] && s[0] == '+' then ParseDigits(DigitPrefix(s[1..]))
    else ParseDigits(DigitPrefix(s))
  }

  /** The string without its leading white space, as PHP's numeric reading skips it. */
  function SkipSpaces(s: string): (r: string)
    ensures EndsWith(s, r)
    ensures r == [] || !IsSpace(r[0])
  {
    if s != [] && IsSpace(s[0]) then
      var r := SkipSpaces(s[1..]);
      assert s[1..][|s| - 1 - |r|..] == s[|s| - |r|..];
      r
    else s
  }

  /** A prefix stays a prefix behind a common head. */
  lemma {:induction false} StartsWithBehind(x: string, t: string, y: string)
    requires StartsWith(t, y)
    ensures StartsWith(x + t, x + y)
  {
    assert (x + t)[..|x + y|] == x + t[..|y|];
  }

  /** A string starts with its digit prefix followed by the rest. */
  lemma {:induction false} DigitPrefixSplit(s: string)
    ensures s == DigitPrefix(s) + s[|DigitPrefix(s)|..]
  {
    var d := DigitPrefix(s);
    assert s[..|d|] == d;
  }

  /**
   * The numeric prefix PHP reads from a string, in its parts: an optional
   * sign, the whole digits, an optional '.' with the fraction digits, and
   * an optional exponent ('e' or 'E', an optional sign, digits).
   */
  datatype Number = Number(
    sign: string, whole: string, dot: bool, frac: string,
    expMarker: string, expSign: string, expDigits: string)

  /** The text a number was read from. */
  function Spelling(n: Number): string {
    n.sign + (n.whole + (DotText(n.dot) + (n.frac + (n.expMarker + n.expSign + n.expDigits))))
  }

  /** The parts hold what their names say. */
  predicate WellFormedNumber(n: Number) {
    (n.sign == "" || n.sign == "+" || n.sign == "-") &&
    AllDigits(n.whole) && AllDigits(n.frac) && (n.whole != "" || n.frac != "") &&
    (!n.dot ==> n.frac == "") &&
    (n.expMarker == "" || n.expMarker == "e" || n.expMarker == "E") &&
    (n.expSign == "" || n.expSign == "+" || n.expSign == "-") &&
    AllDigits(n.expDigits) &&
    (n.expMarker == "" <==> n.expDigits == "") &&
    (n.expMarker == "" ==> n.expSign == "")
  }

  /** `t` without the sign it may start with. */
  function Unsigned(t: string): string {
    if t != [] && (t[0] == '+' || t[0] == '-') then t[1..] else t
  }

  /** Whether a number starts `t`: after an optional sign, a digit, or '.' and a digit. */
  predicate StartsNumber(t: string) {
    var u := Unsigned(t);
    u != [] && (IsDigit(u[0]) || (|u| >= 2 && u[0] == '.' && IsDigit(u[1])))
  }

  /** The exponent that starts `t`, as marker, sign and digits; all empty when there is none. */
  function ExponentOf(t: string): (r: (string, string, string))
    ensures r.0 == "" || r.0 == "e" || r.0 == "E"
    ensures r.1 == "" || r.1 == "+" || r.1 == "-"
    ensures AllDigits(r.2) && (r.0 == "" <==> r.2 == "") && (r.0 == "" ==> r.1 == "")
    ensures StartsWith(t, r.0 + r.1 + r.2)
  {
    if t != [] && (t[0] == 'e' || t[0] == 'E') then
      var sg := if |t| > 1 && (t[1] == '+' || t[1] == '-') then [t[1]] else [];
      var ds := DigitPrefix(t[1 + |sg|..]);
      if ds == [] then ("", "", "") else ([t[0]], sg, ds)
    else ("", "", "")
  }

  /** The digits, '.' and fraction digits that start `u`, and what follows them. */
  datatype MantissaScan = MantissaScan(whole: string, dot: bool, frac: string, rest: string)

  function DotText(dot: bool): string {
    if dot then "." else ""
  }

  /** Reads the whole digits and, after a '.', the fraction digits at the start of `u`. */
  function ScanMantissa(u: string): (r: MantissaScan)
    ensures AllDigits(r.whole) && AllDigits(r.frac) && (!r.dot ==> r.frac == "")
    ensures u == r.whole + (DotText(r.dot) + (r.frac + r.rest))
    ensures (r.whole != "" || r.frac != "") <==> u != [] && (IsDigit(u[0]) || (|u| >= 2 && u[0] == '.' && IsDigit(u[1])))
  {
    var whole := DigitPrefix(u);
    DigitPrefixSplit(u);
    var afterWhole := u[|whole|..];
    if afterWhole != [] && afterWhole[0] == '.' then
      var frac := DigitPrefix(afterWhole[1..]);
      DigitPrefixSplit(afterWhole[1..]);
      assert afterWhole == "." + afterWhole[1..];
      MantissaScan(whole, true, frac, afterWhole[1..][|frac|..])
    else
      MantissaScan(whole, false, "", afterWhole)
  }

  /** The longest number at the start of `t`, if any. */
  function ReadNumber(t: string): (r: Option<Number>)
    ensures r.Some? <==> StartsNumber(t)
    ensures r.Some? ==> WellFormedNumber(r.value) && StartsWith(t, Spelling(r.value))
  {
    var sign := if t != [] && (t[0] == '+' || t[0] == '-') then [t[0]] else [];
    assert t == sign + Unsigned(t);
    var m := ScanMantissa(Unsigned(t));
    if m.whole == [] && m.frac == [] then None
    else
      var e := ExponentOf(m.rest);
      var n := Number(sign, m.whole, m.dot, m.frac, e.0, e.1, e.2);
      var exp := e.0 + e.1 + e.2;
      var dotText := DotText(m.dot);
      assert Spelling(n) == sign + (m.whole + (dotText + (m.frac + exp)));
      StartsWithBehind(m.frac, m.rest, exp);
      StartsWithBehind(dotText, m.frac + m.rest, m.frac + exp);
      StartsWithBehind(m.whole, dotText + (m.frac + m.rest), dotText + (m.frac + exp));
      StartsWithBehind(sign, m.whole + (dotText + (m.frac + m.rest)), m.whole + (dotText + (m.frac + exp)));
      Some(n)
  }

  function Pow10(k: nat): (r: nat)
    ensures r >= 1
  {
    if k == 0 then 1 else 10 * Pow10(k - 1)
  }

  /** The number's value truncated toward zero. */
  function Truncated(n: Number): int
    requires WellFormedNumber(n)
  {
    var mantissa := ParseDigits(n.whole + n.frac);
    var exp := (if n.expSign == "-" then 0 - ParseDigits(n.expDigits) else ParseDigits(n.expDigits)) - |n.frac|;
    var magnitude := if exp >= 0 then mantissa * Pow10(exp) else mantissa / Pow10(0 - exp);
    if n.sign == "-" then 0 - magnitude else magnitude
  }

  /**
   * PHP `(float) $v`, giving the float's spelling (floats are opaque here).
   * A string gives the number at its start after white space, in the
   * string's own spelling, or 0 when none starts it. Casting a date object
   * warns, which the framework's error handler turns into an exception.
   */
  function ToFloat(v: Value): (r: Result<string>)
    ensures r.Failure? <==> v.DateTime?
    ensures v.Float? ==> r == Success(v.repr)
    ensures v.Str? && !StartsNumber(SkipSpaces(v.s)) ==> r == Success("0")
    ensures v.Str? && StartsNumber(SkipSpaces(v.s)) ==>
      r.Success? && r.value != "" && StartsWith(SkipSpaces(v.s), r.value)
  {
    match v
    case Null => Success("0")
    case Bool(b) => Success(if b then "1" else "0")
    case Int(i) => Success(IntToString(i))
    case Float(repr) => Success(repr)
    case Str(s) =>
      var n := ReadNumber(SkipSpaces(s));
      Success(if n.Some? then Spelling(n.value) else "0")
    case DateTime(_, _) => Failure("Object of class DateTime could not be converted to float")
    case Arr(entries) => Success(if entries == [] then "0" else "1")
  }

  /** The integer PHP's `(int)` reads from a numeric spelling: its leading number truncated toward zero, or 0. */
  function IntOfSpelling(s: string): int {
    var n := ReadNumber(SkipSpaces(s));
    if n.Some? then Truncated(n.value) else 0
  }

  /**
   * PHP `(int) $v`. A float or string is read as a number (an exponent
   * included) and truncated toward zero; a string that does not start with
   * a number gives 0. Casting a date object warns, which the framework's
   * error handler turns into an exception.
   */
  function ToInt(v: Value): (r: Result<int>)
    ensures r.Failure? <==> v.DateTime?
    ensures v.Int? ==> r == Success(v.i)
    ensures v.Str? && !StartsNumber(SkipSpaces(v.s)) ==> r == Success(0)
  {
    match v
    case Null => Success(0)
    case Bool(b) => Success(if b then 1 else 0)
    case Int(i) => Success(i)
    case Float(repr) => Success(IntOfSpelling(repr))
    case Str(s) => Success(IntOfSpelling(s))
    case DateTime(_, _) => Failure("Object of class DateTime could not be converted to int")
    case Arr(entries) => Success(if entries == [] then 0 else 1)
  }

  /** A run of digits is its own digit prefix, whatever follows unless it is a digit. */
  lemma {:induction false} DigitPrefixOf(d: string, x: string)
    requires AllDigits(d)
    requires x == [] || !IsDigit(x[0])
    ensures DigitPrefix(d + x) == d
  {
    if d != [] {
      assert (d + x)[1..] == d[1..] + x;
      DigitPrefixOf(d[1..], x);
    } else {
      assert d + x == x;
    }
  }

  /** White space in front changes no cast. */
  lemma {:induction false} SkipSpacesBehind(sp: string, s: string)
    requires forall i :: 0 <= i < |sp| ==> IsSpace(sp[i])
    ensures SkipSpaces(sp + s) == SkipSpaces(s)
  {
    if sp != [] {
      assert (sp + s)[1..] == sp[1..] + s;
      SkipSpacesBehind(sp[1..], s);
    } else {
      assert sp + s == s;
    }
  }

  /** `(float)` and `(int)` ignore leading white space. */
  lemma {:induction false} NumericCastsSkipSpaces(sp: string, s: string)
    requires forall i :: 0 <= i < |sp| ==> IsSpace(sp[i])
    ensures ToFloat(Str(sp + s)) == ToFloat(Str(s))
    ensures ToInt(Str(sp + s)) == ToInt(Str(s))
  {
    SkipSpacesBehind(sp, s);
  }

  /** Digits followed by neither a digit nor '.' are a whole number with nothing after the point. */
  lemma {:induction false} ScanWhole(d: string, x: string)
    requires AllDigits(d)
    requires x == [] || (!IsDigit(x[0]) && x[0] != '.')
    ensures ScanMantissa(d + x) == MantissaScan(d, false, "", x)
  {
    DigitPrefixOf(d, x);
    assert (d + x)[|d|..] == x;
  }

  /** Digits, '.', digits. */
  lemma {:induction false} ScanDecimal(w: string, f: string)
    requires AllDigits(w) && AllDigits(f)
    ensures ScanMantissa(w + ("." + f)) == MantissaScan(w, true, f, "")
  {
    DigitPrefixOf(w, "." + f);
    DigitPrefixOf(f, "");
    assert f + "" == f;
    assert (w + ("." + f))[|w|..] == "." + f;
    assert ("." + f)[1..] == f;
  }

  /** A string that starts with neither white space nor a sign is read as it is. */
  lemma {:induction false} ReadPlain(s: string)
    requires s != [] && IsDigit(s[0])
    ensures SkipSpaces(s) == s && Unsigned(s) == s
  {
  }

  /** `(int)` of a string of digits is the number they spell. */
  lemma {:induction false} ToIntOfDigits(d: string)
    requires d != [] && AllDigits(d)
    ensures ToInt(Str(d)) == Success(ParseDigits(d))
  {
    var n := Number("", d, false, "", "", "", "");
    ReadDigits(d);
    IntCastOfRead(d, n);
    TruncatedDecimal(n);
  }

  /** A run of digits is read as one whole number. */
  lemma {:induction false} ReadDigits(d: string)
    requires d != [] && AllDigits(d)
    ensures SkipSpaces(d) == d
    ensures ReadNumber(d) == Some(Number("", d, false, "", "", "", ""))
  {
    assert d + "" == d;
    ScanWhole(d, "");
    ReadPlain(d);
    assert ExponentOf("") == ("", "", "");
    ReadNumberFrom(d, [], ScanMantissa(d), ("", "", ""));
  }



  /**
   * The value of a number whose exponent, less its fraction digits, is
   * `k` or more: its digits scaled up by `k`.
   */
  lemma TruncatedScaled(n: Number, k: nat)
    requires WellFormedNumber(n) && n.sign == "" && n.frac == "" && n.expSign == "" && ParseDigits(n.expDigits) == k
    ensures Truncated(n) == ParseDigits(n.whole) * Pow10(k)
  {
    assert n.whole + n.frac == n.whole;
  }

  /** The exponent `e` followed by digits. */
  lemma {:induction false} ExponentDigits(e: string)
    requires e != [] && AllDigits(e)
    ensures ExponentOf("e" + e) == ("e", "", e)
  {
    assert ("e" + e)[1..] == e;
    DigitPrefixOf(e, "");
    assert e + "" == e;
  }

  /** `(int)` reads an exponent: `"1e3"` is 1000. */
  lemma {:induction false} ToIntOfExponent(d: string, e: string)
    requires d != [] && AllDigits(d) && e != [] && AllDigits(e)
    ensures ToInt(Str(d + ("e" + e))) == Success(ParseDigits(d) * Pow10(ParseDigits(e)))
  {
    var t := d + ("e" + e);
    var n := Number("", d, false, "", "e", "", e);
    ReadExponent(d, e);
    ReadPlain(t);
    IntCastOfRead(t, n);
    TruncatedScaled(n, ParseDigits(e));
  }

  /** Digits, 'e', digits are read as one number with an exponent. */
  lemma {:induction false} ReadExponent(d: string, e: string)
    requires d != [] && AllDigits(d) && e != [] && AllDigits(e)
    ensures ReadNumber(d + ("e" + e)) == Some(Number("", d, false, "", "e", "", e))
  {
    var t := d + ("e" + e);
    ScanWhole(d, "e" + e);
    ReadPlain(t);
    ExponentDigits(e);
    ReadNumberFrom(t, [], ScanMantissa(t), ("e", "", e));
  }

  /** `ReadNumber` assembled from its parts. */
  lemma {:induction false} ReadNumberFrom(t: string, sign: string, m: MantissaScan, e: (string, string, string))
    requires sign == (if t != [] && (t[0] == '+' || t[0] == '-') then [t[0]] else [])
    requires m == ScanMantissa(Unsigned(t)) && (m.whole != [] || m.frac != [])
    requires e == ExponentOf(m.rest)
    ensures ReadNumber(t) == Some(Number(sign, m.whole, m.dot, m.frac, e.0, e.1, e.2))
  {
  }

  /** `(int)` of a string with no white space in front, once the number it starts with is known. */
  lemma {:induction false} IntCastOfRead(t: string, n: Number)
    requires SkipSpaces(t) == t && ReadNumber(t) == Some(n)
    ensures ToInt(Str(t)) == Success(Truncated(n))
  {
  }

  /** `(float)` of a string with no white space in front, once the number it starts with is known. */
  lemma {:induction false} FloatCastOfRead(t: string, n: Number)
    requires SkipSpaces(t) == t && ReadNumber(t) == Some(n)
    ensures ToFloat(Str(t)) == Success(Spelling(n))
  {
  }

  /** `ParseDigits` over a concatenation. */
  lemma {:induction false} ParseDigitsAppend(a: string, b: string)
    requires AllDigits(a) && AllDigits(b)
    ensures ParseDigits(a + b) == ParseDigits(a) * Pow10(|b|) + ParseDigits(b)
    ensures ParseDigits(b) < Pow10(|b|)
  {
    if b != [] {
      var b' := b[..|b| - 1];
      assert (a + b)[..|a + b| - 1] == a + b';
      assert (a + b)[|a + b| - 1] == b[|b| - 1];
      ParseDigitsAppend(a, b');
      var c := (b[|b| - 1] as int) - ('0' as int);
      assert ParseDigits(a + b) == ParseDigits(a + b') * 10 + c;
      assert ParseDigits(b) == ParseDigits(b') * 10 + c;
      assert Pow10(|b|) == 10 * Pow10(|b'|);
      ShiftDigit(ParseDigits(a), Pow10(|b'|), ParseDigits(b'), c);
    } else {
      assert a + b == a;
    }
  }

  lemma ShiftDigit(x: nat, t: nat, y: nat, c: int)
    ensures (x * t + y) * 10 + c == x * (10 * t) + (y * 10 + c)
  {
  }

  lemma DivideBack(a: nat, b: nat, p: nat)
    requires b < p
    ensures (a * p + b) / p == a
  {
    var x := a * p + b;
    var q, r := x / p, x % p;
    assert x == q * p + r && 0 <= r < p;
    assert (q - a) * p == b - r;
    if q - a >= 1 {
      MulAtLeast(q - a, p);
    } else if q - a <= -1 {
      MulAtLeast(a - q, p);
    }
  }

  lemma MulAtLeast(k: int, p: int)
    requires k >= 1 && p > 0
    ensures k * p >= p
  {
    assert k * p == (k - 1) * p + p;
  }

  /** The value of a positive decimal without exponent: its whole digits. */
  lemma TruncatedDecimal(n: Number)
    requires WellFormedNumber(n) && n.sign == "" && n.expDigits == ""
    ensures Truncated(n) == ParseDigits(n.whole)
  {
    ParseDigitsAppend(n.whole, n.frac);
    DivideBack(ParseDigits(n.whole), ParseDigits(n.frac), Pow10(|n.frac|));
    if n.frac == "" {
      assert n.whole + n.frac == n.whole;
    }
  }

  /** `(int)` truncates a decimal: `"2.9"` is 2. */
  lemma {:induction false} ToIntTruncates(w: string, f: string)
    requires w != [] && AllDigits(w) && AllDigits(f)
    ensures ToInt(Str(w + ("." + f))) == Success(ParseDigits(w))
  {
    var n := Number("", w, true, f, "", "", "");
    ReadDecimal(w, f);
    IntCastOfRead(w + ("." + f), n);
    TruncatedDecimal(n);
  }

  /** Digits, '.', digits are read as one number. */
  lemma {:induction false} ReadDecimal(w: string, f: string)
    requires w != [] && AllDigits(w) && AllDigits(f)
    ensures SkipSpaces(w + ("." + f)) == w + ("." + f)
    ensures ReadNumber(w + ("." + f)) == Some(Number("", w, true, f, "", "", ""))
  {
    var s := w + ("." + f);
    ScanDecimal(w, f);
    ReadPlain(s);
    assert ExponentOf("") == ("", "", "");
    ReadNumberFrom(s, [], ScanMantissa(s), ("", "", ""));
  }


  /** A negative decimal is read with its sign. */
  lemma {:induction false} ReadNegativeDecimal(w: string, f: string)
    requires AllDigits(w) && AllDigits(f) && w != []
    ensures ReadNumber("-" + (w + ("." + f))) == Some(Number("-", w, true, f, "", "", ""))
  {
    var s := w + ("." + f);
    var t := "-" + s;
    ScanDecimal(w, f);
    assert Unsigned(t) == s by { assert t[1..] == s; }
    assert [t[0]] == "-";
    assert ExponentOf("") == ("", "", "");
    ReadNumberFrom(t, "-", ScanMantissa(s), ("", "", ""));
  }

  /** `(int)` truncates toward zero: `"-2.9"` is -2. */
  lemma {:induction false} ToIntTruncatesNegative(w: string, f: string)
    requires w != [] && AllDigits(w) && AllDigits(f)
    ensures ToInt(Str("-" + (w + ("." + f)))) == Success(0 - ParseDigits(w))
  {
    var t := "-" + (w + ("." + f));
    SkipSign(w + ("." + f));
    ReadNegativeDecimal(w, f);
    IntCastOfRead(t, Number("-", w, true, f, "", "", ""));
    NegativeDecimalValue(w, f);
  }


  lemma {:induction false} SkipSign(s: string)
    ensures SkipSpaces("-" + s) == "-" + s
  {
    assert ("-" + s)[0] == '-';
  }

  lemma {:induction false} NegativeDecimalValue(w: string, f: string)
    requires w != [] && AllDigits(w) && AllDigits(f)
    ensures Truncated(Number("-", w, true, f, "", "", "")) == 0 - ParseDigits(w)
  {
    var n := Number("-", w, true, f, "", "", "");
    TruncatedNegated(n);
    TruncatedDecimal(n.(sign := ""));
  }

  lemma TruncatedNegated(n: Number)
    requires WellFormedNumber(n) && n.sign == "-"
    ensures Truncated(n) == 0 - Truncated(n.(sign := ""))
  {
  }

  /** A decimal of zeros, such as `0.0`, is a false float. */
  lemma {:induction false} ZeroDecimalFalsy(w: string, f: string)
    requires w != [] && AllZeros(w) && AllZeros(f)
    ensures !Truthy(Float(w + ("." + f)))
  {
    assert AllDigits(w) && AllDigits(f);
    ReadDecimal(w, f);
  }

  /** A decimal string keeps its spelling under `(float)`. */
  lemma {:induction false} ToFloatOfDecimal(w: string, f: string)
    requires w != [] && AllDigits(w) && AllDigits(f)
    ensures ToFloat(Str(w + ("." + f))) == Success(w + ("." + f))
  {
    var n := Number("", w, true, f, "", "", "");
    ReadDecimal(w, f);
    FloatCastOfRead(w + ("." + f), n);
    assert Spelling(n) == w + ("." + f);
  }


  /** An array key as a value (what `foreach ($a as $k => $v)` binds to `$k`). */
  function KeyValue(k: Key): Value {
    match k
    case IntKey(i) => Int(i)
    case StrKey(s) => Str(s)
  }

  /** PHP `(string) $key`. */
  function KeyString(k: Key): string {
    match k
    case IntKey(i) => IntToString(i)
    case StrKey(s) => s
  }

  /**
   * The key PHP stores for a string used as an array key: a string that is
   * an integer in canonical decimal form becomes an integer key.
   */
  function StringKey(s: string): (k: Key)
    ensures k.StrKey? ==> k.s == s
    ensures k.IntKey? ==> IntToString(k.i) == s
  {
    if s == IntToString(LeadingInt(s)) then IntKey(LeadingInt(s)) else StrKey(s)
  }

  /** Different strings are different keys. */
  lemma StringKeyInjective(a: string, b: string)
    requires StringKey(a) == StringKey(b)
    ensures a == b
  {
  }

  predicate UniqueKeys(entries: seq<Entry>) {
    forall i, j :: 0 <= i < j < |entries| ==> entries[i].key != entries[j].key
  }

  /** The position of key `k`, or -1 when the array lacks it. */
  function KeyIndex(entries: seq<Entry>, k: Key): (r: int)
    ensures -1 <= r < |entries|
    ensures r >= 0 ==> entries[r].key == k
    ensures r == -1 <==> forall j :: 0 <= j < |entries| ==> entries[j].key != k
  {
    if entries == [] then -1
    else if entries[|entries| - 1].key == k then |entries| - 1
    else KeyIndex(entries[..|entries| - 1], k)
  }

  /**
   * PHP `$a[$k] = $v` on an ordered array: an existing key keeps its position
   * and takes the new value, a new key is appended.
   */
  function Put(entries: seq<Entry>, k: Key, v: Value): seq<Entry> {
    var i := KeyIndex(entries, k);
    if i >= 0 then entries[i := Entry(k, v)] else entries + [Entry(k, v)]
  }

  /** After `$a[$k] = $v` the array maps `k` to `v` and every other key as before, keys unique. */
  lemma PutSemantics(entries: seq<Entry>, k: Key, v: Value)
    requires UniqueKeys(entries)
    ensures UniqueKeys(Put(entries, k, v))
    ensures Entry(k, v) in Put(entries, k, v)
    ensures forall e :: e in entries && e.key != k ==> e in Put(entries, k, v)
    ensures forall e :: e in Put(entries, k, v) ==> e == Entry(k, v) || (e in entries && e.key != k)
  {
    var i := KeyIndex(entries, k);
    var r := Put(entries, k, v);
    if i >= 0 {
      assert r[i] == Entry(k, v);
    } else {
      assert r[|entries|] == Entry(k, v);
    }
    forall e | e in entries && e.key != k ensures e in r {
      var j :| 0 <= j < |entries| && entries[j] == e;
      assert r[j] == e;
    }
    forall e | e in r && e != Entry(k, v) ensures e in entries && e.key != k {
      var j :| 0 <= j < |r| && r[j] == e;
      assert j != i && j < |entries|;
      assert entries[j] == e;
    }
  }
}

=== FILE: prelude.dfy ===
/**
 * Small building blocks shared by the whole model: optional values, results
 * that carry a PHP exception message, and the string functions the PHP code
 * relies on (ltrim/rtrim of '/', basename, dirname, integer formatting).
 */
module Prelude {

  datatype Option<+T> = None | Some(value: T) {
    function GetOr(default: T): T {
      match this
      case Some(v) => v
      case None => default
    }
  }

  /** The outcome of PHP code that may throw: a value, or the exception's message. */
  datatype Result<+T> = Success(value: T) | Failure(error: string) {
    predicate IsFailure() { Failure? }

    function PropagateFailure<U>(): Result<U>
      requires Failure?
    {
      Failure(error)
    }

    function Extract(): T
      requires Success?
    {
      value
    }
  }

  predicate StartsWith(s: string, prefix: string) {
    |prefix| <= |s| && s[..|prefix|] == prefix
  }

  predicate EndsWith(s: string, suffix: string) {
    |suffix| <= |s| && s[|s| - |suffix|..] == suffix
  }

  /** PHP `ltrim($s, '/')`. */
  function TrimLeadingSlashes(s: string): (r: string)
    ensures |r| <= |s| && r == s[|s| - |r|..]
    ensures r == [] || r[0] != '/'
    ensures forall i :: 0 <= i < |s| - |r| ==> s[i] == '/'
  {
    if s != [] && s[0] == '/' then TrimLeadingSlashes(s[1..]) else s
  }

  /** PHP `rtrim($s, '/')`. */
  function TrimTrailingSlashes(s: string): (r: string)
    ensures |r| <= |s| && r == s[..|r|]
    ensures r == [] || r[|r| - 1] != '/'
    ensures forall i :: |r| <= i < |s| ==> s[i] == '/'
  {
    if s != [] && s[|s| - 1] == '/' then TrimTrailingSlashes(s[..|s| - 1]) else s
  }

  /** The characters after the last '/' of `s` (all of `s` when it has none). */
  function AfterLastSlash(s: string): (r: string)
    ensures |r| <= |s| && r == s[|s| - |r|..]
    ensures '/' !in r
    ensures |r| < |s| ==> s[|s| - |r| - 1] == '/'
  {
    if s == [] || s[|s| - 1] == '/' then [] else AfterLastSlash(s[..|s| - 1]) + [s[|s| - 1]]
  }

  /** `s` without the characters after its last '/' (empty when it has no '/'). */
  function UpToLastSlash(s: string): (r: string)
    ensures |r| <= |s| && r == s[..|r|]
    ensures r == [] || r[|r| - 1] == '/'
    ensures forall i :: |r| <= i < |s| ==> s[i] != '/'
  {
    if s == [] || s[|s| - 1] == '/' then s else UpToLastSlash(s[..|s| - 1])
  }

  /** PHP `basename($path)` with '/' as the only separator. */
  function Basename(path: string): string {
    AfterLastSlash(TrimTrailingSlashes(path))
  }

  /**
   * PHP `dirname($path)` with '/' as the only separator: the empty path stays
   * empty, a path of slashes gives "/", a bare name gives ".", otherwise the
   * part before the last name with its trailing slashes removed ("/" if that
   * leaves nothing).
   */
  function Dirname(path: string): (r: string)
    ensures path != [] ==> r != []
    ensures r != [] && r != "/" && r != "." ==> StartsWith(path, r) && r[|r| - 1] != '/'
  {
    if path == [] then []
    else
      var noTrail := TrimTrailingSlashes(path);
      if noTrail == [] then "/"
      else
        var upTo := UpToLastSlash(noTrail);
        if upTo == [] then "."
        else
          var dir := TrimTrailingSlashes(upTo);
          if dir == [] then "/" else dir
  }

  lemma {:induction false} AfterLastSlashOfJoin(dir: string, name: string)
    requires '/' !in name
    ensures AfterLastSlash(dir + "/" + name) == name
    decreases |name|
  {
    if name == [] {
    } else {
      var s := dir + "/" + name;
      assert s[..|s| - 1] == dir + "/" + name[..|name| - 1];
      AfterLastSlashOfJoin(dir, name[..|name| - 1]);
      assert name[..|name| - 1] + [name[|name| - 1]] == name;
    }
  }

  lemma {:induction false} AfterLastSlashOfName(name: string)
    requires '/' !in name
    ensures AfterLastSlash(name) == name
    decreases |name|
  {
    if name != [] {
      AfterLastSlashOfName(name[..|name| - 1]);
      assert name[..|name| - 1] + [name[|name| - 1]] == name;
    }
  }

  /** The base name of "dir/name" is "name", whatever the directory. */
  lemma BasenameOfJoin(dir: string, name: string)
    requires '/' !in name && name != []
    ensures Basename(dir + "/" + name) == name
  {
    var s := dir + "/" + name;
    assert s[|s| - 1] == name[|name| - 1];
    assert TrimTrailingSlashes(s) == s;
    AfterLastSlashOfJoin(dir, name);
  }

  /** A name without a separator is its own base name. */
  lemma BasenameOfName(name: string)
    requires '/' !in name
    ensures Basename(name) == name
  {
    assert name == [] || name[|name| - 1] != '/';
    AfterLastSlashOfName(name);
  }

  predicate IsDigit(c: char) { '0' <= c <= '9' }

  predicate AllDigits(s: string) { forall i :: 0 <= i < |s| ==> IsDigit(s[i]) }

  function DigitChar(d: nat): (c: char)
    requires d < 10
    ensures IsDigit(c) && (c as int) - ('0' as int) == d
  {
    (('0' as int) + d) as char
  }

  /** PHP's decimal rendering of a non-negative integer (string interpolation). */
  function NatToString(n: nat): (r: string)
    ensures r != [] && AllDigits(r)
  {
    if n < 10 then [DigitChar(n)] else NatToString(n / 10) + [DigitChar(n % 10)]
  }

  /** PHP's decimal rendering of an integer, with a leading '-' when negative. */
  function IntToString(i: int): string {
    if i < 0 then "-" + NatToString(-i) else NatToString(i)
  }

  /** Reads a string of decimal digits back as a number. */
  function ParseDigits(s: string): nat
    requires AllDigits(s)
  {
    if s == [] then 0
    else ParseDigits(s[..|s| - 1]) * 10 + ((s[|s| - 1] as int) - ('0' as int))
  }

  lemma {:induction false} ParseNatToString(n: nat)
    ensures ParseDigits(NatToString(n)) == n
  {
    if n >= 10 {
      var s := NatToString(n);
      assert s[..|s| - 1] == NatToString(n / 10);
      ParseNatToString(n / 10);
    }
  }

  /** Different numbers are written differently. */
  lemma NatToStringInjective(m: nat, n: nat)
    requires NatToString(m) == NatToString(n)
    ensures m == n
  {
    ParseNatToString(m);
    ParseNatToString(n);
  }
}

=== FILE: resolver.dfy ===
/**
 * The settings resolver (`SitemapSettingsResolver`): the effective
 * configuration the generator runs with, layered from the stored settings
 * row, the configuration file and hard-coded defaults.
 */
module SettingsResolver {
  import opened Prelude
  import opened PhpValues
  import opened Urls
  import opened Config
  import opened SettingsModel

  /** The TypeError of a configuration that is not an array reaching a parameter declared `array`. */
  function ConfigTypeError(callee: string, position: string): string {
    callee + "(): Argument #" + position + " ($config) must be of type array"
  }

  /** The TypeError of a configured `path` that is not a string reaching `resolveOutput`. */
  const LegacyPathTypeError := "resolveOutput(): Argument #2 ($legacyPath) must be of type string"

  /** The TypeError of `array_key_exists` on a crawl configuration that is not an array. */
  const MaxCountTypeError := "array_key_exists(): Argument #2 ($array) must be of type array"

  /** A value `(string)` can cast: absent, or neither an array nor a date object without a string form. */
  predicate Castable(o: Option<Value>) {
    o.None? || !NoStringForm(o.value)
  }

  /** A value `(int)` and `(float)` can cast: absent, or not a date object. */
  predicate NumberCastable(o: Option<Value>) {
    o.None? || !o.value.DateTime?
  }

  /** `isset($a[$k]) && is_string($a[$k]) && $a[$k] !== '' ? $a[$k] : null`. */
  function NonEmptyString(a: Value, k: string): (r: Option<string>)
    ensures r.Some? <==> Get(a, k).Some? && IsNonEmptyString(Get(a, k).value)
    ensures r.Some? ==> r.value != "" && Get(a, k) == Some(Str(r.value))
  {
    if Isset(a, k) && IsNonEmptyString(Get(a, k).value) then Some(Get(a, k).value.s) else None
  }

  /** `$a[$k] ?? $default` cast with `(int)`. */
  function IntOr(a: Value, k: string, default: int): (r: Result<int>)
    ensures r.Failure? <==> !NumberCastable(Get(a, k))
    ensures Get(a, k).None? || Get(a, k) == Some(Null) ==> r == Success(default)
    ensures Get(a, k).Some? && Get(a, k).value.Int? ==> r == Success(Get(a, k).value.i)
  {
    ToInt(Coalesce(Get(a, k), Int(default)))
  }

  /** `$a[$k] ?? $default` cast with `(string)`. */
  function StringOr(a: Value, k: string, default: string): (r: Result<string>)
    ensures r.Failure? <==> !Castable(Get(a, k))
    ensures Get(a, k).None? || Get(a, k) == Some(Null) ==> r == Success(default)
    ensures Get(a, k).Some? && Get(a, k).value.Str? ==> r == Success(Get(a, k).value.s)
  {
    ToStr(Coalesce(Get(a, k), Str(default)))
  }

  /**
   * `array_values(array_filter($a, fn ($p) => is_string($p) && $p !== ''))`:
   * the non-empty strings of an array, in order, re-indexed from 0.
   */
  function StringPatterns(entries: seq<Entry>): (r: seq<string>)
    ensures |r| <= |entries|
    ensures forall i :: 0 <= i < |r| ==> r[i] != ""
  {
    if entries == [] then []
    else
      var before := StringPatterns(entries[..|entries| - 1]);
      var v := entries[|entries| - 1].val;
      if IsNonEmptyString(v) then before + [v.s] else before
  }

  /** Exactly the non-empty string values of the array are kept. */
  lemma {:induction false} StringPatternsMembers(entries: seq<Entry>, p: string)
    ensures p in StringPatterns(entries) <==> p != "" && exists i :: 0 <= i < |entries| && entries[i].val == Str(p)
  {
    if entries != [] {
      var init := entries[..|entries| - 1];
      StringPatternsMembers(init, p);
      if exists i :: 0 <= i < |init| && init[i].val == Str(p) {
        var i :| 0 <= i < |init| && init[i].val == Str(p);
        assert entries[i] == init[i];
      }
      if exists i :: 0 <= i < |entries| && entries[i].val == Str(p) {
        var i :| 0 <= i < |entries| && entries[i].val == Str(p);
        if i < |init| {
          assert init[i] == entries[i];
        }
      }
    }
  }

  /** Filtering keeps the order: the patterns of two arrays in a row are the patterns of each, in a row. */
  lemma {:induction false} StringPatternsAppend(a: seq<Entry>, b: seq<Entry>)
    ensures StringPatterns(a + b) == StringPatterns(a) + StringPatterns(b)
  {
    if b == [] {
      assert a + b == a;
    } else {
      var binit := b[..|b| - 1];
      StringPatternsAppend(a, binit);
      assert (a + b)[..|a + b| - 1] == a + binit;
      assert (a + b)[|a + b| - 1] == b[|b| - 1];
    }
  }

  /** `$config['output'] ?? []`. */
  function OutputOf(config: Value): Value {
    Coalesce(Get(config, "output"), Arr([]))
  }

  /** The configured file path, else the legacy path; in file mode '' gives the configured `path`, else the legacy path. */
  function FilePath(config: Value, mode: OutputMode, legacyPath: string): Result<string> {
    var fp :- StringOr(OutputOf(config), "file_path", legacyPath);
    if fp == "" && mode == FileMode then StringOr(config, "path", legacyPath) else Success(fp)
  }

  /**
   * `resolveOutput`: disk mode only when the configured mode is exactly
   * `disk`; the configured file path, else the legacy path, and in file mode
   * the configured `path` (else the legacy path) when that is ''; the disk
   * (default `public`), disk path (default `sitemap.xml`) and visibility
   * (default `public`), each cast to a string.
   */
  function ResolveOutput(config: Value, legacyPath: string): (r: Result<OutputSettings>)
    ensures r.Success? ==> (r.value.mode == DiskMode <==> Get(OutputOf(config), "mode") == Some(Str("disk")))
    ensures var fp := StringOr(OutputOf(config), "file_path", legacyPath);
      r.Success? ==>
        (fp.Success? && (fp.value != "" || r.value.mode == DiskMode ==> r.value.filePath == fp.value))
    ensures var fp := StringOr(OutputOf(config), "file_path", legacyPath);
      r.Success? && r.value.mode == FileMode && fp == Success("") ==>
        Success(r.value.filePath) == StringOr(config, "path", legacyPath)
    ensures r.Success? ==>
      Success(r.value.disk) == StringOr(OutputOf(config), "disk", "public") &&
      Success(r.value.diskPath) == StringOr(OutputOf(config), "disk_path", "sitemap.xml") &&
      Success(r.value.visibility) == StringOr(OutputOf(config), "visibility", "public")
    ensures var out := OutputOf(config);
      (Castable(Get(out, "file_path")) && Castable(Get(config, "path")) && Castable(Get(out, "disk")) &&
       Castable(Get(out, "disk_path")) && Castable(Get(out, "visibility"))) ==> r.Success?
    ensures var out := OutputOf(config);
      (!Castable(Get(out, "file_path")) || !Castable(Get(out, "disk")) ||
       !Castable(Get(out, "disk_path")) || !Castable(Get(out, "visibility"))) ==> r.Failure?
  {
    var output := OutputOf(config);
    var mode := if Isset(output, "mode") && Get(output, "mode").value == Str("disk") then DiskMode else FileMode;
    var filePath :- FilePath(config, mode, legacyPath);
    var disk :- StringOr(output, "disk", "public");
    var diskPath :- StringOr(output, "disk_path", "sitemap.xml");
    var visibility :- StringOr(output, "visibility", "public");
    Success(OutputSettings(mode, filePath, disk, diskPath, visibility))
  }

  /** `$config['crawl'] ?? []`. */
  function CrawlOf(config: Value): Value {
    Coalesce(Get(config, "crawl"), Arr([]))
  }

  /** `isset($crawl[$k]) ? (int) $crawl[$k] : null`. */
  function OptionalInt(a: Value, k: string): (r: Result<Option<int>>)
    ensures r.Failure? <==> !NumberCastable(Get(a, k))
    ensures r.Success? ==> (r.value.Some? <==> Isset(a, k))
    ensures Get(a, k).Some? && Get(a, k).value.Int? ==> r == Success(Some(Get(a, k).value.i))
  {
    if Isset(a, k) then
      var i :- ToInt(Get(a, k).value);
      Success(Some(i))
    else Success(None)
  }

  /**
   * `array_key_exists('max_count', $crawl) ? (is_int(…) ? … : null) : null`,
   * which throws when the crawl configuration is not an array.
   */
  function MaxCount(crawl: Value): Result<Option<int>> {
    if !crawl.Arr? then Failure(MaxCountTypeError)
    else
      var m := Get(crawl, "max_count");
      Success(if m.Some? && m.value.Int? then Some(m.value.i) else None)
  }

  /**
   * `resolveCrawl`: the crawl settings of the configuration file. Strings
   * are kept only when non-empty, `max_count` only when it is an integer,
   * the exclude patterns are the array's non-empty strings; concurrency
   * defaults to 10 and the tags per sitemap to 50000. A crawl configuration
   * that is not an array makes `array_key_exists` throw.
   */
  function ResolveCrawl(config: Value): (r: Result<CrawlSettings>)
    ensures var crawl := CrawlOf(config);
      !crawl.Arr? ==> r == Failure(MaxCountTypeError)
    ensures var crawl := CrawlOf(config);
      (crawl.Arr? && NumberCastable(Get(crawl, "maximum_depth")) && NumberCastable(Get(crawl, "concurrency")) &&
       NumberCastable(Get(crawl, "max_tags_per_sitemap"))) ==> r.Success?
    ensures var crawl := CrawlOf(config);
      r.Success? ==>
        (r.value.maxCount.Some? <==> Get(crawl, "max_count").Some? && Get(crawl, "max_count").value.Int?) &&
        (r.value.maxCount.Some? ==> Get(crawl, "max_count") == Some(Int(r.value.maxCount.value)))
    ensures var crawl := CrawlOf(config);
      r.Success? ==>
        r.value.excludePatterns ==
          (var ex := Coalesce(Get(crawl, "exclude_patterns"), Arr([])); if ex.Arr? then StringPatterns(ex.entries) else [])
    ensures var crawl := CrawlOf(config);
      r.Success? ==>
        Success(r.value.concurrency) == IntOr(crawl, "concurrency", 10) &&
        Success(r.value.maxTagsPerSitemap) == IntOr(crawl, "max_tags_per_sitemap", 50000) &&
        Success(r.value.maximumDepth) == OptionalInt(crawl, "maximum_depth")
    ensures var crawl := CrawlOf(config);
      r.Success? ==>
        r.value.url == NonEmptyString(crawl, "url") &&
        r.value.crawlProfile == NonEmptyString(crawl, "crawl_profile") &&
        r.value.shouldCrawl == NonEmptyString(crawl, "should_crawl") &&
        r.value.hasCrawled == NonEmptyString(crawl, "has_crawled") &&
        r.value.chromeBinaryPath == NonEmptyString(crawl, "chrome_binary_path") &&
        r.value.nodeBinaryPath == NonEmptyString(crawl, "node_binary_path")
    ensures var crawl := CrawlOf(config);
      r.Success? ==>
        (r.value.enabled <==> Isset(crawl, "enabled") && Truthy(Get(crawl, "enabled").value)) &&
        (r.value.executeJavascript <==> Isset(crawl, "execute_javascript") && Truthy(Get(crawl, "execute_javascript").value))
  {
    var crawl := CrawlOf(config);
    var ex := Coalesce(Get(crawl, "exclude_patterns"), Arr([]));
    var exclude := if ex.Arr? then ex.entries else [];
    var maximumDepth :- OptionalInt(crawl, "maximum_depth");
    var enabled := Truthy(Coalesce(Get(crawl, "enabled"), Bool(false)));
    var concurrency :- IntOr(crawl, "concurrency", 10);
    var maxCount :- MaxCount(crawl);
    var maxTags :- IntOr(crawl, "max_tags_per_sitemap", 50000);
    Success(CrawlSettings(
      enabled,
      NonEmptyString(crawl, "url"),
      concurrency,
      maxCount,
      maxTags,
      StringPatterns(exclude),
      maximumDepth,
      NonEmptyString(crawl, "crawl_profile"),
      NonEmptyString(crawl, "should_crawl"),
      NonEmptyString(crawl, "has_crawled"),
      Truthy(Coalesce(Get(crawl, "execute_javascript"), Bool(false))),
      NonEmptyString(crawl, "chrome_binary_path"),
      NonEmptyString(crawl, "node_binary_path")))
  }

  /** `$x < 1 ? $fallback : $x`. */
  function AtLeastOne(x: int, fallback: int): (r: int)
    requires fallback >= 1
    ensures r >= 1
    ensures x >= 1 ==> r == x
    ensures x < 1 ==> r == fallback
  {
    if x < 1 then fallback else x
  }

  /** The file the resolved configuration names: the disk path on a disk, the file path otherwise. */
  function ResolvedPath(output: OutputSettings): string {
    if output.mode == DiskMode then output.diskPath else output.filePath
  }

  /**
   * `normalizeConfig`: the configuration file alone. The legacy path is the
   * configured `path`, else `public/sitemap.xml`; the chunk size (default
   * 500) and the URLs per file (default 50000) fall back to their defaults
   * below 1; the index sitemap is off.
   */
  function NormalizeConfig(config: Value, publicPath: string -> string): (r: Result<EffectiveConfig>)
    ensures !config.Arr? ==> r == Failure(ConfigTypeError("normalizeConfig", "1"))
    ensures r.Success? ==>
      r.value.path == ResolvedPath(r.value.output) &&
      r.value.chunkSize.Int? && r.value.chunkSize.i >= 1 && r.value.maxUrlsPerFile >= 1 &&
      r.value.enableIndexSitemap == Some(false)
    ensures r.Success? && (Get(config, "chunk_size").None? || Get(config, "chunk_size") == Some(Null)) ==>
      r.value.chunkSize == Int(500)
    ensures r.Success? && Get(config, "chunk_size").Some? && Get(config, "chunk_size").value.Int? ==>
      var c := Get(config, "chunk_size").value.i;
      r.value.chunkSize == Int(if c < 1 then 500 else c)
    ensures r.Success? && (Get(config, "max_urls_per_file").None? || Get(config, "max_urls_per_file") == Some(Null)) ==>
      r.value.maxUrlsPerFile == 50000
    ensures r.Success? && Get(config, "max_urls_per_file").Some? && Get(config, "max_urls_per_file").value.Int? ==>
      var m := Get(config, "max_urls_per_file").value.i;
      r.value.maxUrlsPerFile == if m < 1 then 50000 else m
    ensures r.Success? && (Get(config, "path").None? || Get(config, "path") == Some(Null)) ==>
      ResolveOutput(config, publicPath("sitemap.xml")) == Success(r.value.output)
    ensures r.Success? && Get(config, "path").Some? && Get(config, "path").value.Str? ==>
      ResolveOutput(config, Get(config, "path").value.s) == Success(r.value.output)
    ensures r.Success? && Get(config, "path").None? && Get(OutputOf(config), "file_path").None? &&
            r.value.output.mode == FileMode ==>
      r.value.path == publicPath("sitemap.xml")
    ensures r.Success? ==> Success(r.value.crawl) == ResolveCrawl(config)
    ensures config.Arr? && Get(config, "path").Some? && !Get(config, "path").value.Str? &&
            Get(config, "path").value != Null ==>
      r == Failure(LegacyPathTypeError)
  {
    if !config.Arr? then Failure(ConfigTypeError("normalizeConfig", "1"))
    else
      var path := Coalesce(Get(config, "path"), Str(publicPath("sitemap.xml")));
      if !path.Str? then Failure(LegacyPathTypeError)
      else
        var output :- ResolveOutput(config, path.s);
        var chunkSize :- IntOr(config, "chunk_size", 500);
        var maxPerFile :- IntOr(config, "max_urls_per_file", 50000);
        var crawl :- ResolveCrawl(config);
        Success(EffectiveConfig(
          ResolvedPath(output),
          output,
          Coalesce(Get(config, "static_urls"), Arr([])),
          Coalesce(Get(config, "models"), Arr([])),
          Int(AtLeastOne(chunkSize, 500)),
          AtLeastOne(maxPerFile, 50000),
          Coalesce(Get(config, "base_url"), Null),
          Coalesce(Get(config, "news"), Arr([])),
          Coalesce(Get(config, "ping_search_engines"), Arr([])),
          Some(false),
          crawl))
  }

  /**
   * `resolveOutputWithSettings`: the configured output, overridden by the
   * stored mode when it is exactly `disk` or `file`; in stored file mode the
   * stored file path when present, in stored disk mode the stored disk,
   * disk path and visibility when present, else the configured ones cast
   * to strings with their defaults.
   */
  function ResolveOutputWithSettings(row: SettingRow, config: Value, legacyPath: string, columns: set<string>)
    : (r: Result<OutputSettings>)
    ensures ResolveOutput(config, legacyPath).Failure? ==> r == ResolveOutput(config, legacyPath)
    ensures "output_mode" !in columns || (row.outputMode != Some("disk") && row.outputMode != Some("file")) ==>
      r == ResolveOutput(config, legacyPath)
    ensures "output_mode" in columns && row.outputMode == Some("file") && ResolveOutput(config, legacyPath).Success? ==>
      r.Success? && r.value.mode == FileMode &&
      (Present(row.filePath) ==> r.value.filePath == row.filePath.value) &&
      r.value.(filePath := "") == ResolveOutput(config, legacyPath).value.(mode := FileMode, filePath := "")
    ensures "output_mode" in columns && row.outputMode == Some("disk") && r.Success? ==>
      r.value.mode == DiskMode &&
      r.value.filePath == ResolveOutput(config, legacyPath).value.filePath &&
      (Present(row.disk) ==> r.value.disk == row.disk.value) &&
      (Present(row.diskPath) ==> r.value.diskPath == row.diskPath.value) &&
      (Present(row.visibility) ==> r.value.visibility == row.visibility.value) &&
      (!Present(row.disk) ==> Success(r.value.disk) == StringOr(OutputOf(config), "disk", "public")) &&
      (!Present(row.diskPath) ==> Success(r.value.diskPath) == StringOr(OutputOf(config), "disk_path", "sitemap.xml")) &&
      (!Present(row.visibility) ==> Success(r.value.visibility) == StringOr(OutputOf(config), "visibility", "public"))
  {
    var configOutput := OutputOf(config);
    var base :- ResolveOutput(config, legacyPath);
    if "output_mode" !in columns then Success(base)
    else
      var mode := row.outputMode;
      var base := if mode == Some("disk") then base.(mode := DiskMode)
                  else if mode == Some("file") then base.(mode := FileMode)
                  else base;
      if mode == Some("file") then
        // the configured fallback is the value `resolveOutput` already cast
        var fallback := match StringOr(configOutput, "file_path", legacyPath)
                        case Success(v) => v
                        case Failure(_) => base.filePath;
        Success(base.(filePath := if Present(row.filePath) then row.filePath.value else fallback))
      else if mode == Some("disk") then
        // the configured fallbacks are the values `resolveOutput` already cast
        Success(base.(disk := if Present(row.disk) then row.disk.value else base.disk,
                      diskPath := if Present(row.diskPath) then row.diskPath.value else base.diskPath,
                      visibility := if Present(row.visibility) then row.visibility.value else base.visibility))
      else Success(base)
  }

  /** A stored column's value when the table has the column and the value is not null, else the configured one. */
  function Stored<T>(stored: Option<T>, hasColumn: bool, configured: T): (r: T)
    ensures hasColumn && stored.Some? ==> r == stored.value
    ensures !hasColumn || stored.None? ==> r == configured
  {
    if hasColumn && stored.Some? then stored.value else configured
  }

  /** A stored string column's value when the table has the column and the value is neither null nor '', else the configured one. */
  function StoredString(stored: Option<string>, hasColumn: bool, configured: Option<string>): (r: Option<string>)
    ensures hasColumn && Present(stored) ==> r == stored
    ensures !hasColumn || !Present(stored) ==> r == configured
  {
    if hasColumn && Present(stored) then stored else configured
  }

  /**
   * `resolveCrawlWithSettings`: the configured crawl settings, each
   * overridden by its stored column when the table has the column and the
   * stored value is present (not null, and not '' for strings). The stored
   * `max_count` and `maximum_depth` override even when null; stored
   * exclude patterns are filtered like configured ones.
   */
  function ResolveCrawlWithSettings(row: SettingRow, config: Value, columns: set<string>): (r: Result<CrawlSettings>)
    ensures r.Failure? <==> ResolveCrawl(config).Failure?
    ensures columns == {} ==> r == ResolveCrawl(config)
    ensures r.Success? ==>
      var c := ResolveCrawl(config).value;
      r.value.maxCount == (if "max_count" in columns then row.maxCount else c.maxCount) &&
      r.value.maximumDepth == (if "maximum_depth" in columns then row.maximumDepth else c.maximumDepth) &&
      r.value.maxTagsPerSitemap == c.maxTagsPerSitemap &&
      r.value.excludePatterns ==
        (if "exclude_patterns" in columns && row.excludePatterns.Arr? then StringPatterns(row.excludePatterns.entries)
         else c.excludePatterns)
    ensures r.Success? ==>
      var c := ResolveCrawl(config).value;
      r.value.enabled == Stored(row.crawlEnabled, "crawl_enabled" in columns, c.enabled) &&
      r.value.concurrency == Stored(row.concurrency, "concurrency" in columns, c.concurrency) &&
      r.value.executeJavascript == Stored(row.executeJavascript, "execute_javascript" in columns, c.executeJavascript)
    ensures r.Success? ==>
      var c := ResolveCrawl(config).value;
      r.value.url == StoredString(row.crawlUrl, "crawl_url" in columns, c.url) &&
      r.value.crawlProfile == StoredString(row.crawlProfile, "crawl_profile" in columns, c.crawlProfile) &&
      r.value.shouldCrawl == StoredString(row.shouldCrawl, "should_crawl" in columns, c.shouldCrawl) &&
      r.value.hasCrawled == StoredString(row.hasCrawled, "has_crawled" in columns, c.hasCrawled) &&
      r.value.chromeBinaryPath == StoredString(row.chromeBinaryPath, "chrome_binary_path" in columns, c.chromeBinaryPath) &&
      r.value.nodeBinaryPath == StoredString(row.nodeBinaryPath, "node_binary_path" in columns, c.nodeBinaryPath)
  {
    var c :- ResolveCrawl(config);
    Success(CrawlSettings(
      Stored(row.crawlEnabled, "crawl_enabled" in columns, c.enabled),
      StoredString(row.crawlUrl, "crawl_url" in columns, c.url),
      Stored(row.concurrency, "concurrency" in columns, c.concurrency),
      if "max_count" in columns then row.maxCount else c.maxCount,
      c.maxTagsPerSitemap,
      if "exclude_patterns" in columns && row.excludePatterns.Arr? then StringPatterns(row.excludePatterns.entries)
      else c.excludePatterns,
      if "maximum_depth" in columns then row.maximumDepth else c.maximumDepth,
      StoredString(row.crawlProfile, "crawl_profile" in columns, c.crawlProfile),
      StoredString(row.shouldCrawl, "should_crawl" in columns, c.shouldCrawl),
      StoredString(row.hasCrawled, "has_crawled" in columns, c.hasCrawled),
      Stored(row.executeJavascript, "execute_javascript" in columns, c.executeJavascript),
      StoredString(row.chromeBinaryPath, "chrome_binary_path" in columns, c.chromeBinaryPath),
      StoredString(row.nodeBinaryPath, "node_binary_path" in columns, c.nodeBinaryPath)))
  }

  /** `$settings->default_change_frequency ?? 'weekly'`. */
  function DefaultFrequency(row: SettingRow): Value {
    Coalesce(Some(row.defaultChangeFrequency), Str("weekly"))
  }

  /** `$settings->default_priority !== null ? (float) $settings->default_priority : 0.8`. */
  function DefaultPriority(row: SettingRow): (r: Result<string>)
    ensures row.defaultPriority == Null ==> r == Success("0.8")
    ensures r.Failure? <==> row.defaultPriority.DateTime?
    ensures row.defaultPriority != Null ==> r == ToFloat(row.defaultPriority)
  {
    if row.defaultPriority != Null then ToFloat(row.defaultPriority) else Success("0.8")
  }

  /** `isset($entry['priority']) ? (float) $entry['priority'] : $defaultPriority`. */
  function PriorityOr(e: Value, priority: string): Result<string> {
    if Isset(e, "priority") then ToFloat(Get(e, "priority").value) else Success(priority)
  }

  /** One static URL in the form the generator reads. */
  datatype StaticUrl = StaticUrl(url: string, priority: string, changefreq: Value)

  /** `['url' => …, 'priority' => …, 'changefreq' => …]`. */
  function StaticUrlValue(s: StaticUrl): Value {
    Arr([Entry(StrKey("url"), Str(s.url)), Entry(StrKey("priority"), Float(s.priority)),
         Entry(StrKey("changefreq"), s.changefreq)])
  }

  /** The generator reads back the URL, priority and change frequency of a resolved static URL. */
  lemma StaticUrlFields(s: StaticUrl)
    ensures Get(StaticUrlValue(s), "url") == Some(Str(s.url))
    ensures Get(StaticUrlValue(s), "priority") == Some(Float(s.priority))
    ensures Get(StaticUrlValue(s), "changefreq") == Some(s.changefreq)
  {
    var es := StaticUrlValue(s).entries;
    assert Find(es[2..], "changefreq") == Some(s.changefreq);
    assert Find(es[1..], "changefreq") == Find(es[2..], "changefreq");
    assert Find(es[1..], "priority") == Some(Float(s.priority));
  }

  /**
   * One stored static entry: dropped when it is not an array or its `url`
   * is empty; otherwise the URL cast to a string, the priority cast to a
   * float when set (else the default), the change frequency when not null
   * (else the default).
   */
  function StaticEntry(e: Value, freq: Value, priority: string): (r: Result<Option<StaticUrl>>)
    ensures !e.Arr? || IsEmpty(Get(e, "url")) ==> r == Success(None)
    ensures r.Failure? <==>
      e.Arr? && !IsEmpty(Get(e, "url")) &&
      (!Castable(Get(e, "url")) || (Isset(e, "priority") && Get(e, "priority").value.DateTime?))
    ensures r.Success? && r.value.Some? ==>
      var s := r.value.value;
      e.Arr? && !IsEmpty(Get(e, "url")) && Success(s.url) == ToStr(Get(e, "url").value) &&
      (Isset(e, "priority") ==> Success(s.priority) == ToFloat(Get(e, "priority").value)) &&
      (!Isset(e, "priority") ==> s.priority == priority) &&
      s.changefreq == Coalesce(Get(e, "changefreq"), freq)
    ensures (e.Arr? && Castable(Get(e, "url")) && !IsEmpty(Get(e, "url")) &&
             NumberCastable(Get(e, "priority"))) ==> r.Success? && r.value.Some?
  {
    if !e.Arr? || IsEmpty(Get(e, "url")) then Success(None)
    else
      var url :- ToStr(Get(e, "url").value);
      var p :- PriorityOr(e, priority);
      Success(Some(StaticUrl(url, p, Coalesce(Get(e, "changefreq"), freq))))
  }

  /**
   * A `foreach` that appends the converted form of each kept entry (`$out[]
   * = …` after a `continue` for the dropped ones), in order; the first
   * entry whose conversion throws makes it throw.
   */
  function FilterMap<T>(s: seq<Entry>, f: Value -> Result<Option<T>>): Result<seq<T>> {
    if s == [] then Success([])
    else
      var before :- FilterMap(s[..|s| - 1], f);
      var one :- f(s[|s| - 1].val);
      Success(if one.Some? then before + [one.value] else before)
  }

  /** One more entry: the list so far, plus the entry when it is kept. */
  lemma FilterMapStep<T>(s: seq<Entry>, f: Value -> Result<Option<T>>, i: nat)
    requires i < |s| && FilterMap(s[..i], f).Success?
    ensures var one := f(s[i].val);
      FilterMap(s[..i + 1], f) ==
        if one.Failure? then Failure(one.error)
        else if one.value.Some? then Success(FilterMap(s[..i], f).value + [one.value.value])
        else FilterMap(s[..i], f)
  {
    assert s[..i + 1][..i] == s[..i];
  }

  /** Once a prefix throws, the whole list throws the same exception. */
  lemma {:induction false} FilterMapPrefixFails<T>(s: seq<Entry>, f: Value -> Result<Option<T>>, k: nat)
    requires k <= |s| && FilterMap(s[..k], f).Failure?
    ensures FilterMap(s, f) == Failure(FilterMap(s[..k], f).error)
  {
    if k < |s| {
      assert s[..|s| - 1][..k] == s[..k];
      FilterMapPrefixFails(s[..|s| - 1], f, k);
    } else {
      assert s[..k] == s;
    }
  }

  /** The list throws exactly when one of its entries does. */
  lemma {:induction false} FilterMapFails<T>(s: seq<Entry>, f: Value -> Result<Option<T>>)
    ensures FilterMap(s, f).Failure? <==>
      exists i :: 0 <= i < |s| && f(s[i].val).Failure?
  {
    if s != [] {
      var init := s[..|s| - 1];
      FilterMapFails(init, f);
      if FilterMap(init, f).Success? {
        assert s[..|s| - 1 + 1] == s;
        FilterMapStep(s, f, |s| - 1);
      }
      if exists i :: 0 <= i < |init| && f(init[i].val).Failure? {
        var i :| 0 <= i < |init| && f(init[i].val).Failure?;
        assert s[i] == init[i];
      }
      if exists i :: 0 <= i < |s| && f(s[i].val).Failure? {
        var i :| 0 <= i < |s| && f(s[i].val).Failure?;
        if i < |init| {
          assert init[i] == s[i];
        }
      }
    }
  }

  /** The list holds exactly the converted kept entries. */
  lemma {:induction false} FilterMapMembers<T>(s: seq<Entry>, f: Value -> Result<Option<T>>, u: T)
    requires FilterMap(s, f).Success?
    ensures u in FilterMap(s, f).value <==>
      exists i :: 0 <= i < |s| && f(s[i].val) == Success(Some(u))
  {
    if s != [] {
      var init := s[..|s| - 1];
      FilterMapMembers(init, f, u);
      if FilterMap(init, f).Success? {
        assert s[..|s| - 1 + 1] == s;
        FilterMapStep(s, f, |s| - 1);
      }
      if exists i :: 0 <= i < |init| && f(init[i].val) == Success(Some(u)) {
        var i :| 0 <= i < |init| && f(init[i].val) == Success(Some(u));
        assert s[i] == init[i];
      }
      if exists i :: 0 <= i < |s| && f(s[i].val) == Success(Some(u)) {
        var i :| 0 <= i < |s| && f(s[i].val) == Success(Some(u));
        if i < |init| {
          assert init[i] == s[i];
        }
      }
    }
  }

  /** The entries keep their order: two arrays in a row give their two lists in a row. */
  lemma {:induction false} FilterMapAppend<T>(a: seq<Entry>, b: seq<Entry>, f: Value -> Result<Option<T>>)
    requires FilterMap(a + b, f).Success?
    ensures FilterMap(a, f).Success? && FilterMap(b, f).Success?
    ensures FilterMap(a + b, f).value ==
      FilterMap(a, f).value + FilterMap(b, f).value
  {
    if b == [] {
      assert a + b == a;
    } else {
      var binit := b[..|b| - 1];
      assert (a + b)[..|a + b| - 1] == a + binit;
      assert (a + b)[|a + b| - 1] == b[|b| - 1];
      FilterMapAppend(a, binit, f);
    }
  }

  /** The conversion of one stored static entry. */
  function StaticFn(freq: Value, priority: string): Value -> Result<Option<StaticUrl>> {
    e => StaticEntry(e, freq, priority)
  }

  /** The stored static entries in generator form. */
  function StaticList(s: seq<Entry>, freq: Value, priority: string): Result<seq<StaticUrl>> {
    FilterMap(s, StaticFn(freq, priority))
  }

  /** `$out[] = …` in a row: the values under keys 0, 1, 2, … */
  function Listed<T>(vals: seq<T>, f: T -> Value): (r: seq<Entry>)
    ensures |r| == |vals|
    ensures forall i :: 0 <= i < |vals| ==> r[i] == Entry(IntKey(i), f(vals[i]))
  {
    if vals == [] then []
    else Listed(vals[..|vals| - 1], f) + [Entry(IntKey(|vals| - 1), f(vals[|vals| - 1]))]
  }

  /**
   * `resolveStaticUrls`: a stored list that is not an array gives the
   * configured list, else the default home page; a stored array gives its
   * kept entries in generator form, listed from 0.
   */
  function ResolveStaticUrls(row: SettingRow, config: Value): (r: Result<Value>)
    ensures !row.staticUrls.Arr? ==> r == Success(Coalesce(Get(config, "static_urls"), DefaultStaticUrls))
    ensures row.staticUrls.Arr? && DefaultPriority(row).Failure? ==> r.Failure?
    ensures row.staticUrls.Arr? && DefaultPriority(row).Success? ==>
      var l := StaticList(row.staticUrls.entries, DefaultFrequency(row), DefaultPriority(row).value);
      (r.Failure? <==> l.Failure?) && (r.Success? ==> r.value == Arr(Listed(l.value, StaticUrlValue)))
  {
    if !row.staticUrls.Arr? then Success(Coalesce(Get(config, "static_urls"), DefaultStaticUrls))
    else
      var priority :- DefaultPriority(row);
      var list :- StaticList(row.staticUrls.entries, DefaultFrequency(row), priority);
      Success(Arr(Listed(list, StaticUrlValue)))
  }

  /** The loop of `resolveStaticUrls` over the stored entries. */
  method CollectStaticUrls(s: seq<Entry>, freq: Value, priority: string) returns (r: Result<seq<StaticUrl>>)
    ensures r == StaticList(s, freq, priority)
  {
    var out: seq<StaticUrl> := [];
    for i := 0 to |s|
      invariant StaticList(s[..i], freq, priority) == Success(out)
    {
      FilterMapStep(s, StaticFn(freq, priority), i);
      var one := StaticEntry(s[i].val, freq, priority);
      assert StaticFn(freq, priority)(s[i].val) == one;
      if one.Failure? {
        FilterMapPrefixFails(s, StaticFn(freq, priority), i + 1);
        return Failure(one.error);
      }
      if one.value.Some? {
        out := out + [one.value.value];
      }
    }
    assert s[..|s|] == s;
    return Success(out);
  }

  /** One model in the generator's form: its class and options. */
  datatype ModelOptions = ModelOptions(modelClass: string, priority: string, changefreq: Value, urlResolverMethod: Value)

  /** `['priority' => …, 'changefreq' => …, 'url_resolver_method' => …]`. */
  function ModelOptionsValue(m: ModelOptions): Value {
    Arr([Entry(StrKey("priority"), Float(m.priority)), Entry(StrKey("changefreq"), m.changefreq),
         Entry(StrKey("url_resolver_method"), m.urlResolverMethod)])
  }

  /**
   * One stored model entry: dropped when it is not an array, its
   * `model_class` is empty, or `enabled` is set and falsy; otherwise the
   * class cast to a string, the priority cast to a float when set (else the
   * default), the change frequency when not null (else the default) and the
   * resolver method when not null (else `getSitemapUrl`).
   */
  function ModelEntry(e: Value, freq: Value, priority: string): (r: Result<Option<ModelOptions>>)
    ensures !e.Arr? || IsEmpty(Get(e, "model_class")) ==> r == Success(None)
    ensures Isset(e, "enabled") && !Truthy(Get(e, "enabled").value) ==> r == Success(None)
    ensures r.Success? && r.value.Some? ==>
      var m := r.value.value;
      e.Arr? && !IsEmpty(Get(e, "model_class")) && !(Isset(e, "enabled") && !Truthy(Get(e, "enabled").value)) &&
      Success(m.modelClass) == ToStr(Get(e, "model_class").value) &&
      (Isset(e, "priority") ==> Success(m.priority) == ToFloat(Get(e, "priority").value)) &&
      (!Isset(e, "priority") ==> m.priority == priority) &&
      m.changefreq == Coalesce(Get(e, "changefreq"), freq) &&
      (!Isset(e, "url_resolver_method") ==> m.urlResolverMethod == Str("getSitemapUrl")) &&
      (Isset(e, "url_resolver_method") ==> m.urlResolverMethod == Get(e, "url_resolver_method").value)
    ensures (e.Arr? && !IsEmpty(Get(e, "model_class")) && !(Isset(e, "enabled") && !Truthy(Get(e, "enabled").value)) &&
             Castable(Get(e, "model_class")) && NumberCastable(Get(e, "priority"))) ==> r.Success? && r.value.Some?
  {
    if !e.Arr? || IsEmpty(Get(e, "model_class")) then Success(None)
    else if Isset(e, "enabled") && !Truthy(Get(e, "enabled").value) then Success(None)
    else
      var cls :- ToStr(Get(e, "model_class").value);
      var p :- PriorityOr(e, priority);
      Success(Some(ModelOptions(cls, p, Coalesce(Get(e, "changefreq"), freq),
                                Coalesce(Get(e, "url_resolver_method"), Str("getSitemapUrl")))))
  }

  /** The stored models keyed by class, `$out[$class] = …` entry by entry; the first that throws makes it throw. */
  function ModelMap(s: seq<Entry>, freq: Value, priority: string): Result<seq<Entry>> {
    if s == [] then Success([])
    else
      var before :- ModelMap(s[..|s| - 1], freq, priority);
      var one :- ModelEntry(s[|s| - 1].val, freq, priority);
      Success(if one.Some? then Put(before, StringKey(one.value.modelClass), ModelOptionsValue(one.value)) else before)
  }

  /** One more entry: the map so far, with the entry's class set when it is kept. */
  lemma ModelMapStep(s: seq<Entry>, freq: Value, priority: string, i: nat)
    requires i < |s| && ModelMap(s[..i], freq, priority).Success?
    ensures var one := ModelEntry(s[i].val, freq, priority);
      var before := ModelMap(s[..i], freq, priority).value;
      ModelMap(s[..i + 1], freq, priority) ==
        if one.Failure? then Failure(one.error)
        else if one.value.Some? then Success(Put(before, StringKey(one.value.value.modelClass), ModelOptionsValue(one.value.value)))
        else Success(before)
  {
    assert s[..i + 1][..i] == s[..i];
  }

  /** Once a prefix throws, the whole map throws the same exception. */
  lemma {:induction false} ModelMapPrefixFails(s: seq<Entry>, freq: Value, priority: string, k: nat)
    requires k <= |s| && ModelMap(s[..k], freq, priority).Failure?
    ensures ModelMap(s, freq, priority) == Failure(ModelMap(s[..k], freq, priority).error)
  {
    if k < |s| {
      assert s[..|s| - 1][..k] == s[..k];
      ModelMapPrefixFails(s[..|s| - 1], freq, priority, k);
    } else {
      assert s[..k] == s;
    }
  }

  /** Every class is a key at most once. */
  lemma {:induction false} ModelMapUniqueKeys(s: seq<Entry>, freq: Value, priority: string)
    requires ModelMap(s, freq, priority).Success?
    ensures UniqueKeys(ModelMap(s, freq, priority).value)
  {
    if s != [] {
      var init := s[..|s| - 1];
      ModelMapUniqueKeys(init, freq, priority);
      var one := ModelEntry(s[|s| - 1].val, freq, priority);
      if one.value.Some? {
        PutSemantics(ModelMap(init, freq, priority).value, StringKey(one.value.value.modelClass), ModelOptionsValue(one.value.value));
      }
    }
  }

  /**
   * The last kept entry of a class wins: its options are what the map holds
   * for the class.
   */
  lemma {:induction false} ModelMapLastWins(s: seq<Entry>, freq: Value, priority: string, i: nat, m: ModelOptions)
    requires ModelMap(s, freq, priority).Success?
    requires i < |s| && ModelEntry(s[i].val, freq, priority) == Success(Some(m))
    requires forall j :: i < j < |s| && ModelEntry(s[j].val, freq, priority).Success? &&
                         ModelEntry(s[j].val, freq, priority).value.Some? ==>
                         ModelEntry(s[j].val, freq, priority).value.value.modelClass != m.modelClass
    ensures Entry(StringKey(m.modelClass), ModelOptionsValue(m)) in ModelMap(s, freq, priority).value
  {
    var init := s[..|s| - 1];
    var last := ModelEntry(s[|s| - 1].val, freq, priority);
    assert ModelMap(init, freq, priority).Success?;
    ModelMapUniqueKeys(init, freq, priority);
    var before := ModelMap(init, freq, priority).value;
    if i == |s| - 1 {
      PutSemantics(before, StringKey(m.modelClass), ModelOptionsValue(m));
    } else {
      assert init[i] == s[i];
      forall j | i < j < |init| && ModelEntry(init[j].val, freq, priority).Success? &&
                 ModelEntry(init[j].val, freq, priority).value.Some?
        ensures ModelEntry(init[j].val, freq, priority).value.value.modelClass != m.modelClass
      {
        assert init[j] == s[j];
      }
      ModelMapLastWins(init, freq, priority, i, m);
      if last.value.Some? {
        var k := StringKey(last.value.value.modelClass);
        if k == StringKey(m.modelClass) {
          StringKeyInjective(last.value.value.modelClass, m.modelClass);
        }
        PutSemantics(before, k, ModelOptionsValue(last.value.value));
      }
    }
  }

  /** Nothing is invented: every entry of the map is a kept stored entry under its class. */
  lemma {:induction false} ModelMapFrom(s: seq<Entry>, freq: Value, priority: string, x: Entry)
    requires ModelMap(s, freq, priority).Success? && x in ModelMap(s, freq, priority).value
    ensures exists i: int, m: ModelOptions :: 0 <= i < |s| && ModelEntry(s[i].val, freq, priority) == Success(Some(m)) &&
                           x == Entry(StringKey(m.modelClass), ModelOptionsValue(m))
  {
    var init := s[..|s| - 1];
    var last := ModelEntry(s[|s| - 1].val, freq, priority);
    var before := ModelMap(init, freq, priority).value;
    if last.value.Some? && x == Entry(StringKey(last.value.value.modelClass), ModelOptionsValue(last.value.value)) {
      assert ModelEntry(s[|s| - 1].val, freq, priority) == Success(Some(last.value.value));
    } else {
      assert x in before by {
        if last.value.Some? {
          ModelMapUniqueKeys(init, freq, priority);
          PutSemantics(before, StringKey(last.value.value.modelClass), ModelOptionsValue(last.value.value));
        }
      }
      ModelMapFrom(init, freq, priority, x);
      var i: int, m: ModelOptions :| 0 <= i < |init| && ModelEntry(init[i].val, freq, priority) == Success(Some(m)) &&
                  x == Entry(StringKey(m.modelClass), ModelOptionsValue(m));
      assert s[i] == init[i];
    }
  }

  /**
   * `resolveModels`: a stored list that is not an array gives the configured
   * models (else none); a stored array gives its kept entries keyed by class.
   */
  function ResolveModels(row: SettingRow, config: Value): (r: Result<Value>)
    ensures !row.models.Arr? ==> r == Success(Coalesce(Get(config, "models"), Arr([])))
    ensures row.models.Arr? && DefaultPriority(row).Failure? ==> r.Failure?
    ensures row.models.Arr? && DefaultPriority(row).Success? ==>
      var m := ModelMap(row.models.entries, DefaultFrequency(row), DefaultPriority(row).value);
      (r.Failure? <==> m.Failure?) && (r.Success? ==> r.value == Arr(m.value) && UniqueKeys(m.value))
  {
    if !row.models.Arr? then Success(Coalesce(Get(config, "models"), Arr([])))
    else
      var priority :- DefaultPriority(row);
      var byClass :- ModelMap(row.models.entries, DefaultFrequency(row), priority);
      ModelMapUniqueKeys(row.models.entries, DefaultFrequency(row), priority);
      Success(Arr(byClass))
  }

  /** The loop of `resolveModels` over the stored entries. */
  method CollectModels(s: seq<Entry>, freq: Value, priority: string) returns (r: Result<seq<Entry>>)
    ensures r == ModelMap(s, freq, priority)
  {
    var out: seq<Entry> := [];
    for i := 0 to |s|
      invariant ModelMap(s[..i], freq, priority) == Success(out)
    {
      ModelMapStep(s, freq, priority, i);
      var one := ModelEntry(s[i].val, freq, priority);
      if one.Failure? {
        ModelMapPrefixFails(s, freq, priority, i + 1);
        return Failure(one.error);
      }
      if one.value.Some? {
        out := Put(out, StringKey(one.value.value.modelClass), ModelOptionsValue(one.value.value));
      }
    }
    assert s[..|s|] == s;
    return Success(out);
  }

  /**
   * The output of `resolve` with a stored row: the merged output, whose file
   * path in file mode is replaced by the storage path (so the file path the
   * merge chose there is never seen).
   */
  function StoredOutput(row: SettingRow, config: Value, columns: set<string>, storage: Storage)
    : (r: Result<OutputSettings>)
    ensures var merged := ResolveOutputWithSettings(row, config, StorageFullPath(row, storage), columns);
      (r.Failure? <==> merged.Failure?) &&
      (r.Success? ==> r.value.(filePath := "") == merged.value.(filePath := "")) &&
      (r.Success? && r.value.mode == DiskMode ==> r.value.filePath == merged.value.filePath)
    ensures r.Success? && r.value.mode == FileMode ==> r.value.filePath == StorageFullPath(row, storage)
  {
    var path := StorageFullPath(row, storage);
    var output :- ResolveOutputWithSettings(row, config, path, columns);
    Success(if output.mode == FileMode then output.(filePath := path) else output)
  }

  /** The chunk size of `resolve` with a stored row: the stored one when at least 100, else the configured one, default 1000. */
  function StoredChunkSize(row: SettingRow, config: Value): (r: Value)
    ensures row.chunkSize.Some? && row.chunkSize.value >= 100 ==> r == Int(row.chunkSize.value)
    ensures (row.chunkSize.None? || row.chunkSize.value < 100) && !Isset(config, "chunk_size") ==> r == Int(1000)
    ensures (row.chunkSize.None? || row.chunkSize.value < 100) && Isset(config, "chunk_size") ==>
      r == Get(config, "chunk_size").value
  {
    if row.chunkSize.Some? && row.chunkSize.value >= 100 then Int(row.chunkSize.value)
    else Coalesce(Get(config, "chunk_size"), Int(1000))
  }

  /**
   * The effective configuration from a stored row: the stored output, the
   * stored static URLs and models in generator form, the stored chunk size,
   * the URLs per file clamped to at least 1, the stored index flag and the
   * layered crawl settings.
   */
  function ResolveWithSettings(row: SettingRow, config: Value, columns: set<string>, storage: Storage)
    : (r: Result<EffectiveConfig>)
    ensures !config.Arr? ==> r == Failure(ConfigTypeError("resolveOutputWithSettings", "2"))
    ensures r.Success? ==>
      r.value.path == ResolvedPath(r.value.output) && r.value.maxUrlsPerFile >= 1 &&
      r.value.enableIndexSitemap == row.enableIndexSitemap && r.value.chunkSize == StoredChunkSize(row, config) &&
      Success(r.value.output) == StoredOutput(row, config, columns, storage) &&
      Success(r.value.staticUrls) == ResolveStaticUrls(row, config) &&
      Success(r.value.models) == ResolveModels(row, config) &&
      Success(r.value.crawl) == ResolveCrawlWithSettings(row, config, columns)
  {
    if !config.Arr? then Failure(ConfigTypeError("resolveOutputWithSettings", "2"))
    else
      var output :- StoredOutput(row, config, columns, storage);
      var staticUrls :- ResolveStaticUrls(row, config);
      var models :- ResolveModels(row, config);
      var maxPerFile :- IntOr(config, "max_urls_per_file", 50000);
      var crawl :- ResolveCrawlWithSettings(row, config, columns);
      Success(EffectiveConfig(
        ResolvedPath(output),
        output,
        staticUrls,
        models,
        StoredChunkSize(row, config),
        AtLeastOne(maxPerFile, 50000),
        Coalesce(Get(config, "base_url"), Null),
        Coalesce(Get(config, "news"), Arr([])),
        Coalesce(Get(config, "ping_search_engines"), Arr([])),
        row.enableIndexSitemap,
        crawl))
  }

  /**
   * `resolve`: without a settings table (`settings` absent), or when reading
   * the settings throws, the configuration file alone; otherwise the stored
   * row layered over it. `columns` are the settings table's columns.
   */
  function Resolve(config: Value, settings: Option<Result<SettingRow>>, columns: set<string>, storage: Storage)
    : (r: Result<EffectiveConfig>)
    ensures settings.None? || settings.value.Failure? ==> r == NormalizeConfig(config, storage.publicPath)
    ensures settings.Some? && settings.value.Success? ==>
      r == ResolveWithSettings(settings.value.value, config, columns, storage)
    ensures r.Success? ==>
      r.value.path == ResolvedPath(r.value.output) && r.value.maxUrlsPerFile >= 1
  {
    if settings.None? || settings.value.Failure? then NormalizeConfig(config, storage.publicPath)
    else ResolveWithSettings(settings.value.value, config, columns, storage)
  }

  /**
   * Reading the settings from a table holding `rows`, then resolving: what
   * `resolve` computes when `getSettings` does not throw beyond the model.
   */
  method ResolveFromTable(config: Value, tableExists: bool, table: SettingsTable, columns: set<string>, storage: Storage)
    returns (r: Result<EffectiveConfig>)
    modifies table
    ensures !tableExists ==> table.rows == old(table.rows)
    ensures r == Resolve(config, if tableExists then Some(ReadSettings(old(table.rows), config)) else None, columns, storage)
  {
    if !tableExists {
      return NormalizeConfig(config, storage.publicPath);
    }
    var settings := table.GetSettings(config);
    return Resolve(config, Some(settings), columns, storage);
  }
}

=== FILE: settings_model.dfy ===
/**
 * The stored settings (`SitemapSetting`): one row of the settings table,
 * where the sitemap file goes, the defaults a new row starts from, and the
 * singleton rule that every created row carries `singleton = 1`.
 */
module SettingsModel {
  import opened Prelude
  import opened PhpValues

  /**
   * One row of the settings table as the model's casts give it: the array
   * columns and the columns passed through untyped as PHP values, string,
   * boolean and integer columns as optional values (absent for null).
   */
  datatype SettingRow = SettingRow(
    staticUrls: Value,
    models: Value,
    defaultChangeFrequency: Value,
    defaultPriority: Value,
    storagePath: Option<string>,
    filename: Option<string>,
    chunkSize: Option<int>,
    enableIndexSitemap: Option<bool>,
    outputMode: Option<string>,
    filePath: Option<string>,
    disk: Option<string>,
    diskPath: Option<string>,
    visibility: Option<string>,
    crawlEnabled: Option<bool>,
    crawlUrl: Option<string>,
    concurrency: Option<int>,
    maxCount: Option<int>,
    maximumDepth: Option<int>,
    excludePatterns: Value,
    crawlProfile: Option<string>,
    shouldCrawl: Option<string>,
    hasCrawled: Option<string>,
    executeJavascript: Option<bool>,
    chromeBinaryPath: Option<string>,
    nodeBinaryPath: Option<string>,
    singleton: Value)

  /**
   * The framework's file locations: `public_path($file)`, and for each
   * configured storage disk the full path of a file on it. A disk name that
   * is not configured makes `Storage::disk` throw.
   */
  datatype Storage = Storage(publicPath: string -> string, disks: map<string, string -> string>)

  /** A stored string that is neither null nor ''. */
  predicate Present(o: Option<string>) {
    o.Some? && o.value != ""
  }

  /**
   * `getStorageFullPath`: the stored file path in file mode when there is
   * one; else the file name (default `sitemap.xml`) under the public
   * directory when the storage path is `public` (the default) or '', and
   * under the named disk otherwise, falling back to the public directory
   * when that disk cannot be had.
   */
  function StorageFullPath(row: SettingRow, storage: Storage): (r: string)
    ensures row.outputMode == Some("file") && Present(row.filePath) ==> r == row.filePath.value
    ensures var file := row.filename.GetOr("sitemap.xml");
      !(row.outputMode == Some("file") && Present(row.filePath)) &&
      (row.storagePath.None? || row.storagePath == Some("public") || row.storagePath == Some("")) ==>
        r == storage.publicPath(file)
    ensures var file := row.filename.GetOr("sitemap.xml");
      !(row.outputMode == Some("file") && Present(row.filePath)) &&
      row.storagePath.Some? && row.storagePath.value != "public" && row.storagePath.value != "" ==>
        r == (if row.storagePath.value in storage.disks then storage.disks[row.storagePath.value](file)
              else storage.publicPath(file))
  {
    if row.outputMode == Some("file") && Present(row.filePath) then row.filePath.value
    else
      var path := row.storagePath.GetOr("public");
      var file := row.filename.GetOr("sitemap.xml");
      if path == "public" || path == "" then storage.publicPath(file)
      else if path in storage.disks then storage.disks[path](file)
      else storage.publicPath(file)
  }

  /** The default static URL list: the home page, priority 1.0, changed daily. */
  const DefaultStaticUrls: Value :=
    Arr([Entry(IntKey(0), Arr([Entry(StrKey("url"), Str("/")),
                               Entry(StrKey("priority"), Float("1")),
                               Entry(StrKey("changefreq"), Str("daily"))]))])

  /** The stored form of one configured model `class => options`, enabled. */
  function DefaultModelEntry(e: Entry): Value {
    Arr([Entry(StrKey("model_class"), KeyValue(e.key)),
         Entry(StrKey("url_resolver_method"), Coalesce(Get(e.val, "url_resolver_method"), Str("getSitemapUrl"))),
         Entry(StrKey("changefreq"), Coalesce(Get(e.val, "changefreq"), Null)),
         Entry(StrKey("priority"), Coalesce(Get(e.val, "priority"), Null)),
         Entry(StrKey("enabled"), Bool(true))])
  }

  /**
   * A stored model entry names the configured class, is enabled, and takes
   * the resolver method (default `getSitemapUrl`), change frequency and
   * priority from the configured options.
   */
  lemma DefaultModelEntryFields(e: Entry)
    ensures var r := DefaultModelEntry(e);
      Get(r, "model_class") == Some(KeyValue(e.key)) && Get(r, "enabled") == Some(Bool(true)) &&
      Get(r, "url_resolver_method") == Some(Coalesce(Get(e.val, "url_resolver_method"), Str("getSitemapUrl"))) &&
      Get(r, "changefreq") == Some(Coalesce(Get(e.val, "changefreq"), Null)) &&
      Get(r, "priority") == Some(Coalesce(Get(e.val, "priority"), Null))
  {
    var es := DefaultModelEntry(e).entries;
    assert Find(es, "model_class") == Some(KeyValue(e.key));
    assert Find(es[1..], "url_resolver_method") == Some(es[1].val);
    assert Find(es[2..], "changefreq") == Some(es[2].val);
    assert Find(es[3..], "priority") == Some(es[3].val);
    assert Find(es[4..], "enabled") == Some(Bool(true));
    assert Find(es, "url_resolver_method") == Find(es[1..], "url_resolver_method");
    assert Find(es, "changefreq") == Find(es[1..], "changefreq");
    assert Find(es[1..], "changefreq") == Find(es[2..], "changefreq");
    assert Find(es, "priority") == Find(es[1..], "priority");
    assert Find(es[1..], "priority") == Find(es[2..], "priority");
    assert Find(es[2..], "priority") == Find(es[3..], "priority");
    assert Find(es, "enabled") == Find(es[1..], "enabled");
    assert Find(es[1..], "enabled") == Find(es[2..], "enabled");
    assert Find(es[2..], "enabled") == Find(es[3..], "enabled");
    assert Find(es[3..], "enabled") == Find(es[4..], "enabled");
  }

  /** The stored list of models: one entry per configured model, appended in order. */
  function DefaultModelList(models: seq<Entry>): (r: seq<Entry>)
    ensures |r| == |models|
  {
    if models == [] then []
    else
      var before := DefaultModelList(models[..|models| - 1]);
      before + [Entry(IntKey(|before|), DefaultModelEntry(models[|models| - 1]))]
  }

  /** The list keeps the configured order, entry `i` stored under key `i`. */
  lemma {:induction false} DefaultModelListIndex(models: seq<Entry>, i: nat)
    requires i < |models|
    ensures DefaultModelList(models)[i] == Entry(IntKey(i), DefaultModelEntry(models[i]))
  {
    var init := models[..|models| - 1];
    if i < |init| {
      DefaultModelListIndex(init, i);
    }
  }

  /** `$config['models'] ?? []` looped over: null gives none, a scalar throws. */
  function DefaultModels(models: Value): (r: Result<seq<Entry>>)
    ensures models == Null ==> r == Success([])
    ensures !models.Arr? && models != Null ==> r == Failure(ForeachError)
    ensures models.Arr? ==> r.Success? && |r.value| == |models.entries|
  {
    if models == Null then Success([])
    else if !models.Arr? then Failure(ForeachError)
    else Success(DefaultModelList(models.entries))
  }

  /** The loop of `getDefaultAttributes` over the configured models. */
  method CollectDefaultModels(models: Value) returns (r: Result<seq<Entry>>)
    ensures r == DefaultModels(models)
  {
    if models == Null {
      return Success([]);
    }
    if !models.Arr? {
      return Failure(ForeachError);
    }
    var list: seq<Entry> := [];
    for i := 0 to |models.entries|
      invariant list == DefaultModelList(models.entries[..i])
    {
      assert models.entries[..i + 1][..i] == models.entries[..i];
      list := list + [Entry(IntKey(|list|), DefaultModelEntry(models.entries[i]))];
    }
    assert models.entries[..|models.entries|] == models.entries;
    return Success(list);
  }

  /**
   * `getDefaultAttributes`: the configured static URLs (else the default
   * list), the configured models as a stored list, the default change
   * frequency and priority, storage in the public directory as
   * `sitemap.xml`, the configured chunk size (default 1000) and no index.
   */
  function DefaultAttributes(config: Value): (r: Result<SettingRow>)
    ensures r.Success? ==>
      r.value.staticUrls == Coalesce(Get(config, "static_urls"), DefaultStaticUrls) &&
      r.value.storagePath == Some("public") && r.value.filename == Some("sitemap.xml") &&
      r.value.enableIndexSitemap == Some(false)
    ensures r.Success? && (Get(config, "static_urls").None? || Get(config, "static_urls") == Some(Null)) ==>
      r.value.staticUrls == DefaultStaticUrls
    ensures r.Success? ==> r.value.models.Arr? && Success(r.value.models.entries) == DefaultModels(Coalesce(Get(config, "models"), Null))
    ensures r.Success? ==> r.value.chunkSize.Some? && Success(r.value.chunkSize.value) == ToInt(Coalesce(Get(config, "chunk_size"), Int(1000)))
    ensures r.Success? ==>
      r.value.defaultChangeFrequency == Coalesce(Get(config, "default_change_frequency"), Str("weekly")) &&
      r.value.defaultPriority == Coalesce(Get(config, "default_priority"), Float("0.8"))
    ensures r.Failure? <==>
      DefaultModels(Coalesce(Get(config, "models"), Null)).Failure? ||
      Coalesce(Get(config, "chunk_size"), Int(1000)).DateTime?
  {
    var models :- DefaultModels(Coalesce(Get(config, "models"), Null));
    var chunkSize :- ToInt(Coalesce(Get(config, "chunk_size"), Int(1000)));
    Success(SettingRow(
      Coalesce(Get(config, "static_urls"), DefaultStaticUrls),
      Arr(models),
      Coalesce(Get(config, "default_change_frequency"), Str("weekly")),
      Coalesce(Get(config, "default_priority"), Float("0.8")),
      Some("public"), Some("sitemap.xml"), Some(chunkSize), Some(false),
      None, None, None, None, None,
      None, None, None, None, None, Null, None, None, None, None, None, None,
      Null))
  }

  /** The query `where('singleton', 1)`. */
  predicate IsSingleton(row: SettingRow) {
    ToInt(row.singleton) == Success(1)
  }

  /** A settings model instance while it is being saved for the first time. */
  class SettingRecord {
    var row: SettingRow

    constructor (row: SettingRow)
      ensures this.row == row
    {
      this.row := row;
    }

    /**
     * The `creating` hook: a `singleton` attribute whose integer value is not
     * 1 is set to 1. Casting a date object to int throws.
     */
    method Creating() returns (failure: Option<string>)
      modifies this
      ensures failure.Some? <==> old(row).singleton.DateTime?
      ensures failure.None? ==> IsSingleton(row) && row == old(row).(singleton := row.singleton)
      ensures IsSingleton(old(row)) || failure.Some? ==> row == old(row)
    {
      var current := ToInt(row.singleton);
      if current.Failure? {
        return Some(current.error);
      }
      if current.value != 1 {
        row := row.(singleton := Int(1));
      }
      return None;
    }
  }

  /** The position of the first singleton row, if there is one. */
  function FirstSingleton(rows: seq<SettingRow>): (r: Option<nat>)
    ensures r.Some? ==>
      r.value < |rows| && IsSingleton(rows[r.value]) &&
      forall j :: 0 <= j < r.value ==> !IsSingleton(rows[j])
    ensures r.None? ==> forall j :: 0 <= j < |rows| ==> !IsSingleton(rows[j])
  {
    if rows == [] then None
    else if IsSingleton(rows[0]) then Some(0)
    else
      var r := FirstSingleton(rows[1..]);
      if r.Some? then Some(r.value + 1) else None
  }

  /**
   * What `getSettings` hands back for a table holding `rows`: the first
   * singleton row, else the default attributes with `singleton = 1`, or the
   * exception building them raises.
   */
  function ReadSettings(rows: seq<SettingRow>, config: Value): (r: Result<SettingRow>)
    ensures r.Success? ==> IsSingleton(r.value)
    ensures FirstSingleton(rows).None? ==> (r.Failure? <==> DefaultAttributes(config).Failure?)
  {
    var found := FirstSingleton(rows);
    if found.Some? then Success(rows[found.value])
    else
      var defaults :- DefaultAttributes(config);
      Success(defaults.(singleton := Int(1)))
  }

  /** The settings table. */
  class SettingsTable {
    var rows: seq<SettingRow>

    constructor (rows: seq<SettingRow>)
      ensures this.rows == rows
    {
      this.rows := rows;
    }

    /**
     * `create`: the `creating` hook runs on the new model, then the row is
     * inserted; an exception in the hook inserts nothing.
     */
    method Create(attributes: SettingRow) returns (r: Result<SettingRow>)
      modifies this
      ensures r.Failure? <==> attributes.singleton.DateTime?
      ensures r.Failure? ==> rows == old(rows)
      ensures IsSingleton(attributes) ==> r == Success(attributes)
      ensures r.Success? ==>
        IsSingleton(r.value) && r.value == attributes.(singleton := r.value.singleton) &&
        rows == old(rows) + [r.value]
    {
      var model := new SettingRecord(attributes);
      var failure := model.Creating();
      if failure.Some? {
        return Failure(failure.value);
      }
      rows := rows + [model.row];
      return Success(model.row);
    }

    /**
     * `getSettings`: the first singleton row, else a new row of the default
     * attributes with `singleton = 1`. So at most one row is ever created:
     * once a call succeeds there is a singleton row, and a call that finds
     * one changes nothing.
     */
    method GetSettings(config: Value) returns (r: Result<SettingRow>)
      modifies this
      ensures FirstSingleton(old(rows)).Some? ==>
        r == Success(old(rows)[FirstSingleton(old(rows)).value]) && rows == old(rows)
      ensures FirstSingleton(old(rows)).None? && DefaultAttributes(config).Failure? ==>
        r == Failure(DefaultAttributes(config).error) && rows == old(rows)
      ensures FirstSingleton(old(rows)).None? && DefaultAttributes(config).Success? ==>
        r == Success(DefaultAttributes(config).value.(singleton := Int(1))) && rows == old(rows) + [r.value]
      ensures r.Success? ==> IsSingleton(r.value) && FirstSingleton(rows).Some?
      ensures r == ReadSettings(old(rows), config)
    {
      var found := FirstSingleton(rows);
      if found.Some? {
        return Success(rows[found.value]);
      }
      var defaults := DefaultAttributes(config);
      if defaults.Failure? {
        return Failure(defaults.error);
      }
      r := Create(defaults.value.(singleton := Int(1)));
      assert old(rows) + [r.value] == rows;
      SingletonAppended(old(rows), r.value);
    }
  }

  /** A singleton row appended after rows without one is the first singleton. */
  lemma {:induction false} SingletonAppended(rows: seq<SettingRow>, row: SettingRow)
    requires FirstSingleton(rows).None? && IsSingleton(row)
    ensures FirstSingleton(rows + [row]) == Some(|rows|)
  {
    if rows != [] {
      assert !IsSingleton(rows[0]);
      assert (rows + [row])[1..] == rows[1..] + [row];
      SingletonAppended(rows[1..], row);
    }
  }
}

=== FILE: tags.dfy ===
/**
 * The `<url>` entries of a sitemap and how the generator builds them from
 * static entries and from model records: location, priority, change
 * frequency, last modification date, alternates, images and videos.
 */
module Tags {
  import opened Prelude
  import opened PhpValues
  import opened Urls

  datatype Alternate = Alternate(url: string, locale: string)

  datatype Image = Image(url: string, caption: string)

  /**
   * A video entry handed to the sitemap library. Its title and description
   * are strings, as the library's parameters declare; the player location
   * is passed on as the record gave it.
   */
  datatype Video = Video(
    thumbnailLoc: string,
    title: string,
    description: string,
    contentLoc: Option<string>,
    playerLoc: Option<Value>,
    options: seq<Entry>,
    allow: Value,
    deny: Value,
    tags: Value)

  datatype News = News(publicationName: string, publicationLanguage: string, title: string, publicationDate: int)

  /**
   * One `<url>` entry. An absent priority or change frequency means the
   * library's default; a priority is a float's spelling.
   */
  datatype UrlTag = UrlTag(
    loc: string,
    priority: Option<string>,
    changefreq: Option<string>,
    lastmod: Option<int>,
    alternates: seq<Alternate>,
    images: seq<Image>,
    videos: seq<Video>,
    news: Option<News>)

  /** `Url::create($loc)`: a tag with nothing but its location. */
  function NewTag(loc: string): (t: UrlTag)
    ensures t.loc == loc && t.alternates == [] && t.images == [] && t.videos == []
  {
    UrlTag(loc, None, None, None, [], [], [], None)
  }

  /** What a call into application code does: return a value, or throw. */
  datatype Call<T> = Returns(value: T) | Throws(message: string)

  function Outcome<T>(c: Call<T>): (r: Result<T>)
    ensures r.Success? <==> c.Returns?
  {
    match c
    case Returns(v) => Success(v)
    case Throws(m) => Failure(m)
  }

  /** One element a `Sitemapable` record hands back: a tag, a string, or anything else. */
  datatype TagItem = UrlItem(tag: UrlTag) | StrItem(s: string) | OtherItem

  /** What `toSitemapTag()` returns: a single element, or an array or other iterable of them. */
  datatype TagReturn = SingleTag(item: TagItem) | IterableTags(items: seq<TagItem>)

  /**
   * A model record as the generator sees it: whether it implements
   * `Sitemapable` (and what `toSitemapTag()` does), the methods it has
   * (`method_exists`) with what each call does, its attributes, and the
   * URL each named route gives for it (a missing name makes `route()` throw).
   */
  datatype Record = Record(
    sitemapable: Option<Call<TagReturn>>,
    methods: map<string, Call<Value>>,
    attributes: map<string, Value>,
    routes: map<string, string>)

  /** `$record->name`: the attribute, or null. */
  function Attribute(rec: Record, name: string): Value {
    if name in rec.attributes then rec.attributes[name] else Null
  }

  /** The message of the TypeError raised when a value reaches a parameter declared `array`. */
  function ArrayParameterError(callee: string): string {
    callee + "(): Argument #2 ($options) must be of type array"
  }

  /** The message of the TypeError raised when `normalizeUrl` receives a non-string. */
  const UrlParameterError := "normalizeUrl(): Argument #1 ($url) must be of type string"

  /**
   * `isset($options['priority'])` sets the priority to the value cast to
   * float; a string `changefreq` sets the change frequency; nothing else
   * changes.
   */
  function ApplyPriorityAndChangefreq(tag: UrlTag, options: Value): (r: Result<UrlTag>)
    ensures r.Failure? <==> Isset(options, "priority") && Get(options, "priority").value.DateTime?
    ensures r.Success? ==> r.value == tag.(priority := r.value.priority, changefreq := r.value.changefreq)
    ensures r.Success? ==> (r.value.priority != tag.priority ==> Isset(options, "priority"))
    ensures r.Success? && Isset(options, "priority") ==>
      r.value.priority == Some(ToFloat(Get(options, "priority").value).value)
    ensures r.Success? && Get(options, "changefreq").Some? && Get(options, "changefreq").value.Str? ==>
      r.value.changefreq == Some(Get(options, "changefreq").value.s)
    ensures r.Success? && !(Get(options, "changefreq").Some? && Get(options, "changefreq").value.Str?) ==>
      r.value.changefreq == tag.changefreq
  {
    var withPriority :-
      if Isset(options, "priority") then
        var p :- ToFloat(Get(options, "priority").value);
        Success(tag.(priority := Some(p)))
      else Success(tag);
    var cf := Get(options, "changefreq");
    if cf.Some? && cf.value.Str? then Success(withPriority.(changefreq := Some(cf.value.s)))
    else Success(withPriority)
  }

  /** A static entry's `lastmod`, when it is a date. */
  function StaticLastmod(entry: Value): (r: Option<int>)
    ensures r.Some? <==> Get(entry, "lastmod").Some? && Get(entry, "lastmod").value.DateTime?
  {
    var d := Coalesce(Get(entry, "lastmod"), Null);
    if d.DateTime? then Some(d.t) else None
  }

  /**
   * The tag of one static entry: its `url` made absolute, then priority,
   * change frequency and last modification date from the entry. A non-string
   * `url` or a non-array entry violates the declared parameter types.
   */
  function StaticTag(entry: Value, base: Result<string>): (r: Result<UrlTag>)
    ensures r.Success? ==> entry.Arr?
    ensures r.Success? ==> var url := Coalesce(Get(entry, "url"), Str(""));
      url.Str? && NormalizeUrl(base, url.s) == Success(r.value.loc)
    ensures r.Success? ==> r.value.alternates == [] && r.value.images == [] && r.value.videos == []
    ensures r.Success? ==> r.value.lastmod == StaticLastmod(entry)
    ensures r.Success? ==> var t := ApplyPriorityAndChangefreq(NewTag(r.value.loc), entry);
      t.Success? && r.value.priority == t.value.priority && r.value.changefreq == t.value.changefreq
    ensures r.Failure? <==>
      var url := Coalesce(Get(entry, "url"), Str(""));
      !url.Str? || NormalizeUrl(base, url.s).Failure? || !entry.Arr? ||
      ApplyPriorityAndChangefreq(NewTag(NormalizeUrl(base, url.s).value), entry).Failure?
  {
    var url := Coalesce(Get(entry, "url"), Str(""));
    if !url.Str? then Failure(UrlParameterError)
    else
      var loc :- NormalizeUrl(base, url.s);
      if !entry.Arr? then Failure(ArrayParameterError("applyPriorityAndChangefreq"))
      else
        var tag :- ApplyPriorityAndChangefreq(NewTag(loc), entry);
        var d := StaticLastmod(entry);
        Success(if d.Some? then tag.(lastmod := d) else tag)
  }

  /**
   * A record's last modification date: from `getSitemapLastModified()` when
   * the record has it (a non-date result sets nothing), else its
   * `updated_at` attribute when that is a date.
   */
  function ModelLastmod(rec: Record): (r: Result<Option<int>>)
    ensures "getSitemapLastModified" !in rec.methods ==> r.Success?
    ensures r.Success? && r.value.Some? ==>
      ("getSitemapLastModified" in rec.methods && rec.methods["getSitemapLastModified"].Returns? &&
       rec.methods["getSitemapLastModified"].value.DateTime? && rec.methods["getSitemapLastModified"].value.t == r.value.value) ||
      ("getSitemapLastModified" !in rec.methods && Attribute(rec, "updated_at").DateTime? && Attribute(rec, "updated_at").t == r.value.value)
    ensures "getSitemapLastModified" in rec.methods ==>
      match rec.methods["getSitemapLastModified"]
      case Throws(m) => r == Failure(m)
      case Returns(v) => r == Success(if v.DateTime? then Some(v.t) else None)
    ensures "getSitemapLastModified" !in rec.methods ==>
      r == Success(if Attribute(rec, "updated_at").DateTime? then Some(Attribute(rec, "updated_at").t) else None)
  {
    if "getSitemapLastModified" in rec.methods then
      var d :- Outcome(rec.methods["getSitemapLastModified"]);
      Success(if d.DateTime? then Some(d.t) else None)
    else
      var d := Attribute(rec, "updated_at");
      Success(if d.DateTime? then Some(d.t) else None)
  }

  /** Whether an alternates entry is used: its value is a non-empty string. */
  predicate AlternateKept(e: Entry) {
    e.val.Str? && e.val.s != ""
  }

  /** The alternates built from the entries `locale => url`, in order. */
  function AlternatesOf(entries: seq<Entry>, base: Result<string>): (r: Result<seq<Alternate>>)
    ensures base.Success? ==> r.Success?
    ensures r.Success? ==> |r.value| <= |entries|
  {
    if entries == [] then Success([])
    else
      var init :- AlternatesOf(entries[..|entries| - 1], base);
      var e := entries[|entries| - 1];
      if AlternateKept(e) then
        var url :- NormalizeUrl(base, e.val.s);
        Success(init + [Alternate(url, KeyString(e.key))])
      else Success(init)
  }

  /** Every kept alternates entry contributes one alternate, with its key as the locale. */
  lemma {:induction false} AlternatesExactly(entries: seq<Entry>, base: string)
    ensures var r := AlternatesOf(entries, Success(base)).value;
      |r| == |Filter(entries, AlternateKept)| &&
      forall i :: 0 <= i < |r| ==>
        var e := Filter(entries, AlternateKept)[i];
        r[i] == Alternate(NormalizeUrl(Success(base), e.val.s).value, KeyString(e.key))
  {
    if entries != [] {
      AlternatesExactly(entries[..|entries| - 1], base);
    }
  }

  /** The elements of `s` that satisfy `p`, in order. */
  function Filter<T>(s: seq<T>, p: T -> bool): (r: seq<T>)
    ensures |r| <= |s|
    ensures forall i :: 0 <= i < |r| ==> p(r[i])
    ensures forall x :: x in r ==> x in s && p(x)
    ensures forall x :: x in s && p(x) ==> x in r
  {
    if s == [] then []
    else
      var init := Filter(s[..|s| - 1], p);
      assert forall x :: x in s[..|s| - 1] ==> x in s;
      assert forall x :: x in s ==> x in s[..|s| - 1] || x == s[|s| - 1];
      if p(s[|s| - 1]) then init + [s[|s| - 1]] else init
  }

  /** `applyAlternateUrls`: nothing unless the record has `getAlternateUrls()` returning an array. */
  function ApplyAlternateUrls(rec: Record, base: Result<string>): (r: Result<seq<Alternate>>)
    ensures "getAlternateUrls" !in rec.methods ==> r == Success([])
    ensures "getAlternateUrls" in rec.methods && rec.methods["getAlternateUrls"].Returns? && !rec.methods["getAlternateUrls"].value.Arr?
      ==> r == Success([])
    ensures "getAlternateUrls" in rec.methods && rec.methods["getAlternateUrls"].Returns? && base.Success? ==> r.Success?
    ensures "getAlternateUrls" in rec.methods && rec.methods["getAlternateUrls"].Returns? && rec.methods["getAlternateUrls"].value.Arr?
      ==> r == AlternatesOf(rec.methods["getAlternateUrls"].value.entries, base)
    ensures "getAlternateUrls" in rec.methods && rec.methods["getAlternateUrls"].Throws?
      ==> r == Failure(rec.methods["getAlternateUrls"].message)
  {
    if "getAlternateUrls" !in rec.methods then Success([])
    else
      var v :- Outcome(rec.methods["getAlternateUrls"]);
      if v.Arr? then AlternatesOf(v.entries, base) else Success([])
  }

  /** The loop of `applyAlternateUrls`. */
  method CollectAlternates(entries: seq<Entry>, base: Result<string>) returns (r: Result<seq<Alternate>>)
    ensures r == AlternatesOf(entries, base)
  {
    var acc: seq<Alternate> := [];
    var i := 0;
    while i < |entries|
      invariant 0 <= i <= |entries|
      invariant AlternatesOf(entries[..i], base) == Success(acc)
    {
      assert entries[..i + 1][..i] == entries[..i];
      var e := entries[i];
      if AlternateKept(e) {
        var url := NormalizeUrl(base, e.val.s);
        if url.Failure? {
          assert AlternatesOf(entries[..i + 1], base) == Failure(url.error);
          AlternatesFailureSticks(entries, base, i + 1);
          return Failure(url.error);
        }
        acc := acc + [Alternate(url.value, KeyString(e.key))];
      }
      i := i + 1;
    }
    assert entries[..i] == entries;
    return Success(acc);
  }

  /** Once a prefix of the entries fails, the whole list fails the same way. */
  lemma {:induction false} AlternatesFailureSticks(entries: seq<Entry>, base: Result<string>, k: nat)
    requires k <= |entries| && AlternatesOf(entries[..k], base).Failure?
    ensures AlternatesOf(entries, base) == AlternatesOf(entries[..k], base)
    decreases |entries| - k
  {
    if k < |entries| {
      assert entries[..k + 1][..k] == entries[..k];
      AlternatesFailureSticks(entries, base, k + 1);
    } else {
      assert entries[..k] == entries;
    }
  }

  /** The URL of an image item, `$item['url'] ?? ''`. */
  function ImageUrl(item: Value): Value {
    Coalesce(Get(item, "url"), Str(""))
  }

  predicate ImageKept(item: Value) {
    ImageUrl(item).Str? && ImageUrl(item).s != ""
  }

  /** The caption of an image item, `(string) ($item['caption'] ?? '')`. */
  function ImageCaption(item: Value): (r: Result<string>)
    ensures r.Failure? <==> NoStringForm(Coalesce(Get(item, "caption"), Str("")))
  {
    ToStr(Coalesce(Get(item, "caption"), Str("")))
  }

  /** The images built from the items, in order; the caption cast can throw. */
  function ImagesOf(items: seq<Entry>, base: Result<string>): (r: Result<seq<Image>>)
    ensures r.Success? ==> |r.value| <= |items|
  {
    if items == [] then Success([])
    else
      var init :- ImagesOf(items[..|items| - 1], base);
      var item := items[|items| - 1].val;
      if ImageKept(item) then
        var caption :- ImageCaption(item);
        var url :- NormalizeUrl(base, ImageUrl(item).s);
        Success(init + [Image(url, caption)])
      else Success(init)
  }

  /**
   * With a usable base URL and captions that cast to strings on every kept
   * item, every item with a non-empty string `url` gives exactly one image,
   * in order, carrying its cast caption.
   */
  lemma {:induction false} ImagesExactly(items: seq<Entry>, base: string)
    requires forall i :: 0 <= i < |items| && ImageKept(items[i].val) ==> ImageCaption(items[i].val).Success?
    ensures var r := ImagesOf(items, Success(base));
      r.Success? && |r.value| == |Filter(items, (e: Entry) => ImageKept(e.val))| &&
      forall i :: 0 <= i < |r.value| ==>
        var item := Filter(items, (e: Entry) => ImageKept(e.val))[i].val;
        r.value[i] == Image(NormalizeUrl(Success(base), ImageUrl(item).s).value,
                            ImageCaption(item).value)
  {
    if items != [] {
      ImagesExactly(items[..|items| - 1], base);
    }
  }

  /** A date caption with a string form (a Carbon date) is written as that string. */
  lemma DateCaptionImage(base: string, url: string, t: int, text: string)
    requires url != ""
    ensures var item := Arr([Entry(StrKey("url"), Str(url)), Entry(StrKey("caption"), DateTime(t, Some(text)))]);
      ImagesOf([Entry(IntKey(0), item)], Success(base)) == Success([Image(NormalizeUrl(Success(base), url).value, text)])
  {
    var item := Arr([Entry(StrKey("url"), Str(url)), Entry(StrKey("caption"), DateTime(t, Some(text)))]);
    var cap := Entry(StrKey("caption"), DateTime(t, Some(text)));
    assert ImageUrl(item) == Str(url);
    assert "url"[0] != "caption"[0];
    assert item.entries[1..] == [cap];
    assert Find([cap], "caption") == Some(cap.val);
    assert Get(item, "caption") == Some(cap.val);
    assert ImageCaption(item) == Success(text);
    assert ImageKept(item);
    var items := [Entry(IntKey(0), item)];
    assert items[..|items| - 1] == [] && items[|items| - 1].val == item;
    var u := NormalizeUrl(Success(base), url);
    assert ImagesOf(items, Success(base)) == Success([] + [Image(u.value, text)]);
    assert [] + [Image(u.value, text)] == [Image(u.value, text)];
  }

  /** `applySitemapImages`: nothing unless the record has `getSitemapImages()` returning an array. */
  function ApplySitemapImages(rec: Record, base: Result<string>): (r: Result<seq<Image>>)
    ensures "getSitemapImages" !in rec.methods ==> r == Success([])
    ensures "getSitemapImages" in rec.methods && rec.methods["getSitemapImages"].Returns? && !rec.methods["getSitemapImages"].value.Arr?
      ==> r == Success([])
    ensures "getSitemapImages" in rec.methods && rec.methods["getSitemapImages"].Returns? && rec.methods["getSitemapImages"].value.Arr?
      ==> r == ImagesOf(rec.methods["getSitemapImages"].value.entries, base)
    ensures "getSitemapImages" in rec.methods && rec.methods["getSitemapImages"].Throws?
      ==> r == Failure(rec.methods["getSitemapImages"].message)
  {
    if "getSitemapImages" !in rec.methods then Success([])
    else
      var v :- Outcome(rec.methods["getSitemapImages"]);
      if v.Arr? then ImagesOf(v.entries, base) else Success([])
  }

  /** The loop of `applySitemapImages`. */
  method CollectImages(items: seq<Entry>, base: Result<string>) returns (r: Result<seq<Image>>)
    ensures r == ImagesOf(items, base)
  {
    var acc: seq<Image> := [];
    var i := 0;
    while i < |items|
      invariant 0 <= i <= |items|
      invariant ImagesOf(items[..i], base) == Success(acc)
    {
      assert items[..i + 1][..i] == items[..i];
      var item := items[i].val;
      if ImageKept(item) {
        var caption := ImageCaption(item);
        if caption.Failure? {
          ImagesFailureSticks(items, base, i + 1);
          return Failure(caption.error);
        }
        var url := NormalizeUrl(base, ImageUrl(item).s);
        if url.Failure? {
          ImagesFailureSticks(items, base, i + 1);
          return Failure(url.error);
        }
        acc := acc + [Image(url.value, caption.value)];
      }
      i := i + 1;
    }
    assert items[..i] == items;
    return Success(acc);
  }

  lemma {:induction false} ImagesFailureSticks(items: seq<Entry>, base: Result<string>, k: nat)
    requires k <= |items| && ImagesOf(items[..k], base).Failure?
    ensures ImagesOf(items, base) == ImagesOf(items[..k], base)
    decreases |items| - k
  {
    if k < |items| {
      assert items[..k + 1][..k] == items[..k];
      ImagesFailureSticks(items, base, k + 1);
    } else {
      assert items[..k] == items;
    }
  }

  /** `$entry['key'] ?? ''`. */
  function OrEmpty(entry: Value, key: string): Value {
    Coalesce(Get(entry, key), Str(""))
  }

  /** The content location when set to a string. */
  function ContentLoc(entry: Value): (r: Option<string>)
    ensures r.Some? <==> Isset(entry, "content_loc") && Get(entry, "content_loc").value.Str?
  {
    if Isset(entry, "content_loc") && Get(entry, "content_loc").value.Str? then Some(Get(entry, "content_loc").value.s)
    else None
  }

  /** The player location when set to a string or an array. */
  function PlayerLoc(entry: Value): (r: Option<Value>)
    ensures r.Some? <==> Isset(entry, "player_loc") && (Get(entry, "player_loc").value.Str? || Get(entry, "player_loc").value.Arr?)
  {
    var p := Get(entry, "player_loc");
    if Isset(entry, "player_loc") && (p.value.Str? || p.value.Arr?) then Some(p.value) else None
  }

  /**
   * A video entry is used only if it is an array whose thumbnail, title and
   * description are not '' (absent counts as '') and which has a string
   * content location or a string or array player location.
   */
  predicate VideoAccepted(entry: Value) {
    entry.Arr? &&
    OrEmpty(entry, "thumbnail_loc") != Str("") &&
    OrEmpty(entry, "title") != Str("") &&
    OrEmpty(entry, "description") != Str("") &&
    (ContentLoc(entry).Some? || PlayerLoc(entry).Some?)
  }

  /** The optional video keys copied into the video's options, in this order. */
  const OptionalVideoKeys: seq<string> := [
    "duration", "expiration_date", "rating", "view_count", "publication_date",
    "family_friendly", "restriction", "gallery_loc", "price", "requires_subscription",
    "uploader", "live"]

  /** Whether key `k` of the entry is copied: present, and neither null nor ''. */
  predicate OptionKept(entries: seq<Entry>, k: string) {
    Find(entries, k).Some? && Find(entries, k).value != Null && Find(entries, k).value != Str("")
  }

  /** The options taken from `entries` for the keys `keys`, in key order. */
  function OptionsFor(entries: seq<Entry>, keys: seq<string>): (r: seq<Entry>)
    ensures |r| <= |keys|
    ensures forall e :: e in r ==>
      (e.key.StrKey? && e.key.s in keys && OptionKept(entries, e.key.s) && e.val == Find(entries, e.key.s).value)
  {
    if keys == [] then []
    else
      var init := OptionsFor(entries, keys[..|keys| - 1]);
      var k := keys[|keys| - 1];
      assert forall x :: x in keys[..|keys| - 1] ==> x in keys;
      if OptionKept(entries, k) then init + [Entry(StrKey(k), Find(entries, k).value)] else init
  }

  /** `extractVideoOptions`. */
  function VideoOptions(entries: seq<Entry>): seq<Entry> {
    OptionsFor(entries, OptionalVideoKeys)
  }

  /** Distinct keys give options with distinct keys. */
  lemma {:induction false} OptionsForUnique(entries: seq<Entry>, keys: seq<string>)
    requires forall i, j :: 0 <= i < j < |keys| ==> keys[i] != keys[j]
    ensures UniqueKeys(OptionsFor(entries, keys))
  {
    if keys != [] {
      var init := keys[..|keys| - 1];
      OptionsForUnique(entries, init);
      var last := keys[|keys| - 1];
      assert last !in init by {
        assert keys == init + [last];
      }
    }
  }

  /** The options hold key `k` exactly when it is listed and present with a value other than null and ''. */
  lemma {:induction false} OptionsForHas(entries: seq<Entry>, keys: seq<string>, k: string)
    ensures (exists e :: e in OptionsFor(entries, keys) && e.key == StrKey(k))
        <==> k in keys && OptionKept(entries, k)
  {
    if keys != [] {
      var init := keys[..|keys| - 1];
      OptionsForHas(entries, init, k);
      var last := keys[|keys| - 1];
      assert keys == init + [last];
      var r := OptionsFor(entries, keys);
      if OptionKept(entries, last) {
        assert r == OptionsFor(entries, init) + [Entry(StrKey(last), Find(entries, last).value)];
        if k == last {
          assert r[|r| - 1] in r;
        }
      }
    }
  }

  /**
   * The options hold exactly the listed keys that are present with a value
   * other than null and '', each once, with the entry's value.
   */
  lemma OptionsForExactly(entries: seq<Entry>, keys: seq<string>, k: string)
    requires forall i, j :: 0 <= i < j < |keys| ==> keys[i] != keys[j]
    ensures UniqueKeys(OptionsFor(entries, keys))
    ensures (exists e :: e in OptionsFor(entries, keys) && e.key == StrKey(k))
        <==> k in keys && OptionKept(entries, k)
  {
    OptionsForUnique(entries, keys);
    OptionsForHas(entries, keys, k);
  }

  /** The 12 optional keys are distinct, so the options never repeat a key. */
  lemma VideoOptionsExactly(entries: seq<Entry>, k: string)
    ensures UniqueKeys(VideoOptions(entries))
    ensures (exists e :: e in VideoOptions(entries) && e.key == StrKey(k))
        <==> k in OptionalVideoKeys && OptionKept(entries, k)
  {
    OptionsForExactly(entries, OptionalVideoKeys, k);
  }

  /** The loop of `extractVideoOptions`, over the optional keys. */
  method ExtractVideoOptions(entries: seq<Entry>) returns (options: seq<Entry>)
    ensures options == VideoOptions(entries)
  {
    options := CollectOptions(entries, OptionalVideoKeys);
  }

  /** Copies, key by key, each listed key that is present with a value other than null and ''. */
  method CollectOptions(entries: seq<Entry>, keys: seq<string>) returns (options: seq<Entry>)
    ensures options == OptionsFor(entries, keys)
  {
    options := [];
    for i := 0 to |keys|
      invariant options == OptionsFor(entries, keys[..i])
    {
      assert keys[..i + 1][..i] == keys[..i];
      var k := keys[i];
      var found := Find(entries, k);
      if found.Some? && found.value != Null && found.value != Str("") {
        options := options + [Entry(StrKey(k), found.value)];
      }
    }
    assert keys[..|keys|] == keys;
  }

  /** `is_array($entry['key'] ?? null) ? $entry['key'] : []`. */
  function ArrayOrEmpty(entry: Value, key: string): (r: Value)
    ensures r.Arr?
  {
    var v := Coalesce(Get(entry, key), Null);
    if v.Arr? then v else Arr([])
  }

  /**
   * Whether the title and description are strings: under strict typing the
   * library's string parameters refuse anything else with a type error.
   */
  predicate VideoTextTyped(entry: Value) {
    OrEmpty(entry, "title").Str? && OrEmpty(entry, "description").Str?
  }

  /**
   * The video an entry adds. An entry that is not accepted adds none; so does
   * an accepted entry whose title or description is not a string, whose
   * thumbnail cannot be cast or whose URLs cannot be made absolute, because
   * the call that adds it swallows every exception.
   */
  function VideoOf(entry: Value, base: Result<string>): (r: Option<Video>)
    ensures r.Some? ==> VideoAccepted(entry) && VideoTextTyped(entry)
    ensures r.Some? ==> r.value.options == VideoOptions(entry.entries)
    ensures r.Some? ==> r.value.title == OrEmpty(entry, "title").s && r.value.description == OrEmpty(entry, "description").s
    ensures r.Some? ==> r.value.title != "" && r.value.description != ""
    ensures r.Some? ==>
      ToStr(OrEmpty(entry, "thumbnail_loc")).Success? &&
      Success(r.value.thumbnailLoc) == NormalizeUrl(base, ToStr(OrEmpty(entry, "thumbnail_loc")).value)
    ensures r.Some? ==> r.value.playerLoc == PlayerLoc(entry) && (r.value.contentLoc.Some? <==> ContentLoc(entry).Some?)
    ensures VideoAccepted(entry) && VideoTextTyped(entry) && base.Success? && ToStr(OrEmpty(entry, "thumbnail_loc")).Success?
      ==> r.Some?
  {
    if !VideoAccepted(entry) || !VideoTextTyped(entry) then None
    else
      var thumb := ToStr(OrEmpty(entry, "thumbnail_loc"));
      if thumb.Failure? then None
      else
        var thumbUrl := NormalizeUrl(base, thumb.value);
        var content := ContentLoc(entry);
        var contentUrl := if content.Some? then NormalizeUrl(base, content.value) else Success("");
        if thumbUrl.Failure? || contentUrl.Failure? then None
        else
          Some(Video(
            thumbUrl.value,
            OrEmpty(entry, "title").s,
            OrEmpty(entry, "description").s,
            if content.Some? then Some(contentUrl.value) else None,
            PlayerLoc(entry),
            VideoOptions(entry.entries),
            ArrayOrEmpty(entry, "allow"),
            ArrayOrEmpty(entry, "deny"),
            ArrayOrEmpty(entry, "tags")))
  }

  /** The videos added from a list of entries, in order. */
  function VideosOf(entries: seq<Entry>, base: Result<string>): (r: seq<Video>)
    ensures |r| <= |entries|
  {
    if entries == [] then []
    else
      var init := VideosOf(entries[..|entries| - 1], base);
      var v := VideoOf(entries[|entries| - 1].val, base);
      if v.Some? then init + [v.value] else init
  }

  /**
   * Entries that are not accepted, or whose title or description is not a
   * string, add no video; with a usable base URL and castable thumbnails
   * every other one adds one.
   */
  lemma {:induction false} VideosCount(entries: seq<Entry>, base: string)
    requires forall i :: 0 <= i < |entries| ==> ToStr(OrEmpty(entries[i].val, "thumbnail_loc")).Success?
    ensures |VideosOf(entries, Success(base))| == |Filter(entries, (e: Entry) => VideoAccepted(e.val) && VideoTextTyped(e.val))|
  {
    if entries != [] {
      VideosCount(entries[..|entries| - 1], base);
    }
  }

  /** `applySitemapVideos`: nothing unless the record has `getSitemapVideos()` returning an array. */
  function ApplySitemapVideos(rec: Record, base: Result<string>): (r: Result<seq<Video>>)
    ensures "getSitemapVideos" !in rec.methods ==> r == Success([])
    ensures r.Failure? <==> "getSitemapVideos" in rec.methods && rec.methods["getSitemapVideos"].Throws?
    ensures "getSitemapVideos" in rec.methods && rec.methods["getSitemapVideos"].Returns? && !rec.methods["getSitemapVideos"].value.Arr?
      ==> r == Success([])
    ensures "getSitemapVideos" in rec.methods && rec.methods["getSitemapVideos"].Returns? && rec.methods["getSitemapVideos"].value.Arr?
      ==> r == Success(VideosOf(rec.methods["getSitemapVideos"].value.entries, base))
  {
    if "getSitemapVideos" !in rec.methods then Success([])
    else
      var v :- Outcome(rec.methods["getSitemapVideos"]);
      if v.Arr? then Success(VideosOf(v.entries, base)) else Success([])
  }

  /** The loop of `applySitemapVideos`. */
  method CollectVideos(entries: seq<Entry>, base: Result<string>) returns (videos: seq<Video>)
    ensures videos == VideosOf(entries, base)
  {
    videos := [];
    for i := 0 to |entries|
      invariant videos == VideosOf(entries[..i], base)
    {
      assert entries[..i + 1][..i] == entries[..i];
      var v := VideoOf(entries[i].val, base);
      if v.Some? {
        videos := videos + [v.value];
      }
    }
    assert entries[..|entries|] == entries;
  }

  /**
   * The URL of a record: from its URL resolver method (default
   * `getSitemapUrl`) when it has one (a non-string result gives none),
   * else from the named route when one is set. A throwing resolver method
   * propagates; a failing route gives none.
   */
  function ResolveModelUrl(rec: Record, options: Value, base: Result<string>): (r: Result<Option<string>>)
    ensures var m := Coalesce(Get(options, "url_resolver_method"), Str("getSitemapUrl"));
      !(m.Str? && m.s in rec.methods) ==> r.Success?
    ensures var m := Coalesce(Get(options, "url_resolver_method"), Str("getSitemapUrl"));
      m.Str? && m.s in rec.methods && rec.methods[m.s].Returns? && rec.methods[m.s].value.Str? ==>
        r == (var u :- NormalizeUrl(base, rec.methods[m.s].value.s); Success(Some(u)))
    ensures var m := Coalesce(Get(options, "url_resolver_method"), Str("getSitemapUrl"));
      var route := Coalesce(Get(options, "route"), Null);
      !(m.Str? && m.s in rec.methods) && (route == Null || route == Str("")) ==> r == Success(None)
    ensures var m := Coalesce(Get(options, "url_resolver_method"), Str("getSitemapUrl"));
      m.Str? && m.s in rec.methods && rec.methods[m.s].Returns? && !rec.methods[m.s].value.Str? ==> r == Success(None)
    ensures var m := Coalesce(Get(options, "url_resolver_method"), Str("getSitemapUrl"));
      m.Str? && m.s in rec.methods && rec.methods[m.s].Throws? ==> r == Failure(rec.methods[m.s].message)
    ensures var m := Coalesce(Get(options, "url_resolver_method"), Str("getSitemapUrl"));
      var route := Coalesce(Get(options, "route"), Null);
      !(m.Str? && m.s in rec.methods) && route.Str? && route.s != "" && route.s in rec.routes ==>
        r.Success? && (r.value.Some? <==> NormalizeUrl(base, rec.routes[route.s]).Success?) &&
        (r.value.Some? ==> Success(r.value.value) == NormalizeUrl(base, rec.routes[route.s]))
    ensures var m := Coalesce(Get(options, "url_resolver_method"), Str("getSitemapUrl"));
      var route := Coalesce(Get(options, "route"), Null);
      !(m.Str? && m.s in rec.methods) && !(route.Str? && route.s in rec.routes) ==> r == Success(None)
  {
    var m := Coalesce(Get(options, "url_resolver_method"), Str("getSitemapUrl"));
    if m.Str? && m.s in rec.methods then
      var v :- Outcome(rec.methods[m.s]);
      if v.Str? then
        var u :- NormalizeUrl(base, v.s);
        Success(Some(u))
      else Success(None)
    else
      var route := Coalesce(Get(options, "route"), Null);
      if route == Null || route == Str("") then Success(None)
      else if route.Str? && route.s in rec.routes then
        var u := NormalizeUrl(base, rec.routes[route.s]);
        Success(if u.Success? then Some(u.value) else None)
      else Success(None)
  }

  /**
   * `buildModelUrlTag`: no tag when the record has no URL or an empty one;
   * otherwise the URL with priority and change frequency from the model's
   * options and last modification date, alternates, images and videos from
   * the record. Options that are not an array violate the declared type.
   */
  function BuildModelUrlTag(rec: Record, options: Value, base: Result<string>): (r: Result<Option<UrlTag>>)
    ensures !options.Arr? ==> r.Failure?
    ensures r.Success? && r.value.Some? ==>
      ResolveModelUrl(rec, options, base) == Success(Some(r.value.value.loc)) && r.value.value.loc != ""
    ensures ResolveModelUrl(rec, options, base) == Success(None) && options.Arr? ==> r == Success(None)
    ensures ResolveModelUrl(rec, options, base) == Success(Some("")) && options.Arr? ==> r == Success(None)
    ensures r.Success? && r.value.Some? ==>
      Success(r.value.value.alternates) == ApplyAlternateUrls(rec, base) &&
      Success(r.value.value.images) == ApplySitemapImages(rec, base) &&
      Success(r.value.value.videos) == ApplySitemapVideos(rec, base)
    ensures r.Success? && r.value.Some? ==>
      var t := r.value.value;
      var pc := ApplyPriorityAndChangefreq(NewTag(t.loc), options);
      pc.Success? && t.priority == pc.value.priority && t.changefreq == pc.value.changefreq &&
      ModelLastmod(rec) == Success(t.lastmod)
    ensures (options.Arr? && ResolveModelUrl(rec, options, base).Success? &&
             ResolveModelUrl(rec, options, base).value.Some? && ResolveModelUrl(rec, options, base).value.value != "" &&
             ApplyPriorityAndChangefreq(NewTag(ResolveModelUrl(rec, options, base).value.value), options).Success? &&
             ModelLastmod(rec).Success? && ApplyAlternateUrls(rec, base).Success? &&
             ApplySitemapImages(rec, base).Success? && ApplySitemapVideos(rec, base).Success?)
      ==> r.Success? && r.value.Some?
  {
    if !options.Arr? then Failure(ArrayParameterError("buildModelUrlTag"))
    else
      var url :- ResolveModelUrl(rec, options, base);
      if url.None? || url.value == "" then Success(None)
      else
        var tag :- ApplyPriorityAndChangefreq(NewTag(url.value), options);
        var lastmod :- ModelLastmod(rec);
        var alternates :- ApplyAlternateUrls(rec, base);
        var images :- ApplySitemapImages(rec, base);
        var videos :- ApplySitemapVideos(rec, base);
        Success(Some(tag.(lastmod := lastmod, alternates := alternates, images := images, videos := videos)))
  }

  /** PHP `trim`'s default character set. */
  predicate IsTrimmed(c: char) {
    c == ' ' || c == '\t' || c == '\n' || c == '\r' || c == '\0' || c == '\U{B}'
  }

  /** `trim($s) === ''`. */
  predicate Blank(s: string) {
    forall i :: 0 <= i < |s| ==> IsTrimmed(s[i])
  }

  /**
   * `normalizeSitemapTagToUrl`: a tag is kept as it is, a string that is not
   * blank becomes a tag for its absolute URL, anything else is skipped.
   */
  function NormalizeSitemapTagToUrl(item: TagItem, base: Result<string>): (r: Result<Option<UrlTag>>)
    ensures item.UrlItem? ==> r == Success(Some(item.tag))
    ensures item.OtherItem? || (item.StrItem? && Blank(item.s)) ==> r == Success(None)
    ensures item.StrItem? && !Blank(item.s) && r.Success? ==>
      r.value.Some? && Success(r.value.value.loc) == NormalizeUrl(base, item.s)
  {
    match item
    case UrlItem(t) => Success(Some(t))
    case StrItem(s) =>
      if Blank(s) then Success(None)
      else
        var u :- NormalizeUrl(base, s);
        Success(Some(NewTag(u)))
    case OtherItem => Success(None)
  }
}

=== FILE: urls.dfy ===
/**
 * URL normalisation against the configured base URL, and the mapping from
 * sitemap part numbers to the files written and the public URLs listed in
 * the sitemap index.
 */
module Urls {
  import opened Prelude
  import opened PhpValues

  /** Where the files go: the local file system, or a storage disk. */
  datatype OutputMode = FileMode | DiskMode

  predicate IsAbsolute(url: string) {
    StartsWith(url, "http://") || StartsWith(url, "https://")
  }

  /**
   * The base URL: the configured `base_url`, else the application URL, cast
   * to a string and without trailing slashes. The cast throws for arrays and
   * date objects; the failure surfaces only where the base URL is needed.
   */
  function BaseUrl(configured: Value, appUrl: Value): (r: Result<string>)
    ensures r.Success? ==> r.value == [] || r.value[|r.value| - 1] != '/'
    ensures configured.Str? ==> r.Success? && StartsWith(configured.s, r.value)
    ensures configured == Null && appUrl.Str? ==> r.Success? && StartsWith(appUrl.s, r.value)
  {
    var raw := if configured != Null then configured else appUrl;
    var s :- ToStr(raw);
    Success(TrimTrailingSlashes(s))
  }

  /**
   * A URL made absolute: an `http://` or `https://` URL is kept as it is,
   * anything else is appended to the base URL with exactly one '/' between
   * them (the bare base URL when nothing is left of the path).
   */
  function NormalizeUrl(base: Result<string>, url: string): (r: Result<string>)
    ensures IsAbsolute(url) ==> r == Success(url)
    ensures !IsAbsolute(url) && base.Failure? ==> r == Failure(base.error)
    ensures !IsAbsolute(url) && base.Success? ==>
      r.Success? && StartsWith(r.value, TrimTrailingSlashes(base.value)) &&
      EndsWith(r.value, TrimLeadingSlashes(url))
    ensures !IsAbsolute(url) && base.Success? && TrimLeadingSlashes(url) == [] ==>
      r == Success(TrimTrailingSlashes(base.value))
  {
    if IsAbsolute(url) then Success(url)
    else
      var b :- base;
      var path := TrimLeadingSlashes(url);
      if path == [] then Success(TrimTrailingSlashes(b))
      else Success(TrimTrailingSlashes(b) + "/" + path)
  }

  /** Leading slashes of a relative URL make no difference. */
  lemma LeadingSlashesIgnored(base: Result<string>, url: string)
    requires !IsAbsolute(url)
    ensures !IsAbsolute("/" + url)
    ensures NormalizeUrl(base, "/" + url) == NormalizeUrl(base, url)
  {
    var s := "/" + url;
    assert s[0] == '/';
    assert !StartsWith(s, "http://") && !StartsWith(s, "https://") by {
      assert "http://"[0] == 'h' && "https://"[0] == 'h';
    }
    assert s[1..] == url;
    assert TrimLeadingSlashes(s) == TrimLeadingSlashes(url);
  }

  /**
   * Two relative URLs give the same absolute URL exactly when they agree
   * once their leading slashes are removed.
   */
  lemma RelativeUrlsCollideOnlyWhenEqual(base: string, u: string, v: string)
    requires !IsAbsolute(u) && !IsAbsolute(v)
    ensures NormalizeUrl(Success(base), u) == NormalizeUrl(Success(base), v)
        <==> TrimLeadingSlashes(u) == TrimLeadingSlashes(v)
  {
    var b := TrimTrailingSlashes(base);
    var p, q := TrimLeadingSlashes(u), TrimLeadingSlashes(v);
    var nu, nv := NormalizeUrl(Success(base), u).value, NormalizeUrl(Success(base), v).value;
    if p != [] && q != [] {
      assert nu[|b| + 1..] == p;
      assert nv[|b| + 1..] == q;
    } else if p != [] || q != [] {
      assert |nu| != |nv|;
    }
  }

  /** With an absolute base URL every normalised URL is absolute, so normalising again changes nothing. */
  lemma NormalizeIdempotent(base: string, url: string)
    requires IsAbsolute(TrimTrailingSlashes(base))
    ensures NormalizeUrl(Success(base), url).Success?
    ensures var once := NormalizeUrl(Success(base), url).value;
      IsAbsolute(once) && NormalizeUrl(Success(base), once) == Success(once)
  {
    var b := TrimTrailingSlashes(base);
    if !IsAbsolute(url) && TrimLeadingSlashes(url) != [] {
      var once := b + "/" + TrimLeadingSlashes(url);
      if StartsWith(b, "http://") {
        assert once[..7] == b[..7];
      } else {
        assert once[..8] == b[..8];
      }
    }
  }

  /** The file name of sitemap part `n`. */
  function PartFileName(n: nat): string {
    "sitemap-" + NatToString(n) + ".xml"
  }

  /** A part's file name is `sitemap-`, the number's digits, then `.xml`, with no '/'. */
  lemma PartFileNameShape(n: nat)
    ensures '/' !in PartFileName(n) && PartFileName(n) != []
    ensures StartsWith(PartFileName(n), "sitemap-") && EndsWith(PartFileName(n), ".xml")
  {
    var r := PartFileName(n);
    assert r[..8] == "sitemap-";
    assert r[|r| - 4..] == ".xml";
    assert forall i :: 8 <= i < |r| - 4 ==> r[i] == NatToString(n)[i - 8];
  }

  /** Different parts never share a file name. */
  lemma PartFileNamesDistinct(m: nat, n: nat)
    requires m != n
    ensures PartFileName(m) != PartFileName(n)
  {
    if PartFileName(m) == PartFileName(n) {
      var a, b := NatToString(m), NatToString(n);
      assert |a| == |b|;
      assert a == PartFileName(m)[8..8 + |a|];
      assert b == PartFileName(n)[8..8 + |b|];
      NatToStringInjective(m, n);
    }
  }

  /** The news sitemap's name is never the name of a part. */
  lemma NewsFileIsNoPart(n: nat)
    ensures PartFileName(n) != "sitemap-news.xml"
  {
    var d := NatToString(n);
    assert PartFileName(n)[8] == d[0];
    assert IsDigit(d[0]);
    assert !IsDigit("sitemap-news.xml"[8]);
  }

  /** Where part `n` is written: next to the main file in file mode, bare on the disk otherwise. */
  function PartWritePath(isFileMode: bool, dir: string, n: nat): string {
    if isFileMode then dir + "/" + PartFileName(n) else PartFileName(n)
  }

  /** Part `n`'s file is named after its number, in the main file's directory in file mode. */
  lemma PartWritePathShape(isFileMode: bool, dir: string, n: nat)
    ensures Basename(PartWritePath(isFileMode, dir, n)) == PartFileName(n)
    ensures isFileMode ==> StartsWith(PartWritePath(isFileMode, dir, n), dir + "/")
    ensures !isFileMode ==> PartWritePath(isFileMode, dir, n) == PartFileName(n)
  {
    var f := PartFileName(n);
    PartFileNameShape(n);
    if isFileMode {
      BasenameOfJoin(dir, f);
      assert (dir + "/" + f)[..|dir + "/"|] == dir + "/";
    } else {
      BasenameOfName(f);
    }
  }

  /** Where the news sitemap is written: next to the main file in file mode, bare on the disk otherwise. */
  function NewsPath(isFileMode: bool, mainPath: string): string {
    if isFileMode then Dirname(mainPath) + "/" + "sitemap-news.xml" else "sitemap-news.xml"
  }

  /** The news file is named `sitemap-news.xml`, in the main file's directory in file mode. */
  lemma NewsPathShape(isFileMode: bool, mainPath: string)
    ensures Basename(NewsPath(isFileMode, mainPath)) == "sitemap-news.xml"
    ensures isFileMode ==> StartsWith(NewsPath(isFileMode, mainPath), Dirname(mainPath) + "/")
  {
    if isFileMode {
      BasenameOfJoin(Dirname(mainPath), "sitemap-news.xml");
      var d := Dirname(mainPath) + "/";
      assert (d + "sitemap-news.xml")[..|d|] == d;
    } else {
      BasenameOfName("sitemap-news.xml");
    }
  }

  /** The news sitemap never overwrites a part file. */
  lemma NewsPathIsNoPartPath(isFileMode: bool, mainPath: string, dir: string, n: nat)
    ensures NewsPath(isFileMode, mainPath) != PartWritePath(isFileMode, dir, n)
  {
    NewsFileIsNoPart(n);
    NewsPathShape(isFileMode, mainPath);
    PartWritePathShape(isFileMode, dir, n);
  }

  /** Parts are written to pairwise different paths. */
  lemma PartWritePathsDistinct(isFileMode: bool, dir: string, m: nat, n: nat)
    requires m != n
    ensures PartWritePath(isFileMode, dir, m) != PartWritePath(isFileMode, dir, n)
  {
    PartFileNamesDistinct(m, n);
    PartWritePathShape(isFileMode, dir, m);
    PartWritePathShape(isFileMode, dir, n);
  }

  /**
   * The public URL of a written file: in file mode only its base name is
   * appended to the base URL, on a disk the whole disk path without leading
   * slashes.
   */
  function ResolvePublicUrl(mode: OutputMode, base: Result<string>, relativePath: string): (r: Result<string>)
    ensures base.Failure? ==> r == Failure(base.error)
    ensures base.Success? ==> r.Success?
  {
    var b :- base;
    var rest := if mode == FileMode then Basename(relativePath) else TrimLeadingSlashes(relativePath);
    Success(TrimTrailingSlashes(b) + "/" + rest)
  }

  /**
   * A public URL is the base URL, one '/', then the file's base name in
   * file mode or its disk path without leading slashes on a disk.
   */
  lemma ResolvePublicUrlShape(mode: OutputMode, base: string, relativePath: string)
    ensures var r := ResolvePublicUrl(mode, Success(base), relativePath).value;
      StartsWith(r, TrimTrailingSlashes(base) + "/") &&
      (mode == FileMode ==> EndsWith(r, Basename(relativePath))) &&
      (mode == DiskMode ==> EndsWith(r, TrimLeadingSlashes(relativePath)))
  {
    var prefix := TrimTrailingSlashes(base) + "/";
    var rest := if mode == FileMode then Basename(relativePath) else TrimLeadingSlashes(relativePath);
    assert (prefix + rest)[..|prefix|] == prefix;
    assert (prefix + rest)[|prefix + rest| - |rest|..] == rest;
  }

  /** The public URL of part `n`, the same in both modes. */
  lemma PartPublicUrl(mode: OutputMode, base: string, n: nat)
    ensures ResolvePublicUrl(mode, Success(base), PartFileName(n))
         == Success(TrimTrailingSlashes(base) + "/" + PartFileName(n))
  {
    PartFileNameShape(n);
    BasenameOfName(PartFileName(n));
    var f := PartFileName(n);
    assert f[0] == 's';
  }

  /** Distinct parts are listed in the index under distinct URLs. */
  lemma PartPublicUrlsDistinct(mode: OutputMode, base: string, m: nat, n: nat)
    requires m != n
    ensures ResolvePublicUrl(mode, Success(base), PartFileName(m))
         != ResolvePublicUrl(mode, Success(base), PartFileName(n))
  {
    PartPublicUrl(mode, base, m);
    PartPublicUrl(mode, base, n);
    PartFileNamesDistinct(m, n);
    var p := TrimTrailingSlashes(base) + "/";
    assert (p + PartFileName(m))[|p|..] == PartFileName(m);
    assert (p + PartFileName(n))[|p|..] == PartFileName(n);
  }
}
